=== FILE: README.md ===
# Daretna in Dafny

Daretna is a web app for running a *daret*: a rotating savings group (tontine).
A fixed set of members each pay the same amount every period. Each turn, the
whole pot goes to one member. This project models the app's group engine and
the deterministic logic around it, and proves properties of that model:

- the in-memory store of users, groups, chats and votes (`services/db.ts`):
  creating, joining and inviting; the draw that assigns turn positions;
  submitting and confirming payments; loyalty points; votes;
- the rule-based "AI" heuristics (`frontend/services/geminiService.ts`):
  the trust score and its badge, the turn-order optimiser, payment
  predictions, fraud rules, the group-health clamp and status, and the
  conflict templates;
- the pure derivations inside pages and components:
  - group detail: the member table, the receiver, "my turn to pay", progress
    and vote percentages;
  - dashboard: my groups, the creation limit, the receiving group, the
    status chart and the persona;
  - card-form formatting;
  - registration checks;
  - the notification list;
  - the command palette;
  - translation lookup.

Everything is a pure function over immutable datatypes. Store operations
return the new store, or a `Result` whose error case carries the message the
source throws. Generated ids, random seeds and clock readings are parameters.

Modules, one file each:

| file | module | what it holds |
|---|---|---|
| `wrappers.dfy` | `Wrappers` | `Option`, `Result` |
| `collections.dfy` | `Collections` | first-match search (`find`/`findIndex`), upsert, filter, count, map, sum |
| `sorting.dfy` | `Sorting` | stable insertion sort by key, with the uniqueness of the stable sort |
| `text.dfy` | `Text` | the string built-ins the pages use: digits, whitespace, `trim`, `toLowerCase`, `includes`, `split` |
| `numeric.dfy` | `Numeric` | `Math.round` of a ratio, clamping |
| `types.dfy` | `Types` | the records and enums of `frontend/types.ts` |
| `store.dfy` | `Store` | users, groups, session, chat, points, notifications, financial summary |
| `engine.dfy` | `Engine` | create / join / invite / draw / submit / confirm |
| `voting.dfy` | `Voting` | create and cast votes, tallies |
| `scoring.dfy` | `Scoring` | trust score, turn order, predictions, fraud, health, mediation |
| `group_view.dfy` | `GroupView` | derivations of the group page |
| `dashboard.dfy` | `Dashboard` | derivations of the dashboard |
| `payment_form.dfy` | `PaymentForm` | card number, expiry and CVV formatting |
| `registration.dfy` | `Registration` | the two-step sign-up |
| `notifications.dfy` | `Notifications` | the notification panel |
| `palette.dfy` | `Palette` | the command palette |
| `language.dfy` | `Language` | translations and text direction |

The model follows the code as written, including:

- `startDaret` orders members by their current position whatever the draw
  mode, and it can be run again;
- `joinGroup` accepts any group status;
- confirming a payment twice counts it twice;
- the dashboard's persona is computed from the whole trust-score object
  rather than the score (see Findings).

## Model

| member | source | states |
|---|---|---|
| Types.HistoryOrZero | services/db.ts:155 | a missing payment history reads as zero on-time, zero late, zero amount; a present one is kept |
| Types.StatusLabelRoundTrip | frontend/types.ts:31-35 | the display string of each group status ('En attente', 'Actif', 'Terminé') maps back to that status |
| Types.StatusLabelInjective | frontend/types.ts:31-35 | two statuses share a display string only if they are the same status, so literal comparisons on strings are sound |
| Store.GetUser | services/db.ts:90-92 | the user found has the requested id; none is found exactly when no user has that id |
| Store.GetGroup | services/db.ts:144-145 | the group found has the requested id; none is found exactly when no group has that id |
| Store.GetCurrentUser | services/db.ts:32-40 | no session means no current user; a current user is a stored user whose id is the session's |
| Store.UpdateUser | services/db.ts:52-67 | upsert: the user is then found under its id, every other id finds what it found before, other positions are untouched, the list grows by at most one |
| Store.SaveGroup | services/db.ts:101-110 | upsert of a group: found under its id afterwards, every other group unchanged at its index, at most one entry appended |
| Store.Login | services/db.ts:42-46 | the logged-in user becomes the current user and other users are unaffected |
| Store.Logout | services/db.ts:48-50 | there is no current user afterwards; users and groups are kept |
| Store.Register | services/db.ts:16-30 | the new account is FREE, Verified, has a zero history, carries the submitted fields, and is logged in |
| Store.LevelForMonotone | services/db.ts:76-79 | more points never give a lower level (Bronze < Argent < Or < Diamant at 200/500/1000) |
| Store.Earn | services/db.ts:72-79 | the points become the old count (0 when missing) plus the amount, the level is the one of the new total, and no other field changes |
| Store.AddPoints | services/db.ts:69-83 | an unknown user leaves the store unchanged; a known one is replaced by the user after earning the points; every other user is unchanged |
| Store.EarnNeverDemotes | services/db.ts:72-79 | earning a non-negative amount never lowers the level the points held reach |
| Store.UpgradeToPremium | services/db.ts:164-170 | only that user's role changes, to PREMIUM; an unknown id changes nothing |
| Store.GetGroupMessages | services/db.ts:213-216 | a group with a stored chat returns that chat, in stored order; a group without one has no messages |
| Store.SendGroupMessage | services/db.ts:218-232 | the message is appended to that group's chat with the sender's id and name; other chats, users and groups are unchanged |
| Store.ChatKeepsOrder | services/db.ts:218-232 | two messages sent in turn appear in sending order at the end of the chat |
| Store.GetNotifications | services/db.ts:173-179 | two unread notices for the user, with distinct ids |
| Store.GetFinancialSummary | services/db.ts:182-190 | the amount contributed is the history's total, zero without history; received and next amount are 0 |
| Engine.NewMembership | services/db.ts:201-208 | the membership carries the joining user's id, the group's id and the join time; it is a plain MEMBER with no turn position, a PENDING payment and no proof, missed-payment count or block flag |
| Engine.AppendKeepsUnique | services/db.ts:199-209 | appending a user who is not yet a member keeps member ids unique |
| Engine.SaveGroupKeepsInvariant | services/db.ts:101-110 | saving a group with unique member ids keeps ids unique in every group of the store |
| Engine.CreateGroup | services/db.ts:112-139 | the new group is PENDING, at turn 0, administered by the creator, whose single membership is ADMIN at position 1 and PENDING; a field given in the draft wins over the default even when it is empty; every other group, the users, chats, votes and session are unchanged |
| Engine.CreateGroupKeepsEmptyName | services/db.ts:115-123 | a draft with name '' and amount 0 yields a group named '' with amount 0: the defaults only fill absent fields |
| Engine.CreateGroupKeepsInvariant | services/db.ts:112-139 | creating a group keeps member ids unique everywhere |
| Engine.JoinGroup | services/db.ts:194-211 | "Groupe non trouvé" iff the group is missing, "Vous êtes déjà membre" iff the user is already in it, success iff neither; on success exactly one plain membership is appended and the other groups, users, chats, votes and session are unchanged |
| Engine.JoinGroupKeepsInvariant | services/db.ts:194-211 | a successful join keeps member ids unique in every group |
| Engine.JoinTwiceFails | services/db.ts:199 | joining a second time is refused as "already member" |
| Engine.JoinActiveGroupAccepted | services/db.ts:194-211 | the group's status is not checked: a non-member can join an ACTIVE group, and ends with no turn position |
| Engine.FindByContact | services/db.ts:242 | the first user matching the identifier by email or by phone, with no match earlier in the list; none is found iff no user matches |
| Engine.Placeholder | services/db.ts:264-272 | the placeholder is FREE, Unverified, with a zero history; the identifier is its email when it contains '@' and its phone otherwise, in which case the email is `invite-<stamp>@daretna.ma`; the name is the part before '@', or "Invité" when that part is empty; so it matches the identifier |
| Engine.InviteMember | services/db.ts:234-288 | missing group and "already member of the group" are reported exactly in their cases, and every other case succeeds; a known contact is appended; an unknown one first gets the placeholder account, then is appended; chats, votes and session are unchanged |
| Engine.FindPlaceholder | services/db.ts:263-275 | once stored, the placeholder is what the next search for the same identifier finds |
| Engine.InviteTwiceFails | services/db.ts:242-247 | inviting the same identifier twice is refused the second time, for known and new contacts alike |
| Engine.InviteKeepsInvariant | services/db.ts:234-288 | every successful invitation of a known contact, and every one of an unknown contact whose fresh id is not yet a member, keeps member ids unique in every group |
| Engine.NumberFrom | services/db.ts:301-303 | each member keeps its place and gets position `first + index` |
| Engine.StartDaret | services/db.ts:290-306 | succeeds iff the group exists; the stored group is the old one with status ACTIVE, the draw mode, date and seed (the first 8 characters of the UUID) set, and members numbered 1..N in their order, every other field kept; other groups, users, chats, votes and session unchanged |
| Engine.DrawPositionsExact | services/db.ts:301-303 | after the draw the set of positions is exactly {1..N}, and no two members share one |
| Engine.StartDaretKeepsInvariant | services/db.ts:290-306 | the draw keeps member ids unique |
| Engine.DrawIgnoresMode | services/db.ts:290-303 | two draws with different modes give the same members and positions |
| Engine.RestartReseeds | services/db.ts:290-298 | there is no status guard: drawing again on an ACTIVE group replaces seed and date |
| Engine.UpdateMember | services/db.ts:147-150 | position by position: the entry that is the first with that user id is transformed, every other entry is kept, and the length is unchanged |
| Engine.UpdateMemberKeepsIndex | services/db.ts:147-150 | a change that keeps the user id keeps that membership findable at the same index |
| Engine.IsMemberIndex | services/db.ts:199 | "is a member" and "the first-match search finds the user" agree |
| Engine.SubmitPayment | services/db.ts:308-319 | succeeds iff the group exists; a non-member is silently ignored; a member alone becomes SUBMITTED with the proof; users, chats, votes and session are untouched |
| Engine.SubmitPaymentKeepsInvariant | services/db.ts:308-319 | a submission keeps member ids unique |
| Engine.SubmittedFacts | services/db.ts:308-319 | after a submission the group, its amount and the membership are still there and users are unchanged |
| Engine.Settle | services/db.ts:155-157 | a settled history has one more on-time payment, the amount added, and the same late count; a missing history starts from zeros |
| Engine.RecordPayment | services/db.ts:143-162 | missing group or member: nothing changes; otherwise that member becomes CONFIRMED and the user's history gains one on-time payment of the group amount; the other groups, the other users, chats, votes and session are unchanged |
| Engine.RecordedMemberConfirmed | services/db.ts:147-150 | after recording, the member is found at the same index with status CONFIRMED |
| Engine.RecordedHistory | services/db.ts:153-158 | after recording, the user's history is the settled one, and the group and its amount are kept |
| Engine.ConfirmPayment | services/db.ts:321-323 | confirming is exactly recording the payment, so it inherits RecordPayment's contract (CONFIRMED, one settlement, everything else framed); the member ends CONFIRMED |
| Engine.RecordPaymentKeepsInvariant | services/db.ts:143-162 | recording a payment keeps member ids unique |
| Engine.DoubleConfirmCountsTwice | services/db.ts:143-162 | there is no idempotency guard: two confirmations add two on-time payments and twice the amount |
| Engine.SubmitThenConfirm | services/db.ts:308-323 | submit then confirm leaves the member CONFIRMED and the history grown by exactly one settlement |
| Voting.GetGroupVotes | services/db.ts:333-337 | every listed vote is a stored vote of that group, every stored vote of that group is listed, in stored order, once per stored entry |
| Voting.CreatedVoteListedLast | services/db.ts:339-358 | a created vote appears last in its group's list, after the votes listed before; other groups' lists are unchanged |
| Voting.NewOptions | services/db.ts:348 | one option per label, in order, each with count 0 |
| Voting.CreateVote | services/db.ts:339-358 | the new vote is OPEN, has no voters and zero counts, is well formed and is appended to the store |
| Voting.Ballot | services/db.ts:374-375 | exactly the chosen option gains one vote, the voter is appended once, and the total grows by one |
| Voting.CastVote | services/db.ts:360-379 | "Vote non trouvé", "Vous avez déjà voté", "Le vote est clos" and "Option invalide", each exactly when that check is the first to fail; on success the ballot is applied to that vote only |
| Voting.BallotKeepsWellFormed | services/db.ts:368-375 | a ballot by a new voter keeps counts non-negative, voters distinct and the counts summing to the number of voters |
| Voting.CreateVoteKeepsWellFormed | services/db.ts:339-358 | creating a vote keeps every stored vote well formed |
| Voting.CastVoteKeepsWellFormed | services/db.ts:360-379 | a successful ballot keeps every stored vote well formed, so counts always add up to voters |
| Voting.VoteTwiceRefused | services/db.ts:368 | a second ballot by the same user is refused as "already voted" |
| Voting.NothingCloses | services/db.ts:339-379 | no operation closes a vote, so "Le vote est clos" is never raised for votes created here |
| Voting.OptionPercent | pages/GroupDetail.tsx:868 | 0 when nobody voted; otherwise the integer nearest to 100·count/total, halves rounded up (2·total·r ≤ 200·count + total < 2·total·(r+1)); within 0..100 for a count up to the total, 100 for an option holding every vote |
| Voting.PercentFollowsCount | pages/GroupDetail.tsx:868 | within one vote, an option with no more votes than another never shows a longer bar |
| Voting.PercentInRange | pages/GroupDetail.tsx:856-868 | in a well-formed vote every option's percentage lies in 0..100 |
| Voting.TotalVotes | pages/GroupDetail.tsx:856 | with non-negative counts the total is non-negative and at least every option's count |
| Voting.CastMarksVoter | pages/GroupDetail.tsx:857 | after a successful ballot the "Voté" badge shows for the voter, and every other user keeps the badge they had |
| Voting.ProposeVote | pages/GroupDetail.tsx:244-258 | a blank question creates nothing; otherwise a two-option vote is created |
| Scoring.TrustBadge | frontend/services/geminiService.ts:449-457 | Fiable iff score ≥ 80, Moyen iff 50 ≤ score < 80, Risqué iff score < 50 |
| Scoring.TrustBadgeMonotone | frontend/services/geminiService.ts:449-457 | a higher score never gets a worse badge |
| Scoring.CalculateTrustScore | frontend/services/geminiService.ts:413-447 | the score is 50 + 10·onTime − 5·late + 5 for a complete profile, clamped to 0..100; the level is the badge of the score; the suggested amount is 100·score ≤ 10000 |
| Scoring.TrustScoreMonotone | frontend/services/geminiService.ts:416-424 | more on-time payments and fewer late ones never lower the score |
| Scoring.NewcomerScore | frontend/services/geminiService.ts:416-424 | a complete profile without history scores 55, level Moyen |
| Scoring.RankByTrust | frontend/services/geminiService.ts:504-509 | members with their scores, in non-increasing score order, as a stable permutation of the input |
| Scoring.OptimizeTurnOrder | frontend/services/geminiService.ts:503-511 | the result holds exactly the input ids, in non-increasing trust order |
| Scoring.TurnOrderIsUnique | frontend/services/geminiService.ts:509 | any stable descending ordering of the scored members is the one computed: ties keep input order |
| Scoring.RiskFactors | frontend/services/geminiService.ts:144-167 | each factor is present exactly when its condition holds: no history, late rate > 0.3, amount > 2× average paid, incomplete profile |
| Scoring.RiskScore | frontend/services/geminiService.ts:142-167 | the risk lies in 0..80, and a risk of 50 or more is one of 55, 65 or 80 |
| Scoring.RiskIsSumOfFactorWeights | frontend/services/geminiService.ts:142-167 | the risk is the sum of the weights (30, 40, 25, 15) of the factors listed |
| Scoring.Predict | frontend/services/geminiService.ts:136-180 | on time iff risk < 50; confidence is min(95, 50 + 5 × payments), equal to 95 iff at least 9 payments; a delay of floor(risk/10) days, in 5..8, only when late |
| Scoring.PredictedLateIff | frontend/services/geminiService.ts:145-170 | a member is predicted late exactly when the late rate is high and the amount or the profile adds risk |
| Scoring.NoHistoryPredictedOnTime | frontend/services/geminiService.ts:151-170 | a member without history is always predicted on time (30 + 25 is impossible, 30 + 15 < 50) |
| Scoring.PredictPayments | frontend/services/geminiService.ts:133-184 | one prediction per member, ordered by ascending confidence, a stable permutation of the per-member predictions |
| Scoring.DetectFraud | frontend/services/geminiService.ts:70-127 | never a velocity alert; the KYC alert iff new user and amount > 5000; the HIGH pattern alert iff late/total > 0.5; the unusual-amount alert iff amount > 3× the historical average; no other alert, and the alerts come in the order of their checks |
| Scoring.NewUserHasNoAverageAlert | frontend/services/geminiService.ts:74-124 | a new user never gets the unusual-amount alert |
| Scoring.HealthStatusFor | frontend/services/geminiService.ts:211-216 | EXCELLENT ≥ 80, GOOD ≥ 60, FAIR ≥ 40, POOR ≥ 20, else CRITICAL, each as an exact range |
| Scoring.HealthStatusMonotone | frontend/services/geminiService.ts:211-216 | a higher health score never gets a worse status |
| Scoring.AnalyzeGroupHealth | frontend/services/geminiService.ts:195-239 | the score lies in 0..100, is the clamped adjusted average rounded half up, and the status is read from the clamped value |
| Scoring.StatusReadBeforeRounding | frontend/services/geminiService.ts:208-239 | at 79.5 the status is GOOD while the displayed score is 80 |
| Scoring.StepsFor | frontend/services/geminiService.ts:372-400 | each template lists five distinct steps, all its own; the redraw vote only for turn-order disputes, proof collection only for payment disputes |
| Scoring.MediateConflict | frontend/services/geminiService.ts:353-405 | five distinct steps, all from the template of the conflict's type; a redraw vote is proposed iff the dispute is about turn order, proof collection iff it is about a payment; analysis and resolution are those of the type's template |
| Scoring.SameStepsIffSameTemplate | frontend/services/geminiService.ts:367-402 | two conflict types get the same steps exactly when the switch sends them to the same template |
| Scoring.BehaviourSharesDefault | frontend/services/geminiService.ts:392-402 | MEMBER_BEHAVIOR and OTHER get the same mediation |
| GroupView.Hydrate | pages/GroupDetail.tsx:58-61 | the row keeps the membership; the name is the user's, or "Inconnu" when the user is missing or unnamed; the email is the user's or '' |
| GroupView.TurnKey | pages/GroupDetail.tsx:62 | the sort key is the position, with a missing or zero position read as 999 |
| GroupView.MembersDetails | pages/GroupDetail.tsx:57-62 | the table is a stable permutation of the hydrated memberships, in non-decreasing position order |
| GroupView.UnassignedComeLast | pages/GroupDetail.tsx:62 | every row after an unassigned member has key ≥ 999 |
| GroupView.MyMemberInfo | pages/GroupDetail.tsx:273 | found iff the user is a member, and then it is that user's first membership in the list |
| GroupView.JoinShowsMembership | pages/GroupDetail.tsx:273 | after a join, the page finds exactly the fresh membership of the new member |
| GroupView.IsMyTurnToPay | pages/GroupDetail.tsx:274 | true iff the group is ACTIVE, the user is a member, and their status is PENDING or LATE |
| GroupView.SubmitEndsMyTurn | pages/GroupDetail.tsx:274 | once a member of the group sends a proof, their membership is SUBMITTED and the prompt to pay is gone |
| GroupView.ConfirmEndsMyTurn | pages/GroupDetail.tsx:274 | once a member's payment is confirmed, their membership is CONFIRMED and the prompt to pay is gone |
| GroupView.Receiver | pages/GroupDetail.tsx:275 | the first displayed row holding position currentTurnIndex + 1 (no earlier row holds it); none iff no row holds it |
| GroupView.DisplayedRows | pages/GroupDetail.tsx:57-62 | a row is displayed iff it is the hydration of some membership |
| GroupView.ReceiverAfterDraw | pages/GroupDetail.tsx:275 | after a draw, the receiver is the member at index currentTurnIndex |
| GroupView.NoReceiverBeforeDraw | pages/GroupDetail.tsx:275 | before the draw no member holds a position, so there is no receiver |
| GroupView.CycleTotal | pages/GroupDetail.tsx:141 | the cycle total is the sum of one contribution per displayed member |
| GroupView.JoinRaisesCycleTotal | pages/GroupDetail.tsx:141 | each successful join raises the cycle total the page shows by exactly one contribution |
| GroupView.Progress | pages/GroupDetail.tsx:355 | undefined without members; otherwise the integer nearest to 100·(currentTurnIndex+1)/n, halves rounded up; within 0..100 for a turn in range; 100 at the last turn |
| GroupView.ProgressMonotone | pages/GroupDetail.tsx:355 | advancing the turn never lowers the progress |
| GroupView.AdminControlsLifecycle | pages/GroupDetail.tsx:611 | the creator sees the admin controls on the new group, and loses them once the draw makes it ACTIVE |
| GroupView.CreatorIsAdmin | pages/GroupDetail.tsx:272 | on a new group the creator, and only the creator, is admin, and holds the ADMIN membership |
| GroupView.JoinKeepsAdminControls | pages/GroupDetail.tsx:445 | a join changes neither admin nor status, so the invite form stays exactly where it was shown |
| Dashboard.MyGroups | frontend/pages/Dashboard.tsx:57 | exactly the groups with a membership for the user, in their order, once per stored entry |
| Dashboard.Candidates | frontend/pages/Dashboard.tsx:82 | exactly the groups without a membership for the user, in their order, once per stored entry |
| Dashboard.GroupsPartition | frontend/pages/Dashboard.tsx:57-82 | my groups and the candidates together account for every group once |
| Dashboard.CreatedGroupListed | frontend/pages/Dashboard.tsx:57 | a newly created group appears among its creator's groups |
| Dashboard.ActiveGroupsCount | frontend/pages/Dashboard.tsx:89 | the number of groups not 'Terminé', i.e. the ACTIVE ones plus the PENDING ones; zero iff all are completed |
| Dashboard.CanCreate | frontend/pages/Dashboard.tsx:90 | PREMIUM always may create; FREE may iff fewer than 5 unfinished groups |
| Dashboard.CompletedGroupsDoNotCount | frontend/pages/Dashboard.tsx:89-90 | adding a completed group never changes whether one may create |
| Dashboard.MemberAtTurn | frontend/pages/Dashboard.tsx:65 | the first membership at position currentTurnIndex + 1 (no earlier one holds it); none iff no membership holds it |
| Dashboard.ReceiverGroup | frontend/pages/Dashboard.tsx:63-66 | the first of my groups (no earlier one qualifies) that is ACTIVE and whose current-turn member is the user; none iff no such group |
| Dashboard.MemberAtTurnAfterDraw | frontend/pages/Dashboard.tsx:65 | after a draw, the member at the turn is the one at index currentTurnIndex |
| Dashboard.DashboardAgreesWithGroupPage | frontend/pages/Dashboard.tsx:63-66 | after a draw the dashboard and the group page name the same receiver |
| Dashboard.StatusCountsAddUp | frontend/pages/Dashboard.tsx:119-122 | the three status counts add up to the number of groups |
| Dashboard.Positive | frontend/pages/Dashboard.tsx:123 | exactly the slices with a positive count |
| Dashboard.GroupDistribution | frontend/pages/Dashboard.tsx:119-123 | one slice per status that occurs, carrying that status's group count, in Actifs / En attente / Terminés order; the counts sum to the number of groups |
| Dashboard.PositiveKeepsSum | frontend/pages/Dashboard.tsx:123 | dropping empty slices keeps the total |
| Dashboard.PersonaTitle | frontend/pages/Dashboard.tsx:146-152 | each title exactly on its band: ≥ 90, 80–89, 70–79, 60–69, and "Apprenti" below 60 |
| Dashboard.PersonaMonotone | frontend/pages/Dashboard.tsx:146-152 | a higher score never gets a lower persona, and equal ranks give equal personas |
| Dashboard.PersonaOfValue | frontend/pages/Dashboard.tsx:146-154 | on a number the persona is the persona of that number |
| Dashboard.PersonaAsWritten | frontend/pages/Dashboard.tsx:154 | as written, the persona is "Apprenti" whatever the trust score |
| Dashboard.PersonaAsWrittenIgnoresScore | frontend/pages/Dashboard.tsx:154 | a trust score of 95 still yields "Apprenti" instead of the top persona |
| Dashboard.PersonaCorrected | frontend/pages/Dashboard.tsx:146-154 | the persona of the score itself, "Apprenti" while no score is loaded |
| Dashboard.PersonaCorrectedMonotone | frontend/pages/Dashboard.tsx:146-154 | the corrected persona follows the score monotonically |
| PaymentForm.FormatCardNumber | frontend/pages/PaymentSimulation.tsx:134 | at most 19 characters of digits and spaces; a space exactly at positions 4, 9, 14; no leading or trailing space; without spaces, the first min(16, #digits) digits of the input |
| PaymentForm.LayoutTrimmed | frontend/pages/PaymentSimulation.tsx:134 | trimming the group-by-four layout leaves digit groups joined by single spaces |
| PaymentForm.CardClosedForm | frontend/pages/PaymentSimulation.tsx:134 | the formatted number is the grouping of the first 16 digits |
| PaymentForm.GroupedTake | frontend/pages/PaymentSimulation.tsx:134 | cutting the grouping after j groups (5j − 1 characters) is grouping the first 4j digits |
| PaymentForm.GroupedShape | frontend/pages/PaymentSimulation.tsx:134 | in the grouping, spaces sit exactly where index mod 5 = 4 and everything else is a digit |
| PaymentForm.GroupedEnds | frontend/pages/PaymentSimulation.tsx:134 | the grouping starts with the first digit and ends with the last |
| PaymentForm.GroupedWithoutSpaces | frontend/pages/PaymentSimulation.tsx:134 | removing the spaces, or keeping only the digits, gives back the digits |
| PaymentForm.CardNumberIdempotent | frontend/pages/PaymentSimulation.tsx:134 | formatting the displayed number again changes nothing |
| PaymentForm.FormatExpiry | frontend/pages/PaymentSimulation.tsx:136 | at most 5 characters; fewer than 2 digits are shown as they are; otherwise two digits, '/', then up to two more; removing the slash gives the first four digits |
| PaymentForm.ExpiryShape | frontend/pages/PaymentSimulation.tsx:136 | the layout of the first four digits is the digits themselves below two, and otherwise two digits, '/', and at most two more, five characters at most |
| PaymentForm.ExpiryTake | frontend/pages/PaymentSimulation.tsx:136 | cutting at 5 characters is laying out the first 4 digits |
| PaymentForm.ExpiryIdempotent | frontend/pages/PaymentSimulation.tsx:136 | formatting the displayed expiry again changes nothing |
| PaymentForm.FormatCvv | frontend/pages/PaymentSimulation.tsx:138 | the first at most 4 digits of the input: exactly 4 when there are that many, all of them when there are fewer |
| PaymentForm.CvvIdempotent | frontend/pages/PaymentSimulation.tsx:138 | formatting the displayed CVV again changes nothing |
| PaymentForm.FormatField | frontend/pages/PaymentSimulation.tsx:131-139 | any field other than the three card fields is stored as typed |
| PaymentForm.HandleChange | frontend/pages/PaymentSimulation.tsx:141 | only the named field is set, to its formatted value; every other field is kept |
| PaymentForm.HandleChangeStable | frontend/pages/PaymentSimulation.tsx:129-142 | feeding back what the field shows leaves the form unchanged |
| Registration.SetField | pages/Register.tsx:27-30 | only the edited field changes, and the error is cleared |
| Registration.Validate | pages/Register.tsx:37-49 | mismatch first, then a password under 6 UTF-16 code units, then a phone that is not 06/07 plus 8 digits once whitespace is removed; accepted iff all three pass |
| Registration.PasswordLengthInCodeUnits | pages/Register.tsx:41 | `.length` counts code units: three emoji already pass the length rule, while fewer than six characters without astral characters fail it |
| Registration.RequestCode | pages/Register.tsx:33-61 | the page moves to the code step iff the form passes; otherwise the first error's message is shown and the step stays |
| Registration.AccountData | pages/Register.tsx:76-81 | the account gets the name, email, phone as typed and password of the form |
| Registration.VerifyCode | pages/Register.tsx:64-89 | a code other than '1234' is refused with "Code de vérification incorrect." and nothing is registered; '1234' registers a FREE account with the form's data and logs it in |
| Registration.PhoneSpacesIgnored | pages/Register.tsx:45-46 | whitespace inside the phone number does not change the verdict |
| Registration.NameAndEmailIrrelevant | pages/Register.tsx:37-49 | name and email take no part in the checks |
| Registration.OtpStepNeedsValidForm | pages/Register.tsx:51-56 | the code step is reached only from a form passing all three checks |
| Registration.EditClearsError | pages/Register.tsx:27-30 | editing any field clears the error and keeps the step |
| Registration.SpacedNumberKept | pages/Register.tsx:45-81 | a mobile number typed with spaces passes the check, and the account stores it with its spaces |
| Notifications.UnreadCount | frontend/components/NotificationCenter.tsx:98 | at most the list length; zero iff every item is read |
| Notifications.ShowMarkAllIffUnread | frontend/components/NotificationCenter.tsx:100 | the "mark all" button shows iff the unread count is positive |
| Notifications.MarkAsRead | frontend/components/NotificationCenter.tsx:23-27 | same length and order; an item is read afterwards iff it was read or has the id; no other field changes |
| Notifications.MarkAllAsRead | frontend/components/NotificationCenter.tsx:29-31 | same length and order; every item read; no other field changes |
| Notifications.Delete | frontend/components/NotificationCenter.tsx:33-35 | no item with the id remains, every item with another id does, and the survivors keep their order |
| Notifications.Visible | frontend/components/NotificationCenter.tsx:37-39 | 'all' is the whole list; 'unread' holds exactly the unread items, in their order, as many as the badge says |
| Notifications.MarkAllClears | frontend/components/NotificationCenter.tsx:29-31 | after "mark all" the badge is 0, the button is hidden and the unread view is empty |
| Notifications.MarkAllIdempotent | frontend/components/NotificationCenter.tsx:29-31 | marking all twice is marking all once |
| Notifications.MarkAsReadIdempotent | frontend/components/NotificationCenter.tsx:23-27 | marking an id twice is marking it once |
| Notifications.MarkAllAbsorbsMarkOne | frontend/components/NotificationCenter.tsx:23-31 | marking one item before "mark all" makes no difference |
| Notifications.MarkAsReadLowersBadge | frontend/components/NotificationCenter.tsx:23-27 | marking an id lowers the badge by the number of unread items with that id |
| Notifications.DeleteCount | frontend/components/NotificationCenter.tsx:33-35 | deleting removes exactly as many items as carry the id |
| Notifications.DeleteIdempotent | frontend/components/NotificationCenter.tsx:33-35 | deleting twice is deleting once; an unknown id deletes nothing |
| Notifications.DeleteCommutesWithUnreadView | frontend/components/NotificationCenter.tsx:33-39 | the unread view after a deletion is the deletion applied to the unread view |
| Palette.Filtered | frontend/components/CommandPalette.tsx:27-29 | the entries whose lower-cased title contains the lower-cased query, all of them, in original order |
| Palette.EmptyQueryKeepsAll | frontend/components/CommandPalette.tsx:27-29 | the empty query keeps every entry |
| Palette.NarrowingQuery | frontend/components/CommandPalette.tsx:27-29 | typing more characters can only remove entries |
| Palette.JsRem | frontend/components/CommandPalette.tsx:33-34 | JavaScript's remainder: for a non-negative dividend the position by repeated subtraction, for a negative one its negation (the sign follows the dividend) |
| Palette.Down | frontend/components/CommandPalette.tsx:33 | NaN on an empty list and after NaN; otherwise the next entry, wrapping from the last to the first |
| Palette.Up | frontend/components/CommandPalette.tsx:34 | NaN on an empty list and after NaN; otherwise the previous entry, wrapping from the first to the last |
| Palette.ArrowsStayInRange | frontend/components/CommandPalette.tsx:33-34 | on a non-empty list both arrows keep the cursor on an entry, and each undoes the other |
| Palette.DownTimes | frontend/components/CommandPalette.tsx:33 | repeated ArrowDown keeps a valid cursor valid |
| Palette.Wrap | frontend/components/CommandPalette.tsx:33 | a position counted around a circle of n entries is below n |
| Palette.WrapStep | frontend/components/CommandPalette.tsx:33 | one more step around the circle moves on by one, wrapping at n |
| Palette.DownTimesWraps | frontend/components/CommandPalette.tsx:33 | k presses of ArrowDown move the cursor k entries on, around the circle |
| Palette.FullTurn | frontend/components/CommandPalette.tsx:33 | n presses of ArrowDown return to the starting entry |
| Palette.NaNAbsorbs | frontend/components/CommandPalette.tsx:33-34 | once NaN, the arrows keep the cursor NaN |
| Palette.Type | frontend/components/CommandPalette.tsx:72-75 | typing sets the query and puts the cursor on the first entry |
| Palette.Hover | frontend/components/CommandPalette.tsx:84 | hovering an entry puts the cursor on it |
| Palette.KeyDown | frontend/components/CommandPalette.tsx:31-39 | Escape and Enter close; Enter runs the entry under the cursor iff there is one; the arrows move the cursor and keep it valid; no key changes the query |
| Palette.EmptyListRunsNothing | frontend/components/CommandPalette.tsx:33-38 | with nothing matching, ArrowDown makes the cursor NaN and Enter then runs nothing |
| Language.Translate | contexts/LanguageContext.tsx:49-51 | the current table's entry when present and non-empty, the key itself when absent |
| Language.Dir | contexts/LanguageContext.tsx:55 | left to right iff French |
| Language.FontClass | contexts/LanguageContext.tsx:55 | a font class iff Darija |
| Language.EntriesNonEmpty | contexts/LanguageContext.tsx:11-42 | a key present in a table is translated, never echoed |
| Language.TableKeys | contexts/LanguageContext.tsx:11-42 | Arabic and Darija translate the same keys, and French strictly fewer |
| Language.FrenchEchoesCreateKeys | contexts/LanguageContext.tsx:12-28 | every `create.*` key comes back unchanged in French, while Arabic and Darija translate the ones they list |
| Language.UnknownKeyEverywhere | contexts/LanguageContext.tsx:49-51 | a key in no table reads the same in every language: the key itself |

## Left out

- Browser storage: `localStorage` and JSON (de)serialisation are replaced by an in-memory store.
- Generated ids (`crypto.randomUUID`) and the clock (`new Date()`, `Date.now()`) are parameters. The model does not promise they are fresh or increasing.
- `sendOTP` always succeeds in the source, so the model has no failure for it. The OTP message it logs is not modelled.
- `sendReminders` returns a fixed string and has no logic.
- The vote's `expiresAt` is stored but never checked by the source, so the model does not check it either.
- The payment simulators of `services/payment.ts` (random outcome, timers) and the PayPal callbacks of `PaymentSimulation.tsx`: these are external and nondeterministic.
- The initial card form holds `user.name.toUpperCase()`. Case mapping outside ASCII and Latin-1 is not modelled; the form field is modelled only through `handleChange`.
- Text.Lower maps only ASCII and Latin-1 capitals. The rest of Unicode case folding used by `toLowerCase` is left out.
- The generative-AI network calls (`createAdvancedChatbot`, `sendMessage`) and `cleanMarkdownForSpeech`.
- `getSmartRecommendations` and `suggestGroups`: these are floating-point averages feeding recommendation texts.
- `analyzeGroupHealth`: the success probability, completion rate, issue list and recommendations are left out. The score and status are modelled.
- `detectFraud`: the alerts' message and recommendation texts are left out. Severity, type and confidence are modelled.
- Scoring.AnalyzeGroupHealth: computed on exact reals, not IEEE doubles. The half-up rounding of `Math.round` is modelled for non-negative values only, which is the only case after the clamp.
- Scoring.RiskFactors: the message of the late-rate factor holds a rounded percentage. That text is not modelled; only the factor's presence and the rate are.
- Voting.OptionPercent, GroupView.Progress: `Math.round((a / b) * 100)` is computed on exact rationals, not on IEEE doubles. The double product can fall just below a half and round down where the exact value rounds up: 23 votes out of 40 give (23/40)·100 = 57.49999999999999 on the page, so the page shows 57 where the model gives 58. Progress differs in the same way at currentTurnIndex 22 of 40 members.
- Ratio tests (`late/total > 0.3`, `amount > avg * 2`) are modelled as exact rational comparisons by cross-multiplication, so floating-point rounding at the boundary is not reproduced.
- Scoring.StepWording: the numbered French line of each step is kept as the source writes it, but no contract reads the wording. Contracts speak about which steps a template lists.
- The description and the parties passed to `mediateConflict` are not read by the source, so the model does not take them.
- `createGroup` drafts: only the four fields pages pass (name, amount, periodicity, start date) are modelled. The other `Partial<DaretGroup>` fields a caller could pass are not.
- Language.Translate: keys inherited from JavaScript's object prototype (such as `constructor`) are not modelled. Their lookup would return a function rather than the key.
- Pages with no logic of their own are not modelled: presentation, animation, PDF export, roadmap geometry, routing and the theme toggle's effect on the document.
- `Login.tsx` and `Profile.tsx` call store methods that `services/db.ts` does not define, so they are not part of this model.
- The Express/MySQL backend is not connected to the group logic and is not modelled.
- The test scripts (`test_logic.ts`, `frontend/test_creation.ts`) are not modelled.

## Findings

| source | as written | input that shows it | evidently intended | confidence | as-written member | corrected member |
|---|---|---|---|---|---|---|
| frontend/pages/Dashboard.tsx:154 | `getPersonaTitle(trustScore)` is given the whole `AiTrustScore` object (or `null` before it loads), so every `>=` comparison is false and the persona is always "L'Apprenti de la Daret" | a loaded trust score of 95 (level Fiable) | `getPersonaTitle(trustScore.score)`, which gives "Le Sage de l'Épargne" at 95 | not executed | Dashboard.PersonaAsWrittenIgnoresScore | Dashboard.PersonaCorrected |

=== FILE: collections.dfy ===
/** Sequence helpers shared by every collection of the store: first-match
    lookup (`Array.prototype.find`/`findIndex`), the upsert every `save…`
    operation performs, filtering, counting and mapping. */
module Collections {
  import opened Wrappers

  /** Index of the first element satisfying `p`, as `findIndex` returns it
      (`None` standing for -1). */
  function FirstIndex<T>(s: seq<T>, p: T -> bool): (r: Option<nat>)
    ensures r.Some? ==> r.value < |s| && p(s[r.value])
    ensures r.Some? ==> forall j :: 0 <= j < r.value ==> !p(s[j])
    ensures r.None? <==> forall j :: 0 <= j < |s| ==> !p(s[j])
  {
    if |s| == 0 then None
    else if p(s[0]) then Some(0)
    else match FirstIndex(s[1..], p)
      case Some(i) => Some(i + 1)
      case None => None
  }

  /** The first element satisfying `p` (`Array.prototype.find`). */
  function Find<T>(s: seq<T>, p: T -> bool): (r: Option<T>)
    ensures r.Some? ==> r.value in s && p(r.value)
    ensures r.Some? ==> exists i :: 0 <= i < |s| && s[i] == r.value && forall j :: 0 <= j < i ==> !p(s[j])
    ensures r.None? <==> forall j :: 0 <= j < |s| ==> !p(s[j])
  {
    match FirstIndex(s, p)
    case Some(i) => Some(s[i])
    case None => None
  }

  /** Index of the first element whose key is `k`. */
  function IndexOfKey<T, K(==)>(s: seq<T>, key: T -> K, k: K): (r: Option<nat>)
    ensures r.Some? ==> r.value < |s| && key(s[r.value]) == k
    ensures r.Some? ==> forall j :: 0 <= j < r.value ==> key(s[j]) != k
    ensures r.None? <==> forall j :: 0 <= j < |s| ==> key(s[j]) != k
  {
    if |s| == 0 then None
    else if key(s[0]) == k then Some(0)
    else match IndexOfKey(s[1..], key, k)
      case Some(i) => Some(i + 1)
      case None => None
  }

  /** The first element whose key is `k` (`s.find(x => x.id === k)`). */
  function Lookup<T, K(==)>(s: seq<T>, key: T -> K, k: K): (r: Option<T>)
    ensures r.Some? ==> r.value in s && key(r.value) == k
    ensures r.None? <==> forall j :: 0 <= j < |s| ==> key(s[j]) != k
  {
    match IndexOfKey(s, key, k)
    case Some(i) => Some(s[i])
    case None => None
  }

  predicate HasKey<T, K(==)>(s: seq<T>, key: T -> K, k: K) {
    exists j :: 0 <= j < |s| && key(s[j]) == k
  }

  /** Keys are pairwise distinct. */
  predicate UniqueKeys<T, K(==)>(s: seq<T>, key: T -> K) {
    forall i, j :: 0 <= i < j < |s| ==> key(s[i]) != key(s[j])
  }

  /** The upsert of `saveGroup`/`updateUser`: the first entry with the same key
      is replaced in place, otherwise the value is appended. */
  function Upsert<T, K(==)>(s: seq<T>, key: T -> K, x: T): (r: seq<T>)
    ensures HasKey(s, key, key(x)) ==> |r| == |s|
    ensures !HasKey(s, key, key(x)) ==> |r| == |s| + 1 && r[|s|] == x
    ensures forall i :: 0 <= i < |s| && key(s[i]) != key(x) ==> r[i] == s[i]
    ensures forall i :: 0 <= i < |r| ==> r[i] == x || (i < |s| && r[i] == s[i])
    ensures Lookup(r, key, key(x)) == Some(x)
  {
    match IndexOfKey(s, key, key(x))
    case Some(i) => s[i := x]
    case None => s + [x]
  }

  /** Saving one entry changes no lookup of any other key. */
  lemma {:induction false} LookupUpsertOther<T, K>(s: seq<T>, key: T -> K, x: T, k: K)
    requires k != key(x)
    ensures Lookup(Upsert(s, key, x), key, k) == Lookup(s, key, k)
  {
    var r := Upsert(s, key, x);
    assert forall i :: 0 <= i < |r| ==> (key(r[i]) == k <==> i < |s| && key(s[i]) == k);
    match IndexOfKey(s, key, k)
    case Some(i) =>
      assert r[i] == s[i];
      assert forall j :: 0 <= j < i ==> key(r[j]) != k;
      IndexOfKeyUnique(r, key, k, i);
    case None =>
      assert forall j :: 0 <= j < |r| ==> key(r[j]) != k;
  }

  /** The first index with key `k` is determined by the keys alone. */
  lemma IndexOfKeyUnique<T, K>(s: seq<T>, key: T -> K, k: K, i: nat)
    requires i < |s| && key(s[i]) == k
    requires forall j :: 0 <= j < i ==> key(s[j]) != k
    ensures IndexOfKey(s, key, k) == Some(i)
  {
    var r := IndexOfKey(s, key, k);
    assert r.Some?;
    if r.value < i {
    } else if r.value > i {
    }
  }

  /** Upserting into a sequence with distinct keys keeps its keys distinct. */
  lemma UpsertKeepsUniqueKeys<T, K>(s: seq<T>, key: T -> K, x: T)
    requires UniqueKeys(s, key)
    ensures UniqueKeys(Upsert(s, key, x), key)
  {
    var r := Upsert(s, key, x);
    forall i, j | 0 <= i < j < |r|
      ensures key(r[i]) != key(r[j])
    {
      match IndexOfKey(s, key, key(x))
      case Some(m) =>
      case None =>
        assert !HasKey(s, key, key(x));
    }
  }

  /** `r` is obtained from `s` by dropping elements: what remains keeps its
      relative order. */
  ghost predicate IsSubsequence<T>(r: seq<T>, s: seq<T>)
    decreases |s|
  {
    |r| <= |s|
    && (|r| == 0
        || (r[0] == s[0] && IsSubsequence(r[1..], s[1..]))
        || IsSubsequence(r, s[1..]))
  }

  /** The elements satisfying `p`, in their original order (`Array.prototype.filter`). */
  function Filter<T>(s: seq<T>, p: T -> bool): (r: seq<T>)
    ensures IsSubsequence(r, s)
    ensures |r| <= |s|
    ensures forall i :: 0 <= i < |r| ==> r[i] in s && p(r[i])
    ensures forall i :: 0 <= i < |s| && p(s[i]) ==> s[i] in r
    ensures multiset(r) <= multiset(s)
  {
    if |s| == 0 then []
    else
      assert s == [s[0]] + s[1..];
      if p(s[0]) then [s[0]] + Filter(s[1..], p) else Filter(s[1..], p)
  }

  lemma FilterAppend<T>(a: seq<T>, b: seq<T>, p: T -> bool)
    ensures Filter(a + b, p) == Filter(a, p) + Filter(b, p)
  {
    if |a| == 0 {
      assert a + b == b;
    } else {
      assert (a + b)[1..] == a[1..] + b;
      FilterAppend(a[1..], b, p);
    }
  }

  /** Filtering a sequence whose every element passes keeps it whole. */
  lemma {:induction false} FilterKeepsAll<T>(s: seq<T>, p: T -> bool)
    requires forall i :: 0 <= i < |s| ==> p(s[i])
    ensures Filter(s, p) == s
  {
    if |s| > 0 {
      FilterKeepsAll(s[1..], p);
    }
  }

  /** One unfolding step of `Filter` on an explicit head. */
  lemma FilterCons<T>(x: T, t: seq<T>, p: T -> bool)
    ensures Filter([x] + t, p) == if p(x) then [x] + Filter(t, p) else Filter(t, p)
  {
    assert ([x] + t)[0] == x;
    assert ([x] + t)[1..] == t;
  }

  /** Two sequences with the same multiset hold the same elements. */
  lemma SameElements<T>(a: seq<T>, b: seq<T>, x: T)
    requires multiset(a) == multiset(b)
    ensures x in a <==> x in b
  {
    assert x in a <==> x in multiset(a);
    assert x in b <==> x in multiset(b);
  }

  /** Filtering one element keeps it or drops it. */
  lemma FilterSingle<T>(x: T, p: T -> bool)
    ensures Filter([x], p) == if p(x) then [x] else []
  {
    assert [x][1..] == [];
  }

  /** A rejected separator between two runs disappears. */
  lemma FilterSkip<T>(a: seq<T>, x: T, b: seq<T>, p: T -> bool)
    requires !p(x)
    ensures Filter(a + [x] + b, p) == Filter(a, p) + Filter(b, p)
  {
    var ax := a + [x];
    assert Filter(ax, p) == Filter(a, p) by {
      FilterAppend(a, [x], p);
      assert Filter([x], p) == [] by {
        assert [x][1..] == [];
      }
    }
    FilterAppend(ax, b, p);
  }

  /** Two filters commute. */
  lemma {:induction false} FilterCommutes<T>(s: seq<T>, p: T -> bool, q: T -> bool)
    ensures Filter(Filter(s, p), q) == Filter(Filter(s, q), p)
  {
    if |s| > 0 {
      var x, t := s[0], s[1..];
      FilterCommutes(t, p, q);
      assert s == [x] + t;
      FilterCons(x, t, p);
      FilterCons(x, t, q);
      FilterCons(x, Filter(t, p), q);
      FilterCons(x, Filter(t, q), p);
    }
  }

  /** Filtering twice with the same test is filtering once. */
  lemma {:induction false} FilterIdempotent<T>(s: seq<T>, p: T -> bool)
    ensures Filter(Filter(s, p), p) == Filter(s, p)
  {
    var r := Filter(s, p);
    FilterKeepsAll(r, p);
  }

  /** Number of elements satisfying `p`. */
  function Count<T>(s: seq<T>, p: T -> bool): (n: nat)
    ensures n <= |s|
    ensures n == 0 <==> forall j :: 0 <= j < |s| ==> !p(s[j])
    ensures n == |s| <==> forall j :: 0 <= j < |s| ==> p(s[j])
  {
    if |s| == 0 then 0
    else (if p(s[0]) then 1 else 0) + Count(s[1..], p)
  }

  /** Every element passes a test or fails it. */
  lemma {:induction false} CountComplement<T>(s: seq<T>, p: T -> bool, q: T -> bool)
    requires forall x :: q(x) == !p(x)
    ensures Count(s, p) + Count(s, q) == |s|
  {
    if |s| > 0 {
      CountComplement(s[1..], p, q);
    }
  }

  lemma CountIsFilterLength<T>(s: seq<T>, p: T -> bool)
    ensures Count(s, p) == |Filter(s, p)|
  {
  }

  /** `Array.prototype.map`. */
  function Map<T, U>(s: seq<T>, f: T -> U): (r: seq<U>)
    ensures |r| == |s|
    ensures forall i {:trigger r[i]} :: 0 <= i < |s| ==> r[i] == f(s[i])
  {
    if |s| == 0 then [] else [f(s[0])] + Map(s[1..], f)
  }

  lemma MapAppend<T, U>(a: seq<T>, b: seq<T>, f: T -> U)
    ensures Map(a + b, f) == Map(a, f) + Map(b, f)
  {
  }

  /** An index holding `x`, whose removal removes one occurrence of `x`. */
  lemma PickOccurrence<T>(b: seq<T>, x: T) returns (j: nat)
    requires x in multiset(b)
    ensures j < |b| && b[j] == x
    ensures multiset(b[..j] + b[j + 1..]) == multiset(b) - multiset{x}
  {
    j :| 0 <= j < |b| && b[j] == x;
    assert b[j..] == [b[j]] + b[j + 1..];
    assert b == b[..j] + b[j..];
    assert b == b[..j] + [b[j]] + b[j + 1..];
  }

  /** `Map` on an explicit head. */
  lemma MapCons<T, U>(x: T, t: seq<T>, f: T -> U)
    ensures Map([x] + t, f) == [f(x)] + Map(t, f)
  {
    assert ([x] + t)[1..] == t;
  }

  /** Removing a later element commutes with taking the head off. */
  lemma RemoveAtTail<T>(b: seq<T>, j: nat)
    requires 0 < j < |b|
    ensures b[..j] + b[j + 1..] == [b[0]] + (b[1..][..j - 1] + b[1..][j..])
  {
    assert b[..j] == [b[0]] + b[1..][..j - 1];
    assert b[j + 1..] == b[1..][j..];
  }

  /** Putting the same head on both sides keeps a multiset equation. */
  lemma MultisetConsBoth<U>(y: U, m: seq<U>, m': seq<U>, z: U)
    requires multiset(m) == multiset(m') + multiset{z}
    ensures multiset([y] + m) == multiset([y] + m') + multiset{z}
  {
  }

  /** Mapping after removing the element at `j`. */
  lemma {:induction false} MapRemoveAt<T, U>(b: seq<T>, j: nat, f: T -> U)
    requires j < |b|
    ensures multiset(Map(b, f)) == multiset(Map(b[..j] + b[j + 1..], f)) + multiset{f(b[j])}
    decreases j
  {
    var x, tail := b[0], b[1..];
    assert b == [x] + tail;
    MapCons(x, tail, f);
    if j == 0 {
      assert b[..0] + b[1..] == tail;
    } else {
      var rest := tail[..j - 1] + tail[j..];
      RemoveAtTail(b, j);
      MapCons(x, rest, f);
      MapRemoveAt(tail, j - 1, f);
      MultisetConsBoth(f(x), Map(tail, f), Map(rest, f), f(b[j]));
    }
  }

  /** Mapping a permutation gives a permutation of the images. */
  lemma {:induction false} MapPreservesPermutation<T, U>(a: seq<T>, b: seq<T>, f: T -> U)
    requires multiset(a) == multiset(b)
    ensures multiset(Map(a, f)) == multiset(Map(b, f))
    decreases |a|
  {
    if |a| == 0 {
      assert |b| == |multiset(b)| == 0;
    } else {
      var x, t := a[0], a[1..];
      assert a == [x] + t;
      assert multiset(a) == multiset{x} + multiset(t);
      var j := PickOccurrence(b, x);
      var rest := b[..j] + b[j + 1..];
      MapPreservesPermutation(t, rest, f);
      MapRemoveAt(b, j, f);
      MapCons(x, t, f);
    }
  }

  /** Sum of a sequence of integers (`reduce((a, x) => a + x, 0)`). */
  function Sum(s: seq<int>): int {
    if |s| == 0 then 0 else s[0] + Sum(s[1..])
  }

  lemma SumAppend(a: seq<int>, b: seq<int>)
    ensures Sum(a + b) == Sum(a) + Sum(b)
  {
    if |a| == 0 {
      assert a + b == b;
    } else {
      assert (a + b)[1..] == a[1..] + b;
      SumAppend(a[1..], b);
    }
  }

  /** Adding `d` at one position adds `d` to the sum. */
  lemma {:induction false} SumUpdate(s: seq<int>, i: nat, d: int)
    requires i < |s|
    ensures Sum(s[i := s[i] + d]) == Sum(s) + d
    decreases |s|
  {
    if i == 0 {
      assert s[i := s[i] + d][1..] == s[1..];
    } else {
      assert s[i := s[i] + d][1..] == s[1..][i - 1 := s[i] + d];
      SumUpdate(s[1..], i - 1, d);
    }
  }

  /** In a sequence of non-negative numbers each element is at most the sum. */
  lemma {:induction false} ElementAtMostSum(s: seq<int>, i: nat)
    requires forall j :: 0 <= j < |s| ==> s[j] >= 0
    requires i < |s|
    ensures 0 <= s[i] <= Sum(s)
    decreases |s|
  {
    if i == 0 {
      SumNonNegative(s[1..]);
    } else {
      ElementAtMostSum(s[1..], i - 1);
    }
  }

  /** Every element of a sequence of non-negative numbers is bounded by the
      sum. */
  lemma AllAtMostSum(s: seq<int>)
    requires forall j :: 0 <= j < |s| ==> s[j] >= 0
    ensures Sum(s) >= 0
    ensures forall i :: 0 <= i < |s| ==> s[i] <= Sum(s)
  {
    SumNonNegative(s);
    forall i | 0 <= i < |s|
      ensures s[i] <= Sum(s)
    {
      ElementAtMostSum(s, i);
    }
  }

  lemma {:induction false} SumNonNegative(s: seq<int>)
    requires forall j :: 0 <= j < |s| ==> s[j] >= 0
    ensures Sum(s) >= 0
    decreases |s|
  {
    if |s| > 0 {
      SumNonNegative(s[1..]);
    }
  }
}

=== FILE: dashboard.dfy ===
/** What the dashboard (frontend/pages/Dashboard.tsx) derives for the
    signed-in user: their groups and the others, the creation limit, the
    group whose turn pays them, the status distribution and the persona
    title read from the trust score. */
module Dashboard {
  import opened Wrappers
  import opened Types
  import opened Store
  import Collections
  import Engine
  import GroupView

  function Joined(userId: string): DaretGroup -> bool {
    (g: DaretGroup) => Engine.IsMember(g, userId)
  }

  function NotJoined(userId: string): DaretGroup -> bool {
    (g: DaretGroup) => !Engine.IsMember(g, userId)
  }

  /** `myGroups`: the groups holding a membership of the user, in order. */
  function MyGroups(groups: seq<DaretGroup>, userId: string): (r: seq<DaretGroup>)
    ensures forall i :: 0 <= i < |r| ==> r[i] in groups && Engine.IsMember(r[i], userId)
    ensures forall i :: 0 <= i < |groups| && Engine.IsMember(groups[i], userId) ==> groups[i] in r
    ensures Collections.IsSubsequence(r, groups)
    ensures |r| == Collections.Count(groups, Joined(userId))
  {
    Collections.CountIsFilterLength(groups, Joined(userId));
    Collections.Filter(groups, Joined(userId))
  }

  /** The suggestion candidates: every group the user is not in, in order. */
  function Candidates(groups: seq<DaretGroup>, userId: string): (r: seq<DaretGroup>)
    ensures forall i :: 0 <= i < |r| ==> r[i] in groups && !Engine.IsMember(r[i], userId)
    ensures forall i :: 0 <= i < |groups| && !Engine.IsMember(groups[i], userId) ==> groups[i] in r
    ensures Collections.IsSubsequence(r, groups)
    ensures |r| == Collections.Count(groups, NotJoined(userId))
  {
    Collections.CountIsFilterLength(groups, NotJoined(userId));
    Collections.Filter(groups, NotJoined(userId))
  }

  /** The two lists split the groups: together they have as many entries as
      there are groups. */
  lemma {:induction false} GroupsPartition(groups: seq<DaretGroup>, userId: string)
    ensures |MyGroups(groups, userId)| + |Candidates(groups, userId)| == |groups|
  {
    Collections.CountComplement(groups, Joined(userId), NotJoined(userId));
  }

  /** A group just created appears among the creator's groups. */
  lemma CreatedGroupListed(s: Store, data: Engine.GroupDraft, creator: User, id: string, now: string)
    ensures Engine.CreateGroup(s, data, creator, id, now).1 in MyGroups(Engine.CreateGroup(s, data, creator, id, now).0.groups, creator.id)
  {
    var (s1, g) := Engine.CreateGroup(s, data, creator, id, now);
    assert g.members[0].userId == creator.id;
    assert g in s1.groups;
    var i :| 0 <= i < |s1.groups| && s1.groups[i] == g;
  }

  predicate NotCompleted(g: DaretGroup) { g.status != Completed }

  /** `activeGroupsCount`: the groups not yet 'Terminé'. */
  function ActiveGroupsCount(groups: seq<DaretGroup>): (n: nat)
    ensures n <= |groups|
    ensures n == 0 <==> forall i :: 0 <= i < |groups| ==> groups[i].status == Completed
    ensures n == CountStatus(groups, Active) + CountStatus(groups, Pending)
  {
    NotCompletedCount(groups);
    Collections.Count(groups, NotCompleted)
  }

  /** The groups not completed are the active ones and the pending ones. */
  lemma {:induction false} NotCompletedCount(groups: seq<DaretGroup>)
    ensures Collections.Count(groups, NotCompleted) == CountStatus(groups, Active) + CountStatus(groups, Pending)
    decreases |groups|
  {
    if |groups| > 0 {
      NotCompletedCount(groups[1..]);
    }
  }

  /** The free plan allows five running groups; premium has no limit. */
  const FreeGroupLimit := 5

  /** `canCreate`. */
  function CanCreate(u: User, groups: seq<DaretGroup>): (b: bool)
    ensures u.role == Premium ==> b
    ensures u.role == Free ==> (b <==> ActiveGroupsCount(groups) < FreeGroupLimit)
  {
    u.role == Premium || ActiveGroupsCount(groups) < FreeGroupLimit
  }

  /** Completed groups do not count against the limit. */
  lemma CompletedGroupsDoNotCount(u: User, groups: seq<DaretGroup>, g: DaretGroup)
    requires g.status == Completed
    ensures CanCreate(u, groups + [g]) == CanCreate(u, groups)
  {
    Collections.FilterAppend(groups, [g], NotCompleted);
    Collections.CountIsFilterLength(groups + [g], NotCompleted);
    Collections.CountIsFilterLength(groups, NotCompleted);
  }

  /** `g.members.find(m => m.tourPosition === g.currentTurnIndex + 1)`. */
  function MemberAtTurn(g: DaretGroup): (r: Option<Membership>)
    ensures r.Some? ==> r.value in g.members && r.value.tourPosition == Some(g.currentTurnIndex + 1)
    ensures r.Some? ==> exists i :: 0 <= i < |g.members| && g.members[i] == r.value
                         && forall j :: 0 <= j < i ==> g.members[j].tourPosition != Some(g.currentTurnIndex + 1)
    ensures r.None? <==> forall i :: 0 <= i < |g.members| ==> g.members[i].tourPosition != Some(g.currentTurnIndex + 1)
  {
    Collections.Find(g.members, (m: Membership) => m.tourPosition == Some(g.currentTurnIndex + 1))
  }

  predicate PaysUserNow(g: DaretGroup, userId: string) {
    g.status == Active && MemberAtTurn(g).Some? && MemberAtTurn(g).value.userId == userId
  }

  /** `receiverGroup`: the first running group of the user whose current turn
      is theirs. */
  function ReceiverGroup(myGroups: seq<DaretGroup>, userId: string): (r: Option<DaretGroup>)
    ensures r.Some? ==> r.value in myGroups && PaysUserNow(r.value, userId)
    ensures r.Some? ==> exists i :: 0 <= i < |myGroups| && myGroups[i] == r.value
                         && forall j :: 0 <= j < i ==> !PaysUserNow(myGroups[j], userId)
    ensures r.None? <==> forall i :: 0 <= i < |myGroups| ==> !PaysUserNow(myGroups[i], userId)
  {
    Collections.Find(myGroups, (g: DaretGroup) => PaysUserNow(g, userId))
  }

  /** After a draw, the member found at the current turn is the member at
      index `currentTurnIndex`. */
  lemma MemberAtTurnAfterDraw(g: DaretGroup)
    requires Engine.PositionsAreOneToN(g)
    requires 0 <= g.currentTurnIndex < |g.members|
    ensures MemberAtTurn(g) == Some(g.members[g.currentTurnIndex])
  {
    var k := g.currentTurnIndex;
    assert g.members[k].tourPosition == Some(k + 1);
    var m := MemberAtTurn(g).value;
    var j :| 0 <= j < |g.members| && g.members[j] == m;
    assert g.members[j].tourPosition == Some(j + 1);
  }

  /** After a draw, the dashboard and the group page agree on who receives. */
  lemma DashboardAgreesWithGroupPage(s: Store, g: DaretGroup)
    requires Engine.PositionsAreOneToN(g)
    requires 0 <= g.currentTurnIndex < |g.members|
    ensures GroupView.Receiver(g, GroupView.MembersDetails(s, g)).Some?
    ensures MemberAtTurn(g).Some?
    ensures GroupView.Receiver(g, GroupView.MembersDetails(s, g)).value.membership == MemberAtTurn(g).value
  {
    MemberAtTurnAfterDraw(g);
    GroupView.ReceiverAfterDraw(s, g);
  }

  // ------------------------------------------------------ distribution

  /** One slice of the pie: a status, shown under its French label, and how
      many groups have it. */
  datatype Slice = Slice(status: GroupStatus, value: nat) {
    function Name(): string {
      match status
      case Active => "Actifs"
      case Pending => "En attente"
      case Completed => "Terminés"
    }
  }

  /** The position of a status in the pie: Actifs, En attente, Terminés. */
  function SliceRank(st: GroupStatus): nat {
    match st
    case Active => 0
    case Pending => 1
    case Completed => 2
  }

  /** How many groups have status `st`. */
  function CountStatus(groups: seq<DaretGroup>, st: GroupStatus): nat {
    if |groups| == 0 then 0
    else (if groups[0].status == st then 1 else 0) + CountStatus(groups[1..], st)
  }

  /** Every group has exactly one status. */
  lemma {:induction false} StatusCountsAddUp(groups: seq<DaretGroup>)
    ensures CountStatus(groups, Active) + CountStatus(groups, Pending) + CountStatus(groups, Completed) == |groups|
    decreases |groups|
  {
    if |groups| > 0 {
      StatusCountsAddUp(groups[1..]);
    }
  }

  function Positive(xs: seq<Slice>): (r: seq<Slice>)
    ensures forall i :: 0 <= i < |r| ==> r[i].value > 0 && r[i] in xs
    ensures forall i :: 0 <= i < |xs| && xs[i].value > 0 ==> xs[i] in r
  {
    Collections.Filter(xs, (x: Slice) => x.value > 0)
  }

  function SliceValues(xs: seq<Slice>): seq<int> {
    Collections.Map(xs, (x: Slice) => x.value as int)
  }

  /** `groupDistribution`: Actifs / En attente / Terminés, keeping only the
      statuses that occur. */
  function GroupDistribution(groups: seq<DaretGroup>): (r: seq<Slice>)
    ensures forall i :: 0 <= i < |r| ==> r[i].value > 0 && r[i].value == CountStatus(groups, r[i].status)
    ensures forall st :: CountStatus(groups, st) > 0 <==> Slice(st, CountStatus(groups, st)) in r
    ensures forall i, j :: 0 <= i < j < |r| ==> SliceRank(r[i].status) < SliceRank(r[j].status)
    ensures |r| <= 3
    ensures Collections.Sum(SliceValues(r)) == |groups|
  {
    var all := AllSlices(groups);
    DistributionSum(groups);
    PositiveKeepsOrder(all);
    PositiveSlices(groups);
    Positive(all)
  }

  /** Dropping the empty statuses keeps one slice per group. */
  lemma DistributionSum(groups: seq<DaretGroup>)
    ensures Collections.Sum(SliceValues(Positive(AllSlices(groups)))) == |groups|
  {
    StatusCountsAddUp(groups);
    ThreeSlicesKeepSum(AllSlices(groups));
  }

  /** One slice per status, in pie order, zero counts included. */
  function AllSlices(groups: seq<DaretGroup>): (all: seq<Slice>)
    ensures |all| == 3
    ensures forall i :: 0 <= i < 3 ==> all[i].value == CountStatus(groups, all[i].status) && SliceRank(all[i].status) == i
  {
    [Slice(Active, CountStatus(groups, Active)),
     Slice(Pending, CountStatus(groups, Pending)),
     Slice(Completed, CountStatus(groups, Completed))]
  }

  /** The positive slices are exactly the statuses that occur, with their
      counts. */
  lemma PositiveSlices(groups: seq<DaretGroup>)
    ensures var r := Positive(AllSlices(groups));
            forall i :: 0 <= i < |r| ==> r[i].value > 0 && r[i].value == CountStatus(groups, r[i].status)
    ensures forall st :: CountStatus(groups, st) > 0 <==> Slice(st, CountStatus(groups, st)) in Positive(AllSlices(groups))
  {
    var all := AllSlices(groups);
    var r := Positive(all);
    forall i | 0 <= i < |r|
      ensures r[i].value > 0 && r[i].value == CountStatus(groups, r[i].status)
    {
      assert r[i] in all;
    }
    forall st
      ensures CountStatus(groups, st) > 0 <==> Slice(st, CountStatus(groups, st)) in r
    {
      match st
      case Active => assert all[0] == Slice(st, CountStatus(groups, st));
      case Pending => assert all[1] == Slice(st, CountStatus(groups, st));
      case Completed => assert all[2] == Slice(st, CountStatus(groups, st));
    }
  }

  /** Filtering keeps the slices in the order they had. */
  lemma {:induction false} PositiveKeepsOrder(xs: seq<Slice>)
    requires forall i, j :: 0 <= i < j < |xs| ==> SliceRank(xs[i].status) < SliceRank(xs[j].status)
    ensures forall i, j :: 0 <= i < j < |Positive(xs)| ==> SliceRank(Positive(xs)[i].status) < SliceRank(Positive(xs)[j].status)
    decreases |xs|
  {
    if |xs| > 0 {
      var rest := xs[1..];
      PositiveKeepsOrder(rest);
      var r := Positive(xs);
      if xs[0].value > 0 {
        assert r == [xs[0]] + Positive(rest);
        forall j | 0 <= j < |Positive(rest)|
          ensures SliceRank(xs[0].status) < SliceRank(Positive(rest)[j].status)
        {
          var k :| 0 <= k < |rest| && rest[k] == Positive(rest)[j];
        }
      } else {
        assert r == Positive(rest);
      }
    }
  }

  /** Dropping the empty slices of three keeps their total. */
  lemma ThreeSlicesKeepSum(all: seq<Slice>)
    requires |all| == 3
    ensures Collections.Sum(SliceValues(Positive(all))) == all[0].value + all[1].value + all[2].value
  {
    PositiveKeepsSum(all);
    SumOfThree(all);
  }

  lemma SumOfThree(xs: seq<Slice>)
    requires |xs| == 3
    ensures Collections.Sum(SliceValues(xs)) == xs[0].value + xs[1].value + xs[2].value
  {
    var v := SliceValues(xs);
    assert v[1..][1..][1..] == [];
    assert Collections.Sum(v[1..][1..]) == v[2];
    assert Collections.Sum(v[1..]) == v[1] + v[2];
  }

  /** Dropping zero slices keeps the total. */
  lemma {:induction false} PositiveKeepsSum(xs: seq<Slice>)
    ensures Collections.Sum(SliceValues(Positive(xs))) == Collections.Sum(SliceValues(xs))
    decreases |xs|
  {
    if |xs| > 0 {
      var rest := xs[1..];
      PositiveKeepsSum(rest);
      assert SliceValues(xs)[1..] == SliceValues(rest);
      if xs[0].value > 0 {
        var kept := Positive(xs);
        assert kept == [xs[0]] + Positive(rest);
        assert SliceValues(kept)[1..] == SliceValues(Positive(rest));
      } else {
        assert Positive(xs) == Positive(rest);
      }
    }
  }

  // ------------------------------------------------------------ persona

  datatype Persona = Persona(title: string, color: string)

  /** `getPersonaTitle` on a number: thresholds 90 / 80 / 70 / 60. */
  function PersonaTitle(score: int): (p: Persona)
    ensures score >= 90 <==> p.title == "Le Sage de l'Épargne 🏆"
    ensures 80 <= score < 90 <==> p.title == "Le Gardien de la Médina 🛡️"
    ensures 70 <= score < 80 <==> p.title == "L'Artisan de Confiance 🛠️"
    ensures 60 <= score < 70 <==> p.title == "Le Voyageur Prudent 🧭"
    ensures score < 60 <==> p == Apprentice
  {
    if score >= 90 then Persona("Le Sage de l'Épargne 🏆", "text-amber-500")
    else if score >= 80 then Persona("Le Gardien de la Médina 🛡️", "text-blue-500")
    else if score >= 70 then Persona("L'Artisan de Confiance 🛠️", "text-green-500")
    else if score >= 60 then Persona("Le Voyageur Prudent 🧭", "text-slate-500")
    else Apprentice
  }

  const Apprentice := Persona("L'Apprenti de la Daret 🌱", "text-rose-500")

  function PersonaRank(score: int): nat {
    if score >= 90 then 4 else if score >= 80 then 3 else if score >= 70 then 2 else if score >= 60 then 1 else 0
  }

  /** The title climbs with the score and never goes back. */
  lemma PersonaMonotone(a: int, b: int)
    requires a <= b
    ensures PersonaRank(a) <= PersonaRank(b)
    ensures PersonaRank(a) == PersonaRank(b) ==> PersonaTitle(a) == PersonaTitle(b)
  {
  }

  /** The JavaScript values the page can hand to `getPersonaTitle`. */
  datatype JsValue = JsNull | JsNumber(n: int) | JsObject(score: AiTrustScore)

  /** `v >= n` under JavaScript's loose comparison: `null` reads as 0, a plain
      object as NaN (so the comparison is false). */
  predicate JsAtLeast(v: JsValue, n: int) {
    match v
    case JsNull => 0 >= n
    case JsNumber(x) => x >= n
    case JsObject(_) => false
  }

  /** `getPersonaTitle` applied to whatever value it receives. */
  function PersonaOfValue(v: JsValue): (p: Persona)
    ensures v.JsNumber? ==> p == PersonaTitle(v.n)
  {
    if JsAtLeast(v, 90) then Persona("Le Sage de l'Épargne 🏆", "text-amber-500")
    else if JsAtLeast(v, 80) then Persona("Le Gardien de la Médina 🛡️", "text-blue-500")
    else if JsAtLeast(v, 70) then Persona("L'Artisan de Confiance 🛠️", "text-green-500")
    else if JsAtLeast(v, 60) then Persona("Le Voyageur Prudent 🧭", "text-slate-500")
    else Apprentice
  }

  /** The page as written: it passes the trust-score object itself (or null
      while loading). */
  function PersonaAsWritten(trustScore: Option<AiTrustScore>): (p: Persona)
    ensures p == Apprentice
  {
    PersonaOfValue(if trustScore.None? then JsNull else JsObject(trustScore.value))
  }

  /** The discrepancy: a trust score of 95 still shows the apprentice title,
      while the score itself calls for the top title. */
  lemma PersonaAsWrittenIgnoresScore()
    ensures var ts := AiTrustScore(95, Fiable, "", 9500);
            PersonaAsWritten(Some(ts)) == Apprentice
            && PersonaTitle(ts.score) != Apprentice
  {
  }

  /** The evidently intended page: read the score as the gauge does
      (`trustScore?.score || 0`). */
  function PersonaCorrected(trustScore: Option<AiTrustScore>): (p: Persona)
    ensures trustScore.None? ==> p == Apprentice
    ensures trustScore.Some? ==> p == PersonaTitle(trustScore.value.score)
  {
    PersonaOfValue(JsNumber(if trustScore.None? then 0 else trustScore.value.score))
  }

  /** With the correction the title follows the score monotonically. */
  lemma PersonaCorrectedMonotone(a: AiTrustScore, b: AiTrustScore)
    requires a.score <= b.score
    ensures PersonaRank(a.score) <= PersonaRank(b.score)
    ensures PersonaCorrected(Some(b)) == PersonaTitle(b.score)
  {
    PersonaMonotone(a.score, b.score);
  }
}

=== FILE: engine.dfy ===
/** The Daret group engine of services/db.ts: creating a group, joining,
    inviting, the draw that starts the rotation, and payment submission and
    settlement. The operations behave as the source does, including its
    gaps: `StartDaret` has no status guard and ignores the draw mode,
    `RecordPayment` is not idempotent, `JoinGroup` accepts any status. */
module Engine {
  import opened Wrappers
  import opened Types
  import opened Store
  import Collections
  import Text

  /** The errors thrown by the engine, with their messages. */
  datatype EngineError = GroupNotFound | AlreadyMember | AlreadyMemberOfGroup {
    function Message(): string {
      match this
      case GroupNotFound => "Groupe non trouvé"
      case AlreadyMember => "Vous êtes déjà membre"
      case AlreadyMemberOfGroup => "Cet utilisateur est déjà membre du groupe."
    }
  }

  predicate IsMember(g: DaretGroup, userId: string) {
    exists i :: 0 <= i < |g.members| && g.members[i].userId == userId
  }

  /** No user holds two memberships of one group. */
  predicate UniqueMembers(g: DaretGroup) {
    forall i, j :: 0 <= i < j < |g.members| ==> g.members[i].userId != g.members[j].userId
  }

  /** Every stored group has unique members. */
  predicate MembersUniqueEverywhere(s: Store) {
    forall i :: 0 <= i < |s.groups| ==> UniqueMembers(s.groups[i])
  }

  /** A fresh membership as joining and inviting create it: plain member, no
      turn position until the draw, payment pending. */
  function NewMembership(userId: string, groupId: string, now: string): (m: Membership)
    ensures m.userId == userId && m.groupId == groupId && m.joinedAt == now
    ensures m.role == Member && m.tourPosition.None? && m.paymentStatus == PaymentPending
    ensures m.paymentProofUrl.None? && m.missedPayments.None? && m.isBlocked.None?
  {
    Membership(userId, groupId, Member, None, PaymentPending, None, now, None, None)
  }

  /** Adding a membership for a non-member keeps members unique. */
  lemma AppendKeepsUnique(g: DaretGroup, m: Membership)
    requires UniqueMembers(g) && !IsMember(g, m.userId)
    ensures UniqueMembers(g.(members := g.members + [m]))
  {
  }

  /** Saving a group with unique members keeps the store-wide invariant. */
  lemma SaveGroupKeepsInvariant(s: Store, g: DaretGroup)
    requires MembersUniqueEverywhere(s) && UniqueMembers(g)
    ensures MembersUniqueEverywhere(SaveGroup(s, g))
  {
  }

  // ---------------------------------------------------------------- create

  /** The fields a caller may pass to `createGroup`; `None` is a field that
      is absent from the object. */
  datatype GroupDraft = GroupDraft(
    name: Option<string>,
    amountPerPerson: Option<int>,
    periodicity: Option<Periodicity>,
    startDate: Option<string>)

  /** `createGroup`. The defaults are written before `...data`, so a field
      present in the draft wins even when it is `''` or `0`. `id` and `now`
      stand for the generated id and the current date. */
  function CreateGroup(s: Store, data: GroupDraft, creator: User, id: string, now: string): (r: (Store, DaretGroup))
    ensures var g := r.1;
      && g.id == id && g.status == Pending && g.currentTurnIndex == 0 && g.adminId == creator.id
      && g.members == [Membership(creator.id, id, Admin, Some(1), PaymentPending, None, now, None, None)]
      && g.drawMode.None? && g.drawSeed.None? && g.drawDate.None?
    ensures data.name.Some? ==> r.1.name == data.name.value
    ensures data.name.None? ==> r.1.name == "Nouveau Groupe"
    ensures data.amountPerPerson.Some? ==> r.1.amountPerPerson == data.amountPerPerson.value
    ensures data.amountPerPerson.None? ==> r.1.amountPerPerson == 1000
    ensures r.1.periodicity == data.periodicity
    ensures r.1.startDate == (if data.startDate.Some? then data.startDate.value else now)
    ensures GetGroup(r.0, id) == Some(r.1)
    ensures forall k :: k != id ==> GetGroup(r.0, k) == GetGroup(s, k)
    ensures r.0.users == s.users
    ensures r.0.chats == s.chats && r.0.votes == s.votes && r.0.session == s.session
  {
    var g := DaretGroup(
      id,
      data.name.GetOr("Nouveau Groupe"),
      data.amountPerPerson.GetOr(1000),
      data.periodicity,
      data.startDate.GetOr(now),
      Pending,
      creator.id,
      [Membership(creator.id, id, Admin, Some(1), PaymentPending, None, now, None, None)],
      0,
      None, None, None);
    (SaveGroup(s, g), g)
  }

  /** The default name applies only to an absent field: the create page always
      sends its name field, so an empty name is stored as the empty string. */
  lemma CreateGroupKeepsEmptyName(s: Store, creator: User, id: string, now: string)
    ensures CreateGroup(s, GroupDraft(Some(""), Some(0), None, Some("")), creator, id, now).1.name == ""
    ensures CreateGroup(s, GroupDraft(Some(""), Some(0), None, Some("")), creator, id, now).1.amountPerPerson == 0
  {
  }

  lemma CreateGroupKeepsInvariant(s: Store, data: GroupDraft, creator: User, id: string, now: string)
    requires MembersUniqueEverywhere(s)
    ensures MembersUniqueEverywhere(CreateGroup(s, data, creator, id, now).0)
  {
    SaveGroupKeepsInvariant(s, CreateGroup(s, data, creator, id, now).1);
  }

  // ------------------------------------------------------------------ join

  /** `joinGroup`: append one plain membership. There is no check on the
      group's status. */
  function JoinGroup(s: Store, groupId: string, user: User, now: string): (r: Result<Store, EngineError>)
    ensures GetGroup(s, groupId).None? <==> r == Err(GroupNotFound)
    ensures GetGroup(s, groupId).Some? && IsMember(GetGroup(s, groupId).value, user.id) <==> r == Err(AlreadyMember)
    ensures r.Ok? <==> GetGroup(s, groupId).Some? && !IsMember(GetGroup(s, groupId).value, user.id)
    ensures r.Ok? ==> r.value.chats == s.chats && r.value.votes == s.votes && r.value.session == s.session
    ensures r.Ok? ==>
      var g := GetGroup(s, groupId).value;
      && GetGroup(r.value, groupId) == Some(g.(members := g.members + [NewMembership(user.id, groupId, now)]))
      && (forall k :: k != groupId ==> GetGroup(r.value, k) == GetGroup(s, k))
      && r.value.users == s.users
  {
    match GetGroup(s, groupId)
    case None => Err(GroupNotFound)
    case Some(g) =>
      if IsMember(g, user.id) then Err(AlreadyMember)
      else Ok(SaveGroup(s, g.(members := g.members + [NewMembership(user.id, g.id, now)])))
  }

  lemma JoinGroupKeepsInvariant(s: Store, groupId: string, user: User, now: string)
    requires MembersUniqueEverywhere(s)
    requires JoinGroup(s, groupId, user, now).Ok?
    ensures MembersUniqueEverywhere(JoinGroup(s, groupId, user, now).value)
  {
    var g := GetGroup(s, groupId).value;
    var m := NewMembership(user.id, groupId, now);
    AppendKeepsUnique(g, m);
    SaveGroupKeepsInvariant(s, g.(members := g.members + [m]));
  }

  /** Joining twice: the second attempt fails and the store stays as the
      first join left it. */
  lemma JoinTwiceFails(s: Store, groupId: string, user: User, now: string, later: string)
    requires JoinGroup(s, groupId, user, now).Ok?
    ensures JoinGroup(JoinGroup(s, groupId, user, now).value, groupId, user, later) == Err(AlreadyMember)
  {
    var g := GetGroup(s, groupId).value;
    var g' := g.(members := g.members + [NewMembership(user.id, groupId, now)]);
    assert g'.members[|g.members|].userId == user.id;
  }

  /** Gap kept from the source: an ACTIVE (already drawn) group still accepts
      a new member, who then has no turn position. */
  lemma JoinActiveGroupAccepted(s: Store, groupId: string, user: User, now: string)
    requires GetGroup(s, groupId).Some? && GetGroup(s, groupId).value.status == Active
    requires !IsMember(GetGroup(s, groupId).value, user.id)
    ensures JoinGroup(s, groupId, user, now).Ok?
    ensures var g := GetGroup(JoinGroup(s, groupId, user, now).value, groupId).value;
            g.status == Active && g.members[|g.members| - 1].tourPosition.None?
  {
  }

  // ---------------------------------------------------------------- invite

  /** An existing user is matched by email or by phone. */
  predicate MatchesContact(u: User, emailOrPhone: string) {
    u.email == emailOrPhone || u.phone == emailOrPhone
  }

  /** `users.find(u => u.email === x || u.phone === x)`. */
  function FindByContact(users: seq<User>, emailOrPhone: string): (r: Option<User>)
    ensures r.Some? ==> r.value in users && MatchesContact(r.value, emailOrPhone)
    ensures r.Some? ==> exists i :: 0 <= i < |users| && users[i] == r.value
                         && forall j :: 0 <= j < i ==> !MatchesContact(users[j], emailOrPhone)
    ensures r.None? <==> forall i :: 0 <= i < |users| ==> !MatchesContact(users[i], emailOrPhone)
  {
    Collections.Find(users, (u: User) => MatchesContact(u, emailOrPhone))
  }

  /** The unverified placeholder account created for an unknown contact:
      the contact is its email if it contains '@', its phone otherwise.
      `stamp` stands for `Date.now()` in the generated email. */
  function Placeholder(emailOrPhone: string, id: string, stamp: string): (u: User)
    ensures u.id == id && u.role == Free && u.verificationStatus == Some(Unverified)
    ensures u.paymentHistory == Some(NoHistory)
    ensures Text.HasChar(emailOrPhone, '@') ==> u.email == emailOrPhone && u.phone == ""
    ensures !Text.HasChar(emailOrPhone, '@') ==> u.phone == emailOrPhone
    ensures !Text.HasChar(emailOrPhone, '@') ==> u.email == "invite-" + stamp + "@daretna.ma"
    ensures Text.BeforeFirst(emailOrPhone, '@') != "" ==> u.name == Text.BeforeFirst(emailOrPhone, '@')
    ensures Text.BeforeFirst(emailOrPhone, '@') == "" ==> u.name == "Invité"
    ensures MatchesContact(u, emailOrPhone)
  {
    var local := Text.BeforeFirst(emailOrPhone, '@');
    var hasAt := Text.HasChar(emailOrPhone, '@');
    User(id,
         if hasAt then emailOrPhone else "invite-" + stamp + "@daretna.ma",
         if local != "" then local else "Invité",
         if hasAt then "" else emailOrPhone,
         Free, None, Some(NoHistory), None, None, None, Some(Unverified))
  }

  /** `inviteMember`. A known contact is added (or refused if already a
      member); an unknown one first gets a placeholder account. `newUserId`,
      `stamp` and `now` stand for the generated id and clock readings. */
  function InviteMember(s: Store, groupId: string, emailOrPhone: string,
                        newUserId: string, stamp: string, now: string): (r: Result<Store, EngineError>)
    ensures GetGroup(s, groupId).None? <==> r == Err(GroupNotFound)
    ensures r == Err(AlreadyMemberOfGroup) <==>
      GetGroup(s, groupId).Some? && FindByContact(s.users, emailOrPhone).Some?
      && IsMember(GetGroup(s, groupId).value, FindByContact(s.users, emailOrPhone).value.id)
    ensures r.Ok? && FindByContact(s.users, emailOrPhone).Some? ==>
      var g := GetGroup(s, groupId).value;
      var u := FindByContact(s.users, emailOrPhone).value;
      && GetGroup(r.value, groupId) == Some(g.(members := g.members + [NewMembership(u.id, groupId, now)]))
      && r.value.users == s.users
    ensures r.Ok? && FindByContact(s.users, emailOrPhone).None? ==>
      var g := GetGroup(s, groupId).value;
      var u := Placeholder(emailOrPhone, newUserId, stamp);
      && GetGroup(r.value, groupId) == Some(g.(members := g.members + [NewMembership(newUserId, groupId, now)]))
      && GetUser(r.value, newUserId) == Some(u)
      && (forall k :: k != newUserId ==> GetUser(r.value, k) == GetUser(s, k))
    ensures r.Ok? ==> forall k :: k != groupId ==> GetGroup(r.value, k) == GetGroup(s, k)
    ensures r.Ok? <==>
      GetGroup(s, groupId).Some?
      && !(FindByContact(s.users, emailOrPhone).Some?
           && IsMember(GetGroup(s, groupId).value, FindByContact(s.users, emailOrPhone).value.id))
    ensures r.Ok? ==> r.value.chats == s.chats && r.value.votes == s.votes && r.value.session == s.session
  {
    match GetGroup(s, groupId)
    case None => Err(GroupNotFound)
    case Some(g) =>
      match FindByContact(s.users, emailOrPhone)
      case Some(u) =>
        if IsMember(g, u.id) then Err(AlreadyMemberOfGroup)
        else Ok(SaveGroup(s, g.(members := g.members + [NewMembership(u.id, g.id, now)])))
      case None =>
        var s' := UpdateUser(s, Placeholder(emailOrPhone, newUserId, stamp));
        Ok(SaveGroup(s', g.(members := g.members + [NewMembership(newUserId, g.id, now)])))
  }

  /** A placeholder upserted into a user list with no match for the contact
      becomes the first (and only) match. */
  lemma FindPlaceholder(users: seq<User>, emailOrPhone: string, id: string, stamp: string)
    requires forall i :: 0 <= i < |users| ==> !MatchesContact(users[i], emailOrPhone)
    ensures FindByContact(Collections.Upsert(users, UserKey, Placeholder(emailOrPhone, id, stamp)), emailOrPhone)
            == Some(Placeholder(emailOrPhone, id, stamp))
  {
    var p := Placeholder(emailOrPhone, id, stamp);
    var r := Collections.Upsert(users, UserKey, p);
    assert forall i :: 0 <= i < |r| ==> (MatchesContact(r[i], emailOrPhone) <==> r[i] == p);
  }

  /** Inviting the same contact twice: the second invitation is refused,
      whether the first one found an account or created a placeholder. */
  lemma {:induction false} InviteTwiceFails(s: Store, groupId: string, emailOrPhone: string,
                                            id1: string, id2: string, stamp: string, now: string)
    requires InviteMember(s, groupId, emailOrPhone, id1, stamp, now).Ok?
    ensures InviteMember(InviteMember(s, groupId, emailOrPhone, id1, stamp, now).value,
                         groupId, emailOrPhone, id2, stamp, now) == Err(AlreadyMemberOfGroup)
  {
    var s1 := InviteMember(s, groupId, emailOrPhone, id1, stamp, now).value;
    var g := GetGroup(s, groupId).value;
    var g1 := GetGroup(s1, groupId).value;
    match FindByContact(s.users, emailOrPhone)
    case Some(u) =>
      assert g1.members[|g.members|].userId == u.id;
    case None =>
      var p := Placeholder(emailOrPhone, id1, stamp);
      FindPlaceholder(s.users, emailOrPhone, id1, stamp);
      assert s1.users == Collections.Upsert(s.users, UserKey, p);
      assert g1.members[|g.members|].userId == id1;
  }

  lemma InviteKeepsInvariant(s: Store, groupId: string, emailOrPhone: string,
                             newUserId: string, stamp: string, now: string)
    requires MembersUniqueEverywhere(s)
    requires GetGroup(s, groupId).Some?
    requires FindByContact(s.users, emailOrPhone).None? ==> !IsMember(GetGroup(s, groupId).value, newUserId)
    requires InviteMember(s, groupId, emailOrPhone, newUserId, stamp, now).Ok?
    ensures MembersUniqueEverywhere(InviteMember(s, groupId, emailOrPhone, newUserId, stamp, now).value)
  {
    var g := GetGroup(s, groupId).value;
    match FindByContact(s.users, emailOrPhone)
    case Some(u) =>
      var m := NewMembership(u.id, groupId, now);
      AppendKeepsUnique(g, m);
      SaveGroupKeepsInvariant(s, g.(members := g.members + [m]));
    case None =>
      var m := NewMembership(newUserId, groupId, now);
      var s' := UpdateUser(s, Placeholder(emailOrPhone, newUserId, stamp));
      AppendKeepsUnique(g, m);
      SaveGroupKeepsInvariant(s', g.(members := g.members + [m]));
  }

  // ------------------------------------------------------------------ draw

  /** Turn positions 1..N in the current member order. */
  function NumberFrom(ms: seq<Membership>, first: int): (r: seq<Membership>)
    ensures |r| == |ms|
    ensures forall i :: 0 <= i < |ms| ==> r[i] == ms[i].(tourPosition := Some(first + i))
  {
    if |ms| == 0 then [] else [ms[0].(tourPosition := Some(first))] + NumberFrom(ms[1..], first + 1)
  }

  /** Member `i` (0-based) holds turn `i + 1`: the positions are exactly 1..N,
      each used once. */
  predicate PositionsAreOneToN(g: DaretGroup) {
    forall i :: 0 <= i < |g.members| ==> g.members[i].tourPosition == Some(i + 1)
  }

  /** The set of assigned positions. */
  function Positions(ms: seq<Membership>): set<int> {
    set i | 0 <= i < |ms| && ms[i].tourPosition.Some? :: ms[i].tourPosition.value
  }

  /** `startDaret`: mark the group ACTIVE, record the mode, date and the first
      eight characters of a fresh UUID as seed, and number the members in
      their current order. The mode does not influence the order and there is
      no status guard. */
  function StartDaret(s: Store, groupId: string, mode: DrawMode, uuid: string, date: string): (r: Result<Store, EngineError>)
    ensures GetGroup(s, groupId).None? <==> r == Err(GroupNotFound)
    ensures r.Ok? <==> GetGroup(s, groupId).Some?
    ensures r.Ok? ==> GetGroup(r.value, groupId).Some?
    ensures r.Ok? ==>
      var g := GetGroup(s, groupId).value;
      GetGroup(r.value, groupId) == Some(g.(status := Active, drawMode := Some(mode), drawDate := Some(date),
                                             drawSeed := Some(uuid[..if |uuid| < 8 then |uuid| else 8]),
                                             members := NumberFrom(g.members, 1)))
    ensures r.Ok? ==> r.value.chats == s.chats && r.value.votes == s.votes && r.value.session == s.session
    ensures r.Ok? ==>
      var g := GetGroup(s, groupId).value;
      var g' := GetGroup(r.value, groupId).value;
      && g'.status == Active && g'.drawMode == Some(mode) && g'.drawDate == Some(date)
      && g'.drawSeed == Some(uuid[..if |uuid| < 8 then |uuid| else 8])
      && |g'.members| == |g.members|
      && PositionsAreOneToN(g')
      && (forall i :: 0 <= i < |g.members| ==> g'.members[i].(tourPosition := None) == g.members[i].(tourPosition := None))
      && g'.currentTurnIndex == g.currentTurnIndex
      && (forall k :: k != groupId ==> GetGroup(r.value, k) == GetGroup(s, k))
      && r.value.users == s.users
  {
    match GetGroup(s, groupId)
    case None => Err(GroupNotFound)
    case Some(g) =>
      var seed := uuid[..if |uuid| < 8 then |uuid| else 8];
      Ok(SaveGroup(s, g.(status := Active, drawMode := Some(mode), drawDate := Some(date),
                         drawSeed := Some(seed), members := NumberFrom(g.members, 1))))
  }

  /** After the draw the positions are exactly {1, ..., N}, pairwise distinct. */
  lemma DrawPositionsExact(g: DaretGroup)
    requires PositionsAreOneToN(g)
    ensures forall p :: p in Positions(g.members) <==> 1 <= p <= |g.members|
    ensures forall i, j :: 0 <= i < j < |g.members| ==> g.members[i].tourPosition != g.members[j].tourPosition
  {
    var n := |g.members|;
    forall p | 1 <= p <= n
      ensures p in Positions(g.members)
    {
      assert g.members[p - 1].tourPosition == Some(p);
    }
    forall p | p in Positions(g.members)
      ensures 1 <= p <= n
    {
      var i :| 0 <= i < n && g.members[i].tourPosition.Some? && g.members[i].tourPosition.value == p;
    }
  }

  lemma StartDaretKeepsInvariant(s: Store, groupId: string, mode: DrawMode, uuid: string, date: string)
    requires MembersUniqueEverywhere(s)
    requires StartDaret(s, groupId, mode, uuid, date).Ok?
    ensures MembersUniqueEverywhere(StartDaret(s, groupId, mode, uuid, date).value)
  {
    var g := GetGroup(s, groupId).value;
    var g' := g.(status := Active, drawMode := Some(mode), drawDate := Some(date),
                 drawSeed := Some(uuid[..if |uuid| < 8 then |uuid| else 8]), members := NumberFrom(g.members, 1));
    assert forall i :: 0 <= i < |g.members| ==> g'.members[i].userId == g.members[i].userId;
    SaveGroupKeepsInvariant(s, g');
  }

  /** Gap kept from the source: the draw mode has no effect on the order.
      Whatever the mode, the members and their positions are the same. */
  lemma DrawIgnoresMode(s: Store, groupId: string, m1: DrawMode, m2: DrawMode, uuid: string, date: string)
    requires GetGroup(s, groupId).Some?
    ensures GetGroup(StartDaret(s, groupId, m1, uuid, date).value, groupId).value.members
         == GetGroup(StartDaret(s, groupId, m2, uuid, date).value, groupId).value.members
  {
  }

  /** Gap kept from the source: starting an already started group is
      accepted and overwrites the seed and the date of the first draw. */
  lemma RestartReseeds(s: Store, groupId: string, mode: DrawMode, uuid1: string, uuid2: string, d1: string, d2: string)
    requires GetGroup(s, groupId).Some?
    ensures var s1 := StartDaret(s, groupId, mode, uuid1, d1).value;
            GetGroup(s1, groupId).value.status == Active
            && StartDaret(s1, groupId, mode, uuid2, d2).Ok?
            && var g2 := GetGroup(StartDaret(s1, groupId, mode, uuid2, d2).value, groupId).value;
               g2.drawDate == Some(d2) && g2.drawSeed == Some(uuid2[..if |uuid2| < 8 then |uuid2| else 8])
  {
  }

  // -------------------------------------------------------------- payments

  /** Apply `f` to the first membership of `userId`; no membership, no change. */
  function UpdateMember(ms: seq<Membership>, userId: string, f: Membership -> Membership): (r: seq<Membership>)
    ensures |r| == |ms|
    ensures forall j :: 0 <= j < |ms| ==>
      r[j] == if ms[j].userId == userId && (forall k :: 0 <= k < j ==> ms[k].userId != userId) then f(ms[j]) else ms[j]
  {
    match Collections.IndexOfKey(ms, MemberKey, userId)
    case None => ms
    case Some(i) => ms[i := f(ms[i])]
  }

  function Submit(proofUrl: string): Membership -> Membership {
    (m: Membership) => m.(paymentStatus := Submitted, paymentProofUrl := Some(proofUrl))
  }

  function Confirm(m: Membership): Membership {
    m.(paymentStatus := Confirmed)
  }

  /** `submitPayment`: only that member becomes SUBMITTED with the proof; a
      non-member is silently ignored. The user's history is not touched. */
  function SubmitPayment(s: Store, groupId: string, userId: string, proofUrl: string): (r: Result<Store, EngineError>)
    ensures GetGroup(s, groupId).None? <==> r == Err(GroupNotFound)
    ensures r.Ok? && !IsMember(GetGroup(s, groupId).value, userId) ==> r.value == s
    ensures r.Ok? && IsMember(GetGroup(s, groupId).value, userId) ==>
      var g := GetGroup(s, groupId).value;
      var i := Collections.IndexOfKey(g.members, MemberKey, userId).value;
      && GetGroup(r.value, groupId) == Some(g.(members := g.members[i := g.members[i].(paymentStatus := Submitted, paymentProofUrl := Some(proofUrl))]))
      && (forall k :: k != groupId ==> GetGroup(r.value, k) == GetGroup(s, k))
    ensures r.Ok? <==> GetGroup(s, groupId).Some?
    ensures r.Ok? ==> r.value.users == s.users
    ensures r.Ok? ==> r.value.chats == s.chats && r.value.votes == s.votes && r.value.session == s.session
  {
    match GetGroup(s, groupId)
    case None => Err(GroupNotFound)
    case Some(g) =>
      if !IsMember(g, userId) then Ok(s)
      else Ok(SaveGroup(s, g.(members := UpdateMember(g.members, userId, Submit(proofUrl)))))
  }

  /** The history after one settlement of `amount`: a missing history is
      started from zeros, one more on-time payment, `late` unchanged. */
  function Settle(h: Option<PaymentHistory>, amount: int): (r: PaymentHistory)
    ensures r.onTime == HistoryOrZero(h).onTime + 1
    ensures r.late == HistoryOrZero(h).late
    ensures r.totalAmount == HistoryOrZero(h).totalAmount + amount
  {
    var base := HistoryOrZero(h);
    base.(onTime := base.onTime + 1, totalAmount := base.totalAmount + amount)
  }

  /** `recordPayment` (also `confirmPayment`): mark the member CONFIRMED and
      add one on-time payment of `amountPerPerson` to the user's history.
      A missing group or member is silently ignored; a member whose user
      record is missing is confirmed without history. */
  function RecordPayment(s: Store, groupId: string, userId: string): (r: Store)
    ensures GetGroup(s, groupId).None? || !IsMember(GetGroup(s, groupId).value, userId) ==> r == s
    ensures GetGroup(s, groupId).Some? && IsMember(GetGroup(s, groupId).value, userId) ==>
      var g := GetGroup(s, groupId).value;
      var i := Collections.IndexOfKey(g.members, MemberKey, userId).value;
      && GetGroup(r, groupId) == Some(g.(members := g.members[i := g.members[i].(paymentStatus := Confirmed)]))
      && (forall k :: k != groupId ==> GetGroup(r, k) == GetGroup(s, k))
      && (GetUser(s, userId).None? ==> r.users == s.users)
      && (GetUser(s, userId).Some? ==>
            var u := GetUser(s, userId).value;
            GetUser(r, userId) == Some(u.(paymentHistory := Some(Settle(u.paymentHistory, g.amountPerPerson)))))
      && (forall k :: k != userId ==> GetUser(r, k) == GetUser(s, k))
    ensures r.chats == s.chats && r.votes == s.votes && r.session == s.session
  {
    match GetGroup(s, groupId)
    case None => s
    case Some(g) =>
      if !IsMember(g, userId) then s
      else
        var s1 := SaveGroup(s, g.(members := UpdateMember(g.members, userId, Confirm)));
        match GetUser(s1, userId)
        case None => s1
        case Some(u) => UpdateUser(s1, u.(paymentHistory := Some(Settle(u.paymentHistory, g.amountPerPerson))))
  }

  /** Updating a membership without changing its user keeps it the first
      membership of that user. */
  lemma UpdateMemberKeepsIndex(ms: seq<Membership>, userId: string, f: Membership -> Membership)
    requires Collections.IndexOfKey(ms, MemberKey, userId).Some?
    requires f(ms[Collections.IndexOfKey(ms, MemberKey, userId).value]).userId == userId
    ensures Collections.IndexOfKey(UpdateMember(ms, userId, f), MemberKey, userId)
         == Collections.IndexOfKey(ms, MemberKey, userId)
  {
    var i := Collections.IndexOfKey(ms, MemberKey, userId).value;
    Collections.IndexOfKeyUnique(UpdateMember(ms, userId, f), MemberKey, userId, i);
  }

  /** A member exists iff its first index does. */
  lemma IsMemberIndex(g: DaretGroup, userId: string)
    ensures IsMember(g, userId) <==> Collections.IndexOfKey(g.members, MemberKey, userId).Some?
  {
    if IsMember(g, userId) {
      var i :| 0 <= i < |g.members| && g.members[i].userId == userId;
      assert MemberKey(g.members[i]) == userId;
    }
  }

  /** After a recorded payment the payer is still a member and its (first)
      membership is CONFIRMED. */
  lemma RecordedMemberConfirmed(s: Store, groupId: string, userId: string)
    requires GetGroup(s, groupId).Some? && IsMember(GetGroup(s, groupId).value, userId)
    ensures GetGroup(RecordPayment(s, groupId, userId), groupId).Some?
    ensures var g := GetGroup(RecordPayment(s, groupId, userId), groupId).value;
      && Collections.IndexOfKey(g.members, MemberKey, userId).Some?
      && g.members[Collections.IndexOfKey(g.members, MemberKey, userId).value].paymentStatus == Confirmed
  {
    var g := GetGroup(s, groupId).value;
    IsMemberIndex(g, userId);
    UpdateMemberKeepsIndex(g.members, userId, Confirm);
    var g' := GetGroup(RecordPayment(s, groupId, userId), groupId).value;
    assert g'.members == UpdateMember(g.members, userId, Confirm);
  }

  /** The payer's history after a recorded payment, in isolation. */
  lemma RecordedHistory(s: Store, groupId: string, userId: string)
    requires GetGroup(s, groupId).Some? && IsMember(GetGroup(s, groupId).value, userId)
    requires GetUser(s, userId).Some?
    ensures GetUser(RecordPayment(s, groupId, userId), userId)
         == Some(GetUser(s, userId).value.(paymentHistory := Some(Settle(GetUser(s, userId).value.paymentHistory, GetGroup(s, groupId).value.amountPerPerson))))
    ensures GetGroup(RecordPayment(s, groupId, userId), groupId).Some?
    ensures GetGroup(RecordPayment(s, groupId, userId), groupId).value.amountPerPerson == GetGroup(s, groupId).value.amountPerPerson
    ensures IsMember(GetGroup(RecordPayment(s, groupId, userId), groupId).value, userId)
  {
    var g := GetGroup(s, groupId).value;
    IsMemberIndex(g, userId);
    var i := Collections.IndexOfKey(g.members, MemberKey, userId).value;
    var g1 := GetGroup(RecordPayment(s, groupId, userId), groupId).value;
    assert g1.members[i].userId == userId;
  }

  /** `confirmPayment` is `recordPayment`: the member ends CONFIRMED. */
  function ConfirmPayment(s: Store, groupId: string, memberId: string): (r: Store)
    ensures r == RecordPayment(s, groupId, memberId)
    ensures GetGroup(s, groupId).Some? && IsMember(GetGroup(s, groupId).value, memberId) ==>
      && GetGroup(r, groupId).Some?
      && var g := GetGroup(r, groupId).value;
      && Collections.IndexOfKey(g.members, MemberKey, memberId).Some?
      && g.members[Collections.IndexOfKey(g.members, MemberKey, memberId).value].paymentStatus == Confirmed
  {
    if GetGroup(s, groupId).Some? && IsMember(GetGroup(s, groupId).value, memberId) then
      RecordedMemberConfirmed(s, groupId, memberId);
      RecordPayment(s, groupId, memberId)
    else RecordPayment(s, groupId, memberId)
  }

  lemma RecordPaymentKeepsInvariant(s: Store, groupId: string, userId: string)
    requires MembersUniqueEverywhere(s)
    ensures MembersUniqueEverywhere(RecordPayment(s, groupId, userId))
  {
    match GetGroup(s, groupId)
    case None =>
    case Some(g) =>
      if IsMember(g, userId) {
        var g' := g.(members := UpdateMember(g.members, userId, Confirm));
        assert forall i :: 0 <= i < |g.members| ==> g'.members[i].userId == g.members[i].userId;
        SaveGroupKeepsInvariant(s, g');
      }
  }

  lemma SubmitPaymentKeepsInvariant(s: Store, groupId: string, userId: string, proofUrl: string)
    requires MembersUniqueEverywhere(s)
    requires SubmitPayment(s, groupId, userId, proofUrl).Ok?
    ensures MembersUniqueEverywhere(SubmitPayment(s, groupId, userId, proofUrl).value)
  {
    var g := GetGroup(s, groupId).value;
    if IsMember(g, userId) {
      var g' := g.(members := UpdateMember(g.members, userId, Submit(proofUrl)));
      assert forall i :: 0 <= i < |g.members| ==> g'.members[i].userId == g.members[i].userId;
      SaveGroupKeepsInvariant(s, g');
    }
  }

  /** Gap kept from the source: settling the same payment twice counts it
      twice in the payer's history. */
  lemma DoubleConfirmCountsTwice(s: Store, groupId: string, userId: string)
    requires GetGroup(s, groupId).Some? && IsMember(GetGroup(s, groupId).value, userId)
    requires GetUser(s, userId).Some?
    ensures var h0 := HistoryOrZero(GetUser(s, userId).value.paymentHistory);
            var s2 := RecordPayment(RecordPayment(s, groupId, userId), groupId, userId);
            var h2 := GetUser(s2, userId).value.paymentHistory.value;
            h2.onTime == h0.onTime + 2
            && h2.totalAmount == h0.totalAmount + 2 * GetGroup(s, groupId).value.amountPerPerson
            && h2.late == h0.late
  {
    var s1 := RecordPayment(s, groupId, userId);
    RecordedHistory(s, groupId, userId);
    RecordedHistory(s1, groupId, userId);
  }

  /** What a submission keeps: the group, its amount, the membership and the users. */
  lemma SubmittedFacts(s: Store, groupId: string, userId: string, proof: string)
    requires GetGroup(s, groupId).Some? && IsMember(GetGroup(s, groupId).value, userId)
    ensures SubmitPayment(s, groupId, userId, proof).Ok?
    ensures var s1 := SubmitPayment(s, groupId, userId, proof).value;
      && GetGroup(s1, groupId).Some?
      && IsMember(GetGroup(s1, groupId).value, userId)
      && GetGroup(s1, groupId).value.amountPerPerson == GetGroup(s, groupId).value.amountPerPerson
      && s1.users == s.users
  {
    var g := GetGroup(s, groupId).value;
    IsMemberIndex(g, userId);
    var i := Collections.IndexOfKey(g.members, MemberKey, userId).value;
    var g1 := GetGroup(SubmitPayment(s, groupId, userId, proof).value, groupId).value;
    assert g1.members[i].userId == userId;
  }

  /** Scenario: a member submits a proof, the admin confirms it; the status
      ends CONFIRMED and the history grows by one on-time payment of the
      group amount. */
  lemma SubmitThenConfirm(s: Store, groupId: string, userId: string, proof: string)
    requires GetGroup(s, groupId).Some? && IsMember(GetGroup(s, groupId).value, userId)
    requires GetUser(s, userId).Some?
    ensures SubmitPayment(s, groupId, userId, proof).Ok?
    ensures var s2 := ConfirmPayment(SubmitPayment(s, groupId, userId, proof).value, groupId, userId);
      && GetGroup(s2, groupId).Some?
      && var g2 := GetGroup(s2, groupId).value;
      && Collections.IndexOfKey(g2.members, MemberKey, userId).Some?
      && g2.members[Collections.IndexOfKey(g2.members, MemberKey, userId).value].paymentStatus == Confirmed
    ensures var s2 := ConfirmPayment(SubmitPayment(s, groupId, userId, proof).value, groupId, userId);
      var u := GetUser(s, userId).value;
      GetUser(s2, userId) == Some(u.(paymentHistory := Some(Settle(u.paymentHistory, GetGroup(s, groupId).value.amountPerPerson))))
  {
    SubmittedFacts(s, groupId, userId, proof);
    var s1 := SubmitPayment(s, groupId, userId, proof).value;
    assert GetUser(s1, userId) == GetUser(s, userId);
    RecordedHistory(s1, groupId, userId);
  }
}

=== FILE: group_view.dfy ===
/** What the group page (pages/GroupDetail.tsx) derives from a group: the
    member list in turn order, who is admin, whose turn it is to pay, who
    receives this turn, the cycle total, the progress figure and when the
    admin controls are shown. */
module GroupView {
  import opened Wrappers
  import opened Types
  import opened Store
  import Collections
  import Sorting
  import Numeric
  import Engine

  /** A membership together with the user's display details. */
  datatype MemberRow = MemberRow(membership: Membership, name: string, email: string)

  /** `{ ...m, name: u?.name || 'Inconnu', email: u?.email || '' }`. */
  function Hydrate(s: Store, m: Membership): (r: MemberRow)
    ensures r.membership == m
    ensures GetUser(s, m.userId).Some? && GetUser(s, m.userId).value.name != "" ==> r.name == GetUser(s, m.userId).value.name
    ensures GetUser(s, m.userId).None? || GetUser(s, m.userId).value.name == "" ==> r.name == "Inconnu"
    ensures r.email == (if GetUser(s, m.userId).Some? then GetUser(s, m.userId).value.email else "")
  {
    match GetUser(s, m.userId)
    case None => MemberRow(m, "Inconnu", "")
    case Some(u) => MemberRow(m, if u.name != "" then u.name else "Inconnu", u.email)
  }

  /** `m.tourPosition || 999`: no position, or position 0, sorts as 999. */
  function TurnKey(r: MemberRow): (k: int)
    ensures r.membership.tourPosition.Some? && r.membership.tourPosition.value != 0 ==> k == r.membership.tourPosition.value
    ensures r.membership.tourPosition.None? || r.membership.tourPosition.value == 0 ==> k == 999
  {
    match r.membership.tourPosition
    case None => 999
    case Some(p) => if p != 0 then p else 999
  }

  /** `membersDetails`: the hydrated members, stably sorted by turn. */
  function MembersDetails(s: Store, g: DaretGroup): (r: seq<MemberRow>)
    ensures |r| == |g.members|
    ensures forall i, j :: 0 <= i < j < |r| ==> TurnKey(r[i]) <= TurnKey(r[j])
    ensures Sorting.StablePermutation(r, Collections.Map(g.members, (m: Membership) => Hydrate(s, m)), TurnKey)
  {
    var r := Sorting.SortBy(Collections.Map(g.members, (m: Membership) => Hydrate(s, m)), TurnKey);
    assert Sorting.SortedBy(r, TurnKey);
    r
  }

  /** Members without a position come after every member holding a position
      below 999. */
  lemma UnassignedComeLast(s: Store, g: DaretGroup, i: nat, j: nat)
    requires i < j < |MembersDetails(s, g)|
    requires MembersDetails(s, g)[i].membership.tourPosition.None?
    ensures TurnKey(MembersDetails(s, g)[j]) >= 999
  {
  }

  /** `isAdmin`. */
  predicate IsAdmin(g: DaretGroup, userId: string) {
    g.adminId == userId
  }

  /** `myMemberInfo`: the user's first membership of the group. */
  function MyMemberInfo(g: DaretGroup, userId: string): (r: Option<Membership>)
    ensures r.Some? <==> Engine.IsMember(g, userId)
    ensures r.Some? ==> r.value in g.members && r.value.userId == userId
    ensures r.Some? ==> exists i :: 0 <= i < |g.members| && g.members[i] == r.value
                         && forall j :: 0 <= j < i ==> g.members[j].userId != userId
  {
    if Engine.IsMember(g, userId) then
      var i :| 0 <= i < |g.members| && g.members[i].userId == userId;
      assert MemberKey(g.members[i]) == userId;
      Collections.Lookup(g.members, MemberKey, userId)
    else Collections.Lookup(g.members, MemberKey, userId)
  }

  /** `isMyTurnToPay`: the group is running, the user is a member and has
      neither submitted nor had a payment confirmed. */
  function IsMyTurnToPay(g: DaretGroup, userId: string): (b: bool)
    ensures b <==> g.status == Active && MyMemberInfo(g, userId).Some?
                   && MyMemberInfo(g, userId).value.paymentStatus in {PaymentPending, Late}
  {
    g.status == Active && MyMemberInfo(g, userId).Some?
    && MyMemberInfo(g, userId).value.paymentStatus != Confirmed
    && MyMemberInfo(g, userId).value.paymentStatus != Submitted
  }

  /** The group's creator is its only admin and holds the ADMIN membership. */
  lemma CreatorIsAdmin(s: Store, data: Engine.GroupDraft, creator: User, id: string, now: string, userId: string)
    ensures var g := Engine.CreateGroup(s, data, creator, id, now).1;
      && (IsAdmin(g, userId) <==> userId == creator.id)
      && MyMemberInfo(g, creator.id).Some? && MyMemberInfo(g, creator.id).value.role == Admin
  {
    var g := Engine.CreateGroup(s, data, creator, id, now).1;
    assert g.members[0].userId == creator.id;
  }

  /** After a join, the page finds the fresh membership for the new member. */
  lemma JoinShowsMembership(s: Store, groupId: string, user: User, now: string)
    requires Engine.JoinGroup(s, groupId, user, now).Ok?
    ensures var g := GetGroup(Engine.JoinGroup(s, groupId, user, now).value, groupId).value;
            MyMemberInfo(g, user.id) == Some(Engine.NewMembership(user.id, groupId, now))
  {
    var g := GetGroup(s, groupId).value;
    var g1 := GetGroup(Engine.JoinGroup(s, groupId, user, now).value, groupId).value;
    assert g1.members == g.members + [Engine.NewMembership(user.id, groupId, now)];
    Collections.IndexOfKeyUnique(g1.members, MemberKey, user.id, |g.members|);
  }

  /** Sending a proof ends the prompt to pay: the member is now SUBMITTED. */
  lemma SubmitEndsMyTurn(s: Store, groupId: string, userId: string, proofUrl: string)
    requires GetGroup(s, groupId).Some? && Engine.IsMember(GetGroup(s, groupId).value, userId)
    ensures Engine.SubmitPayment(s, groupId, userId, proofUrl).Ok?
    ensures var g := GetGroup(Engine.SubmitPayment(s, groupId, userId, proofUrl).value, groupId).value;
            && MyMemberInfo(g, userId).Some? && MyMemberInfo(g, userId).value.paymentStatus == Submitted
            && !IsMyTurnToPay(g, userId)
  {
    var g := GetGroup(s, groupId).value;
    Engine.IsMemberIndex(g, userId);
    var i := Collections.IndexOfKey(g.members, MemberKey, userId).value;
    var g1 := GetGroup(Engine.SubmitPayment(s, groupId, userId, proofUrl).value, groupId).value;
    assert g1.members[i].userId == userId;
    Collections.IndexOfKeyUnique(g1.members, MemberKey, userId, i);
  }

  /** A confirmed payment ends the prompt to pay as well. */
  lemma ConfirmEndsMyTurn(s: Store, groupId: string, userId: string)
    requires GetGroup(s, groupId).Some? && Engine.IsMember(GetGroup(s, groupId).value, userId)
    ensures GetGroup(Engine.RecordPayment(s, groupId, userId), groupId).Some?
    ensures var g := GetGroup(Engine.RecordPayment(s, groupId, userId), groupId).value;
            && MyMemberInfo(g, userId).Some? && MyMemberInfo(g, userId).value.paymentStatus == Confirmed
            && !IsMyTurnToPay(g, userId)
  {
    Engine.RecordedMemberConfirmed(s, groupId, userId);
  }

  /** The row highlighted in the table: the one holding the current turn. */
  predicate HoldsCurrentTurn(g: DaretGroup, r: MemberRow) {
    r.membership.tourPosition == Some(g.currentTurnIndex + 1)
  }

  /** `receiver`: the first displayed member holding turn `currentTurnIndex + 1`. */
  function Receiver(g: DaretGroup, rows: seq<MemberRow>): (r: Option<MemberRow>)
    ensures r.Some? ==> r.value in rows && HoldsCurrentTurn(g, r.value)
    ensures r.Some? ==> exists i :: 0 <= i < |rows| && rows[i] == r.value
                         && forall j :: 0 <= j < i ==> !HoldsCurrentTurn(g, rows[j])
    ensures r.None? <==> forall i :: 0 <= i < |rows| ==> !HoldsCurrentTurn(g, rows[i])
  {
    Collections.Find(rows, (row: MemberRow) => HoldsCurrentTurn(g, row))
  }

  /** A row is displayed iff it is the hydration of some membership. */
  lemma DisplayedRows(s: Store, g: DaretGroup, x: MemberRow)
    ensures x in MembersDetails(s, g) <==> exists j :: 0 <= j < |g.members| && x == Hydrate(s, g.members[j])
  {
    var rows := MembersDetails(s, g);
    var hydrated := Collections.Map(g.members, (m: Membership) => Hydrate(s, m));
    assert x in rows <==> x in hydrated by {
      Collections.SameElements(rows, hydrated, x);
    }
    if x in hydrated {
      var j :| 0 <= j < |hydrated| && hydrated[j] == x;
    }
    if exists j :: 0 <= j < |g.members| && x == Hydrate(s, g.members[j]) {
      var j :| 0 <= j < |g.members| && x == Hydrate(s, g.members[j]);
      assert hydrated[j] == x;
    }
  }

  /** After a draw (positions 1..N) and with the turn index inside the cycle,
      the receiver shown is exactly the member at that index of the group. */
  lemma ReceiverAfterDraw(s: Store, g: DaretGroup)
    requires Engine.PositionsAreOneToN(g)
    requires 0 <= g.currentTurnIndex < |g.members|
    ensures Receiver(g, MembersDetails(s, g)) == Some(Hydrate(s, g.members[g.currentTurnIndex]))
  {
    var rows := MembersDetails(s, g);
    var k := g.currentTurnIndex;
    var x := Hydrate(s, g.members[k]);
    DisplayedRows(s, g, x);
    assert HoldsCurrentTurn(g, x);
    var r := Receiver(g, rows);
    DisplayedRows(s, g, r.value);
    var j :| 0 <= j < |g.members| && r.value == Hydrate(s, g.members[j]);
    assert g.members[j].tourPosition == Some(j + 1);
  }

  /** A group without a draw (no member holds a position) shows no receiver. */
  lemma NoReceiverBeforeDraw(s: Store, g: DaretGroup)
    requires forall i :: 0 <= i < |g.members| ==> g.members[i].tourPosition.None?
    ensures Receiver(g, MembersDetails(s, g)).None?
  {
    var rows := MembersDetails(s, g);
    forall i | 0 <= i < |rows|
      ensures !HoldsCurrentTurn(g, rows[i])
    {
      DisplayedRows(s, g, rows[i]);
    }
  }

  /** "Montant total / tour": one contribution per displayed member. */
  function CycleTotal(g: DaretGroup, rows: seq<MemberRow>): (r: int)
    ensures r == Collections.Sum(Contributions(g, rows))
  {
    CycleTotalIsSumOfContributions(g, rows);
    g.amountPerPerson * |rows|
  }

  function Contributions(g: DaretGroup, rows: seq<MemberRow>): seq<int> {
    Collections.Map(rows, (r: MemberRow) => g.amountPerPerson)
  }

  /** The cycle total is what all members together pay in one turn. */
  lemma {:induction false} CycleTotalIsSumOfContributions(g: DaretGroup, rows: seq<MemberRow>)
    ensures g.amountPerPerson * |rows| == Collections.Sum(Contributions(g, rows))
    decreases |rows|
  {
    if |rows| > 0 {
      CycleTotalIsSumOfContributions(g, rows[1..]);
      assert Contributions(g, rows)[1..] == Contributions(g, rows[1..]);
    }
  }

  /** Each join adds exactly one contribution to the cycle total the page
      shows. */
  lemma JoinRaisesCycleTotal(s: Store, groupId: string, user: User, now: string)
    requires Engine.JoinGroup(s, groupId, user, now).Ok?
    ensures var g := GetGroup(s, groupId).value;
            var s1 := Engine.JoinGroup(s, groupId, user, now).value;
            var g1 := GetGroup(s1, groupId).value;
            CycleTotal(g1, MembersDetails(s1, g1)) == CycleTotal(g, MembersDetails(s, g)) + g.amountPerPerson
  {
    var g := GetGroup(s, groupId).value;
    var s1 := Engine.JoinGroup(s, groupId, user, now).value;
    var g1 := GetGroup(s1, groupId).value;
    assert |g1.members| == |g.members| + 1 && g1.amountPerPerson == g.amountPerPerson;
    var rows, rows1 := MembersDetails(s, g), MembersDetails(s1, g1);
    CycleTotalByCount(g, rows);
    CycleTotalByCount(g1, rows1);
    OneMoreContribution(g.amountPerPerson, |rows|);
  }

  lemma CycleTotalByCount(g: DaretGroup, rows: seq<MemberRow>)
    ensures CycleTotal(g, rows) == g.amountPerPerson * |rows|
  {
  }

  lemma OneMoreContribution(a: int, n: nat)
    ensures a * (n + 1) == a * n + a
  {
  }

  /** The progress figure, `Math.round((currentTurnIndex + 1) / n * 100)`.
      With no members the page divides by zero and shows `Infinity%`, not a
      finite number; `None` stands for that case. */
  function Progress(g: DaretGroup, n: nat): (r: Option<int>)
    ensures r.None? <==> n == 0
    ensures n > 0 ==> 2 * n * r.value <= 200 * (g.currentTurnIndex + 1) + n < 2 * n * (r.value + 1)
    ensures n > 0 && 0 <= g.currentTurnIndex < n ==> 0 <= r.value <= 100
    ensures n > 0 && g.currentTurnIndex == n - 1 ==> r == Some(100)
  {
    if n == 0 then None
    else if 0 <= g.currentTurnIndex < n then
      Numeric.PercentBounds(g.currentTurnIndex + 1, n);
      Some(Numeric.RoundRatio(100 * (g.currentTurnIndex + 1), n))
    else Some(Numeric.RoundRatio(100 * (g.currentTurnIndex + 1), n))
  }

  /** Progress never decreases as the turn advances. */
  lemma ProgressMonotone(g: DaretGroup, n: nat)
    requires n > 0
    ensures Progress(g, n).value <= Progress(g.(currentTurnIndex := g.currentTurnIndex + 1), n).value
  {
    Numeric.RoundRatioMonotone(100 * (g.currentTurnIndex + 1), 100 * (g.currentTurnIndex + 2), n);
  }

  /** The invite form and the launch box: admin only, and only while PENDING. */
  predicate ShowAdminControls(g: DaretGroup, userId: string) {
    IsAdmin(g, userId) && g.status == Pending
  }

  /** A join changes neither the admin nor the status: whoever saw the
      invite form still sees it. */
  lemma JoinKeepsAdminControls(s: Store, groupId: string, user: User, now: string, userId: string)
    requires Engine.JoinGroup(s, groupId, user, now).Ok?
    ensures ShowAdminControls(GetGroup(Engine.JoinGroup(s, groupId, user, now).value, groupId).value, userId)
        <==> ShowAdminControls(GetGroup(s, groupId).value, userId)
  {
  }

  /** After the draw the admin controls disappear for everybody, and a fresh
      group shows them to its creator. */
  lemma AdminControlsLifecycle(s: Store, data: Engine.GroupDraft, creator: User, id: string, now: string,
                               mode: DrawMode, uuid: string, date: string, userId: string)
    ensures ShowAdminControls(Engine.CreateGroup(s, data, creator, id, now).1, creator.id)
    ensures var s1 := Engine.CreateGroup(s, data, creator, id, now).0;
            !ShowAdminControls(GetGroup(Engine.StartDaret(s1, id, mode, uuid, date).value, id).value, userId)
  {
  }
}

=== FILE: language.dfy ===
/** The translation context (contexts/LanguageContext.tsx): three fixed
    tables, a lookup that falls back to the key, and the text direction. */
module Language {
  import opened Text

  datatype Lang = Fr | Ar | Darija

  datatype Direction = Ltr | Rtl

  /** The language a session starts in. */
  const InitialLanguage := Fr

  function FrTable(): map<string, string> {
    map[
      "nav.dashboard" := "Tableau de bord",
      "nav.create" := "Créer une Daret",
      "nav.login" := "Se connecter",
      "common.welcome" := "Bienvenue"
    ]
  }

  function ArTable(): map<string, string> {
    map[
      "nav.dashboard" := "لوحة القيادة",
      "nav.create" := "إنشاء دارت",
      "nav.login" := "تسجيل الدخول",
      "common.welcome" := "مرحبا",
      "create.title" := "إنشاء دارت جديدة",
      "create.name" := "اسم المجموعة",
      "create.amount" := "المبلغ للشخص (درهم)",
      "create.period" := "الدورية",
      "create.start" := "تاريخ البدء",
      "create.submit" := "إنشاء المجموعة"
    ]
  }

  function DarijaTable(): map<string, string> {
    map[
      "nav.dashboard" := "لوحة التحكم",
      "nav.create" := "صاول دارت",
      "nav.login" := "دخل للحساب",
      "common.welcome" := "مرحبا بيك",
      "create.title" := "صاوب دارت جديدة",
      "create.name" := "سمية ديال لكروب",
      "create.amount" := "شحال للواحد (درهم)",
      "create.period" := "كل شحال",
      "create.start" := "فوقاش غانبداو",
      "create.submit" := "يلاه نبداو"
    ]
  }

  function Table(l: Lang): map<string, string> {
    match l
    case Fr => FrTable()
    case Ar => ArTable()
    case Darija => DarijaTable()
  }

  /** `t(key)`: `translations[language][key] || key`. A missing entry, or an
      empty one, gives the key back. */
  function Translate(l: Lang, key: string): (r: string)
    ensures key in Table(l) && Table(l)[key] != "" ==> r == Table(l)[key]
    ensures key !in Table(l) ==> r == key
    ensures r == "" ==> key == ""
  {
    if key in Table(l) && Table(l)[key] != "" then Table(l)[key] else key
  }

  /** `dir`: left to right only for French. */
  function Dir(l: Lang): (d: Direction)
    ensures d == Ltr <==> l == Fr
  {
    if l == Fr then Ltr else Rtl
  }

  /** The extra font class, set only for Darija. */
  function FontClass(l: Lang): (c: string)
    ensures c != "" <==> l == Darija
  {
    if l == Darija then "font-darija" else ""
  }

  /** No table holds an empty text, so a key present in the table is always
      translated. */
  lemma EntriesNonEmpty(l: Lang, key: string)
    requires key in Table(l)
    ensures Translate(l, key) == Table(l)[key] != key
  {
  }

  /** Arabic and Darija translate the same keys; French translates a subset. */
  lemma TableKeys()
    ensures FrTable().Keys < ArTable().Keys
    ensures ArTable().Keys == DarijaTable().Keys
  {
    assert "create.title" in ArTable().Keys - FrTable().Keys;
  }

  /** The French table has no `create.*` entry: those keys come back as
      they are, while Arabic and Darija translate them. */
  lemma FrenchEchoesCreateKeys(key: string)
    requires StartsWith(key, "create.")
    ensures Translate(Fr, key) == key
    ensures key in ArTable() ==> Translate(Ar, key) != key && Translate(Darija, key) != key
  {
    assert key[..7] == "create.";
    if key in FrTable() {
      assert key[0] == 'c' && key[1] == 'r';
    }
    if key in ArTable() {
      EntriesNonEmpty(Ar, key);
      TableKeys();
      EntriesNonEmpty(Darija, key);
    }
  }

  /** A key that is in no table reads the same in every language. */
  lemma UnknownKeyEverywhere(key: string)
    requires key !in ArTable()
    ensures Translate(Fr, key) == Translate(Ar, key) == Translate(Darija, key) == key
  {
    TableKeys();
  }
}

=== FILE: notifications.dfy ===
/** The notification panel (frontend/components/NotificationCenter.tsx):
    the list the user sees, marking items read, deleting them, the unread
    filter and badge. */
module Notifications {
  import opened Types
  import Collections

  datatype ListFilter = All | Unread

  predicate IsUnread(n: Notification) { !n.read }

  predicate IsRead(n: Notification) { n.read }

  /** The number on the "Non lues" tab. */
  function UnreadCount(ns: seq<Notification>): (c: nat)
    ensures c <= |ns|
    ensures c == 0 <==> forall i :: 0 <= i < |ns| ==> ns[i].read
  {
    Collections.Count(ns, IsUnread)
  }

  /** The "Tout marquer comme lu" button: shown iff some item is unread. */
  predicate ShowMarkAll(ns: seq<Notification>) {
    exists i :: 0 <= i < |ns| && !ns[i].read
  }

  lemma ShowMarkAllIffUnread(ns: seq<Notification>)
    ensures ShowMarkAll(ns) <==> UnreadCount(ns) > 0
  {
  }

  /** `markAsRead(id)`: every item with this id becomes read; nothing else
      changes. */
  function MarkAsRead(ns: seq<Notification>, id: string): (r: seq<Notification>)
    ensures |r| == |ns|
    ensures forall i :: 0 <= i < |ns| ==> r[i].read == (ns[i].read || ns[i].id == id)
    ensures forall i :: 0 <= i < |ns| ==> r[i].(read := ns[i].read) == ns[i]
  {
    Collections.Map(ns, (n: Notification) => if n.id == id then n.(read := true) else n)
  }

  /** `markAllAsRead`: every item becomes read; nothing else changes. */
  function MarkAllAsRead(ns: seq<Notification>): (r: seq<Notification>)
    ensures |r| == |ns|
    ensures forall i :: 0 <= i < |ns| ==> r[i].read
    ensures forall i :: 0 <= i < |ns| ==> r[i].(read := ns[i].read) == ns[i]
  {
    Collections.Map(ns, (n: Notification) => n.(read := true))
  }

  /** `deleteNotification(id)`: the items with another id, in their order. */
  function Delete(ns: seq<Notification>, id: string): (r: seq<Notification>)
    ensures Collections.IsSubsequence(r, ns)
    ensures forall i :: 0 <= i < |r| ==> r[i].id != id && r[i] in ns
    ensures forall n :: n in ns && n.id != id ==> n in r
  {
    Collections.Filter(ns, (n: Notification) => n.id != id)
  }

  /** `filteredNotifications`. */
  function Visible(ns: seq<Notification>, f: ListFilter): (r: seq<Notification>)
    ensures f == All ==> r == ns
    ensures f == Unread ==> |r| == UnreadCount(ns) && Collections.IsSubsequence(r, ns)
    ensures f == Unread ==> forall i :: 0 <= i < |r| ==> !r[i].read && r[i] in ns
    ensures f == Unread ==> forall n :: n in ns && !n.read ==> n in r
  {
    match f
    case All => ns
    case Unread =>
      Collections.CountIsFilterLength(ns, IsUnread);
      Collections.Filter(ns, IsUnread)
  }

  /** After "mark all", the badge is zero, the button is gone and the unread
      view is empty. */
  lemma MarkAllClears(ns: seq<Notification>)
    ensures UnreadCount(MarkAllAsRead(ns)) == 0
    ensures !ShowMarkAll(MarkAllAsRead(ns))
    ensures Visible(MarkAllAsRead(ns), Unread) == []
  {
  }

  lemma MarkAllIdempotent(ns: seq<Notification>)
    ensures MarkAllAsRead(MarkAllAsRead(ns)) == MarkAllAsRead(ns)
  {
  }

  lemma MarkAsReadIdempotent(ns: seq<Notification>, id: string)
    ensures MarkAsRead(MarkAsRead(ns, id), id) == MarkAsRead(ns, id)
  {
  }

  /** Marking one item first does not change what "mark all" yields. */
  lemma MarkAllAbsorbsMarkOne(ns: seq<Notification>, id: string)
    ensures MarkAllAsRead(MarkAsRead(ns, id)) == MarkAllAsRead(ns)
  {
  }

  /** Marking an id lowers the badge by the number of unread items with
      that id. */
  lemma {:induction false} MarkAsReadLowersBadge(ns: seq<Notification>, id: string)
    ensures UnreadCount(MarkAsRead(ns, id))
            == UnreadCount(ns) - Collections.Count(ns, (n: Notification) => n.id == id && !n.read)
    decreases |ns|
  {
    if |ns| > 0 {
      MarkAsReadLowersBadge(ns[1..], id);
      assert MarkAsRead(ns, id)[1..] == MarkAsRead(ns[1..], id);
    }
  }

  /** Deleting removes exactly the items carrying the id. */
  lemma DeleteCount(ns: seq<Notification>, id: string)
    ensures |Delete(ns, id)| == |ns| - Collections.Count(ns, (n: Notification) => n.id == id)
  {
    var keep := (n: Notification) => n.id != id;
    var drop := (n: Notification) => n.id == id;
    Collections.CountIsFilterLength(ns, keep);
    Collections.CountComplement(ns, keep, drop);
  }

  /** Deleting twice is deleting once, and an unknown id deletes nothing. */
  lemma DeleteIdempotent(ns: seq<Notification>, id: string)
    ensures Delete(Delete(ns, id), id) == Delete(ns, id)
    ensures (forall i :: 0 <= i < |ns| ==> ns[i].id != id) ==> Delete(ns, id) == ns
  {
    Collections.FilterIdempotent(ns, (n: Notification) => n.id != id);
    if forall i :: 0 <= i < |ns| ==> ns[i].id != id {
      Collections.FilterKeepsAll(ns, (n: Notification) => n.id != id);
    }
  }

  /** The unread view of a list after a deletion is the unread view with the
      deletion applied. */
  lemma DeleteCommutesWithUnreadView(ns: seq<Notification>, id: string)
    ensures Visible(Delete(ns, id), Unread) == Delete(Visible(ns, Unread), id)
  {
    Collections.FilterCommutes(ns, (n: Notification) => n.id != id, IsUnread);
  }
}

=== FILE: numeric.dfy ===
/** Integer arithmetic as the JavaScript code uses it: `Math.round` of an
    exact ratio, `Math.min`, and clamping into a range. */
module Numeric {

  /** `Math.round(n / d)` for an exact ratio with `d > 0`: the nearest
      integer, halves rounded up. */
  function RoundRatio(n: int, d: int): (r: int)
    requires d > 0
    ensures 2 * d * r <= 2 * n + d < 2 * d * (r + 1)
  {
    (2 * n + d) / (2 * d)
  }

  /** Multiplying by a non-negative factor keeps an inequality. */
  lemma {:induction false} MulMonotone(c: nat, a: int, b: int)
    requires a <= b
    ensures c * a <= c * b
  {
    if c > 0 {
      MulMonotone(c - 1, a, b);
      assert c * a == (c - 1) * a + a;
      assert c * b == (c - 1) * b + b;
    }
  }

  /** Rounding never leaves the range of the values it rounds between. */
  lemma RoundRatioBounds(n: int, d: int, lo: int, hi: int)
    requires d > 0 && lo * d <= n <= hi * d
    ensures lo <= RoundRatio(n, d) <= hi
  {
    var r := RoundRatio(n, d);
    if r < lo {
      MulMonotone(2 * d, r + 1, lo);
      assert false;
    }
    if r > hi {
      MulMonotone(2 * d, hi + 1, r);
      assert false;
    }
  }

  /** Rounding is monotone in the numerator. */
  lemma RoundRatioMonotone(n: int, m: int, d: int)
    requires d > 0 && n <= m
    ensures RoundRatio(n, d) <= RoundRatio(m, d)
  {
    var a, b := RoundRatio(n, d), RoundRatio(m, d);
    if a > b {
      MulMonotone(2 * d, b + 1, a);
      assert false;
    }
  }

  /** `Math.round(n / d * 100)` for `0 <= n <= d` is a percentage, and a
      full share is exactly 100. */
  lemma PercentBounds(n: int, d: int)
    requires 0 <= n <= d && d > 0
    ensures 0 <= RoundRatio(100 * n, d) <= 100
    ensures n == d ==> RoundRatio(100 * n, d) == 100
  {
    MulMonotone(d, 0, 100);
    MulMonotone(100, n, d);
    assert 100 * d == d * 100;
    RoundRatioBounds(100 * n, d, 0, 100);
    if n == d {
      RoundRatioBounds(100 * n, d, 100, 100);
    }
  }

  function Min(a: int, b: int): (r: int)
    ensures r <= a && r <= b && (r == a || r == b)
  {
    if a <= b then a else b
  }

  /** `Math.max(lo, Math.min(hi, x))`. */
  function Clamp(x: int, lo: int, hi: int): (r: int)
    requires lo <= hi
    ensures lo <= r <= hi
    ensures lo <= x <= hi ==> r == x
    ensures x < lo ==> r == lo
    ensures x > hi ==> r == hi
  {
    if x < lo then lo else if x > hi then hi else x
  }

  /** Clamping is monotone. */
  lemma ClampMonotone(x: int, y: int, lo: int, hi: int)
    requires lo <= hi && x <= y
    ensures Clamp(x, lo, hi) <= Clamp(y, lo, hi)
  {
  }
}

=== FILE: palette.dfy ===
/** The command palette (frontend/components/CommandPalette.tsx): a fixed
    list of actions filtered by a case-insensitive search, with a cursor
    moved by the arrow keys. */
module Palette {
  import opened Wrappers
  import Collections
  import opened Text

  datatype Action = Navigate(page: string) | ToggleTheme

  datatype Item = Item(id: string, title: string, action: Action)

  /** The five entries, in display order. */
  function Items(): seq<Item> {
    [ Item("dashboard", "Tableau de bord", Navigate("dashboard")),
      Item("profile", "Mon Profil", Navigate("profile")),
      Item("groups", "Nouveau Groupe", Navigate("create-group")),
      Item("chat", "DaretBot IA", Navigate("chat-ia")),
      Item("theme", "Changer le Thème", ToggleTheme) ]
  }

  /** `item.title.toLowerCase().includes(query.toLowerCase())`. */
  predicate Matches(item: Item, query: string) {
    Contains(Lower(item.title), Lower(query))
  }

  /** `filteredItems`: the matching entries in their original order. */
  function Filtered(items: seq<Item>, query: string): (r: seq<Item>)
    ensures |r| <= |items| && Collections.IsSubsequence(r, items)
    ensures forall i :: 0 <= i < |r| ==> r[i] in items && Matches(r[i], query)
    ensures forall x :: x in items && Matches(x, query) ==> x in r
  {
    Collections.Filter(items, (x: Item) => Matches(x, query))
  }

  /** The empty query keeps every entry. */
  lemma EmptyQueryKeepsAll(items: seq<Item>)
    ensures Filtered(items, "") == items
  {
    forall x: Item
      ensures Matches(x, "")
    {
      assert StartsWith(Lower(x.title), "");
    }
    Collections.FilterKeepsAll(items, (x: Item) => Matches(x, ""));
  }

  /** Typing more characters can only narrow the list. */
  lemma NarrowingQuery(items: seq<Item>, q: string, more: string, x: Item)
    requires x in Filtered(items, q + more)
    ensures x in Filtered(items, q)
  {
    LowerAppend(q, more);
    ContainsPrefix(Lower(x.title), Lower(q), Lower(more));
  }

  /** `activeIndex`. Moving through an empty list computes `x % 0`, which is
      `NaN` in JavaScript and stays `NaN` under further arrow keys. */
  datatype Cursor = At(index: int) | NaN

  /** JavaScript's `%` on integers: the sign follows the dividend. */
  function JsRem(a: int, n: int): (r: int)
    requires n > 0
    ensures a >= 0 ==> 0 <= r < n && r == Wrap(a, n)
    ensures a < 0 ==> -n < r <= 0 && r == -(Wrap(-a, n) as int)
  {
    WrapIsRem(if a >= 0 then a else -a, n);
    if a >= 0 then a % n else -((-a) % n)
  }

  /** ArrowDown: `(prev + 1) % filteredItems.length`. */
  function Down(c: Cursor, n: nat): (r: Cursor)
    ensures n == 0 ==> r == NaN
    ensures c.NaN? ==> r == NaN
    ensures n > 0 && c.At? && 0 <= c.index < n ==> r.At? && r.index == (if c.index == n - 1 then 0 else c.index + 1)
  {
    match c
    case NaN => NaN
    case At(i) => if n == 0 then NaN else At(JsRem(i + 1, n))
  }

  /** ArrowUp: `(prev - 1 + filteredItems.length) % filteredItems.length`. */
  function Up(c: Cursor, n: nat): (r: Cursor)
    ensures n == 0 ==> r == NaN
    ensures c.NaN? ==> r == NaN
    ensures n > 0 && c.At? && 0 <= c.index < n ==> r.At? && r.index == (if c.index == 0 then n - 1 else c.index - 1)
  {
    match c
    case NaN => NaN
    case At(i) => if n == 0 then NaN else At(JsRem(i - 1 + n, n))
  }

  predicate InRange(c: Cursor, n: nat) {
    c.At? && 0 <= c.index < n
  }

  /** On a non-empty list the arrows keep the cursor on an entry, and each
      undoes the other. */
  lemma ArrowsStayInRange(c: Cursor, n: nat)
    requires InRange(c, n)
    ensures InRange(Down(c, n), n) && InRange(Up(c, n), n)
    ensures Up(Down(c, n), n) == c && Down(Up(c, n), n) == c
  {
  }

  /** Pressing ArrowDown `k` times. */
  function DownTimes(c: Cursor, n: nat, k: nat): (r: Cursor)
    ensures InRange(c, n) ==> InRange(r, n)
  {
    if k == 0 then c else Down(DownTimes(c, n, k - 1), n)
  }

  /** Position `x` counted around a circle of `n` entries, by repeated
      subtraction. */
  function Wrap(x: nat, n: nat): (r: nat)
    requires n > 0
    ensures r < n
    decreases x
  {
    if x < n then x else Wrap(x - n, n)
  }

  /** Repeated subtraction computes the remainder. */
  lemma {:induction false} WrapIsRem(x: nat, n: nat)
    requires n > 0
    ensures Wrap(x, n) == x % n
    decreases x
  {
    if x >= n {
      WrapIsRem(x - n, n);
      var q := (x - n) / n;
      assert x == (q + 1) * n + (x - n) % n;
      RemUnique(x, n, q + 1, (x - n) % n);
    }
  }

  /** A remainder in [0, n) is the only one. */
  lemma RemUnique(x: int, n: int, q: int, r: int)
    requires n > 0 && 0 <= r < n && x == q * n + r
    ensures x % n == r
  {
    var k := q - x / n;
    assert k * n == x % n - r;
    MultipleInRange(k, n);
  }

  /** The only multiple of `n` strictly between `-n` and `n` is zero. */
  lemma MultipleInRange(k: int, n: int)
    requires n > 0
    ensures -n < k * n < n ==> k == 0
  {
    if k > 0 {
      assert k * n >= n;
    } else if k < 0 {
      assert k * n <= -n;
    }
  }

  lemma {:induction false} WrapStep(x: nat, n: nat)
    requires n > 0
    ensures Wrap(x + 1, n) == if Wrap(x, n) == n - 1 then 0 else Wrap(x, n) + 1
    decreases x
  {
    if x + 1 >= n && x >= n {
      WrapStep(x - n, n);
    }
  }

  /** ArrowDown `k` times moves the cursor `k` entries on, wrapping around. */
  lemma {:induction false} DownTimesWraps(c: Cursor, n: nat, k: nat)
    requires InRange(c, n)
    ensures DownTimes(c, n, k) == At(Wrap(c.index + k, n))
    decreases k
  {
    if k > 0 {
      DownTimesWraps(c, n, k - 1);
      WrapStep(c.index + k - 1, n);
    } else {
      assert Wrap(c.index, n) == c.index;
    }
  }

  /** `n` presses of ArrowDown bring the cursor back where it started. */
  lemma FullTurn(c: Cursor, n: nat)
    requires InRange(c, n)
    ensures DownTimes(c, n, n) == c
  {
    DownTimesWraps(c, n, n);
    assert Wrap(c.index + n, n) == Wrap(c.index, n);
  }

  /** Once `NaN`, the cursor stays `NaN` until the query changes. */
  lemma NaNAbsorbs(n: nat)
    ensures Down(NaN, n) == NaN && Up(NaN, n) == NaN
  {
  }

  datatype State = State(query: string, cursor: Cursor)

  const InitialState := State("", At(0))

  /** Typing in the search box: the query changes and the cursor goes back to
      the first entry. */
  function Type(s: State, query: string): (r: State)
    ensures r.query == query && r.cursor == At(0)
    ensures |Filtered(Items(), query)| > 0 ==> InRange(r.cursor, |Filtered(Items(), query)|)
  {
    State(query, At(0))
  }

  /** Hovering an entry puts the cursor on it. */
  function Hover(s: State, index: nat): (r: State)
    ensures r.query == s.query && r.cursor == At(index)
  {
    s.(cursor := At(index))
  }

  datatype Key = Escape | ArrowDown | ArrowUp | Enter | OtherKey

  /** What a key press does: the new state, the action run (if any), and
      whether the palette closes. */
  datatype Outcome = Outcome(state: State, run: Option<Action>, close: bool)

  /** `handleKeyDown`. Enter runs `filteredItems[activeIndex]?.action()`,
      that is, only when the cursor is on an entry, and closes in any case. */
  function KeyDown(s: State, key: Key): (r: Outcome)
    ensures r.close <==> key == Escape || key == Enter
    ensures r.run.Some? ==> key == Enter
    ensures key == Enter ==>
              (r.run.Some? <==> InRange(s.cursor, |Filtered(Items(), s.query)|))
    ensures r.run.Some? ==>
              r.run.value == Filtered(Items(), s.query)[s.cursor.index].action
    ensures r.state.query == s.query
    ensures key == ArrowDown || key == ArrowUp ==>
              (InRange(s.cursor, |Filtered(Items(), s.query)|) ==> InRange(r.state.cursor, |Filtered(Items(), s.query)|))
    ensures key != ArrowDown && key != ArrowUp ==> r.state == s
  {
    var items := Filtered(Items(), s.query);
    match key
    case Escape => Outcome(s, None, true)
    case ArrowDown => Outcome(s.(cursor := Down(s.cursor, |items|)), None, false)
    case ArrowUp => Outcome(s.(cursor := Up(s.cursor, |items|)), None, false)
    case Enter =>
      var run := if InRange(s.cursor, |items|) then Some(items[s.cursor.index].action) else None;
      Outcome(s, run, true)
    case OtherKey => Outcome(s, None, false)
  }

  /** When no entry matches, ArrowDown puts the cursor at `NaN` and Enter
      then runs nothing. */
  lemma EmptyListRunsNothing(s: State)
    requires |Filtered(Items(), s.query)| == 0
    ensures KeyDown(s, ArrowDown).state.cursor == NaN
    ensures KeyDown(KeyDown(s, ArrowDown).state, Enter).run == None
  {
    var moved := KeyDown(s, ArrowDown).state;
    assert moved.cursor == NaN by {
      ArrowDownOnEmpty(s, |Filtered(Items(), s.query)|);
    }
    EnterOnNaN(moved);
  }

  /** ArrowDown over an empty list: the cursor becomes `NaN`. */
  lemma ArrowDownOnEmpty(s: State, n: nat)
    requires n == |Filtered(Items(), s.query)| && n == 0
    ensures KeyDown(s, ArrowDown).state.cursor == NaN
  {
  }

  /** Enter with a `NaN` cursor runs nothing. */
  lemma EnterOnNaN(s: State)
    requires s.cursor == NaN
    ensures KeyDown(s, Enter).run == None
  {
  }
}

=== FILE: payment_form.dfy ===
/** Input formatting of the card form (frontend/pages/PaymentSimulation.tsx,
    `handleChange`): the card number is grouped by four and capped at 16
    digits, the expiry gets a slash after the month, the CVV keeps four
    digits, and any other field is stored as typed. */
module PaymentForm {
  import Collections
  import opened Text

  /** `s.slice(0, n)`. */
  function Take(s: string, n: nat): (r: string)
    ensures |r| == if |s| <= n then |s| else n
    ensures r == s[..|r|]
  {
    if |s| <= n then s else s[..n]
  }

  // ----------------------------------------------------------- card number

  /** `d.replace(/(.{4})/g, '$1 ')`: a space after every complete group of
      four characters. */
  function Layout(d: string): string {
    if |d| >= 4 then d[..4] + " " + Layout(d[4..]) else d
  }

  /** The card number as the field shows it:
      `value.replace(/\D/g, '').replace(/(.{4})/g, '$1 ').trim().slice(0, 19)`. */
  function FormatCardNumber(value: string): (r: string)
    ensures |r| <= 19
    ensures forall i :: 0 <= i < |r| ==> IsDigit(r[i]) || r[i] == ' '
    ensures forall i :: 0 <= i < |r| ==> (r[i] == ' ' <==> i % 5 == 4)
    ensures |r| > 0 ==> r[0] != ' ' && r[|r| - 1] != ' '
    ensures WithoutSpaces(r) == Take(DigitsOf(value), 16)
  {
    var d := DigitsOf(value);
    CardFacts(d, Take(Trim(Layout(d)), 19));
    Take(Trim(Layout(d)), 19)
  }

  /** What the closed form tells about the displayed number of digits `d`. */
  lemma CardFacts(d: string, r: string)
    requires AllDigits(d)
    requires r == Take(Trim(Layout(d)), 19)
    ensures |r| <= 19
    ensures forall i :: 0 <= i < |r| ==> IsDigit(r[i]) || r[i] == ' '
    ensures forall i :: 0 <= i < |r| ==> (r[i] == ' ' <==> i % 5 == 4)
    ensures |r| > 0 ==> r[0] != ' ' && r[|r| - 1] != ' '
    ensures WithoutSpaces(r) == Take(d, 16)
  {
    var e := Take(d, 16);
    assert r == Grouped(e) by {
      CardClosedForm(d);
    }
    assert AllDigits(e);
    assert |r| <= 19 by {
      GroupedLength(e);
    }
    GroupedShape(e);
    assert |r| > 0 ==> r[0] != ' ' && r[|r| - 1] != ' ' by {
      GroupedEnds(e);
    }
    GroupedWithoutSpaces(e);
  }

  /** The closed form: groups of four digits joined by single spaces. */
  function Grouped(d: string): string {
    if |d| <= 4 then d else d[..4] + " " + Grouped(d[4..])
  }

  predicate IsNotSpace(c: char) { c != ' ' }

  /** Removing the spaces of the displayed number. */
  function WithoutSpaces(s: string): (r: string)
    ensures forall i :: 0 <= i < |r| ==> r[i] != ' '
  {
    Collections.Filter(s, IsNotSpace)
  }

  /** Trimming the layout of a digit string yields the grouped form. */
  lemma {:induction false} LayoutTrimmed(d: string)
    requires AllDigits(d)
    ensures TrimEnd(Layout(d)) == Grouped(d)
    decreases |d|
  {
    if |d| < 4 {
    } else if |d| == 4 {
      assert Layout(d) == d + " ";
      assert (d + " ")[..4] == d;
    } else {
      var tail := Layout(d[4..]);
      assert tail[0] == d[4];
      assert !IsBlank(tail) by { assert !IsJsWhitespace(tail[0]); }
      TrimEndAppend(d[..4] + " ", tail);
      LayoutTrimmed(d[4..]);
    }
  }

  lemma CardClosedForm(d: string)
    requires AllDigits(d)
    ensures Take(Trim(Layout(d)), 19) == Grouped(Take(d, 16))
  {
    var l := Layout(d);
    LayoutNoLeadingSpace(d);
    assert Trim(l) == TrimEnd(l);
    LayoutTrimmed(d);
    GroupedTake(d, 4);
  }

  /** The layout of a digit string starts with a digit, so `trimStart` leaves
      it alone. */
  lemma LayoutNoLeadingSpace(d: string)
    requires AllDigits(d)
    ensures TrimStart(Layout(d)) == Layout(d)
  {
    var l := Layout(d);
    if |d| > 0 {
      assert l[0] == d[0];
      assert !IsJsWhitespace(l[0]) by {
        assert IsDigit(d[0]);
      }
    }
  }

  /** Cutting the grouped form after `j` groups is grouping the first `4 j`
      digits. */
  lemma {:induction false} GroupedTake(d: string, j: nat)
    requires j >= 1
    ensures Take(Grouped(d), 5 * j - 1) == Grouped(Take(d, 4 * j))
    decreases j
  {
    if |d| <= 4 {
    } else if j == 1 {
      assert Take(d, 4) == d[..4];
    } else {
      GroupedTake(d[4..], j - 1);
      var e := Take(d, 4 * j);
      assert e[..4] == d[..4];
      assert e[4..] == Take(d[4..], 4 * (j - 1));
      assert Take(Grouped(d), 5 * j - 1) == d[..4] + " " + Take(Grouped(d[4..]), 5 * (j - 1) - 1);
    }
  }

  lemma {:induction false} GroupedLength(d: string)
    ensures |d| <= 4 ==> |Grouped(d)| == |d|
    ensures |d| > 0 ==> 4 * |Grouped(d)| <= 5 * |d| - 1
    ensures |d| <= 16 ==> |Grouped(d)| <= 19
    decreases |d|
  {
    if |d| > 4 {
      GroupedLength(d[4..]);
    }
  }

  /** Spaces sit exactly at the positions 4, 9, 14, ...; everything else is
      a digit of the input. */
  lemma {:induction false} GroupedShape(d: string)
    requires AllDigits(d)
    ensures forall i :: 0 <= i < |Grouped(d)| ==> (Grouped(d)[i] == ' ' <==> i % 5 == 4)
    ensures forall i :: 0 <= i < |Grouped(d)| ==> IsDigit(Grouped(d)[i]) || Grouped(d)[i] == ' '
    decreases |d|
  {
    if |d| > 4 {
      GroupedShape(d[4..]);
      var g := Grouped(d);
      forall i | 5 <= i < |g|
        ensures g[i] == Grouped(d[4..])[i - 5]
      {
      }
    }
  }

  /** The grouped form starts and ends with a digit. */
  lemma {:induction false} GroupedEnds(d: string)
    requires AllDigits(d)
    ensures |Grouped(d)| > 0 <==> |d| > 0
    ensures |d| > 0 ==> Grouped(d)[0] == d[0] && Grouped(d)[|Grouped(d)| - 1] == d[|d| - 1]
    decreases |d|
  {
    if |d| > 4 {
      GroupedEnds(d[4..]);
    }
  }

  lemma GroupedWithoutSpaces(d: string)
    requires AllDigits(d)
    ensures WithoutSpaces(Grouped(d)) == d
    ensures DigitsOf(Grouped(d)) == d
  {
    GroupedFilter(d, IsNotSpace);
    GroupedFilter(d, IsDigit);
  }

  /** A filter that keeps every digit and drops the space undoes the
      grouping. */
  lemma {:induction false} GroupedFilter(d: string, p: char -> bool)
    requires forall i :: 0 <= i < |d| ==> p(d[i])
    requires !p(' ')
    ensures Collections.Filter(Grouped(d), p) == d
    decreases |d|
  {
    if |d| <= 4 {
      Collections.FilterKeepsAll(d, p);
    } else {
      var head, tail := d[..4], d[4..];
      var rest := Grouped(tail);
      GroupedFilter(tail, p);
      FilterGroupStep(head, rest, p);
      assert Grouped(d) == head + [' '] + rest;
      assert d == head + tail;
    }
  }

  /** One group followed by the separator: the filter keeps the group and
      drops the space. */
  lemma FilterGroupStep(head: string, rest: string, p: char -> bool)
    requires forall i :: 0 <= i < |head| ==> p(head[i])
    requires !p(' ')
    ensures Collections.Filter(head + [' '] + rest, p) == head + Collections.Filter(rest, p)
  {
    Collections.FilterKeepsAll(head, p);
    Collections.FilterSkip(head, ' ', rest, p);
  }

  /** Formatting the displayed number again changes nothing. */
  lemma CardNumberIdempotent(value: string)
    ensures FormatCardNumber(FormatCardNumber(value)) == FormatCardNumber(value)
  {
    var d := DigitsOf(value);
    var e := Take(d, 16);
    var shown := FormatCardNumber(value);
    assert shown == Grouped(e) by {
      CardClosedForm(d);
    }
    assert AllDigits(e);
    assert DigitsOf(shown) == e by {
      GroupedWithoutSpaces(e);
    }
    CardClosedForm(e);
    assert Take(e, 16) == e;
  }

  // ---------------------------------------------------------------- expiry

  /** `d.replace(/(.{2})/, '$1/')`: one slash after the first two characters. */
  function ExpiryLayout(d: string): string {
    if |d| >= 2 then d[..2] + "/" + d[2..] else d
  }

  predicate IsNotSlash(c: char) { c != '/' }

  /** The expiry as the field shows it:
      `value.replace(/\D/g, '').replace(/(.{2})/, '$1/').slice(0, 5)`. */
  function FormatExpiry(value: string): (r: string)
    ensures |r| <= 5
    ensures |DigitsOf(value)| < 2 ==> r == DigitsOf(value)
    ensures |DigitsOf(value)| >= 2 ==> r == DigitsOf(value)[..2] + "/" + Take(DigitsOf(value)[2..], 2)
    ensures Collections.Filter(r, IsNotSlash) == Take(DigitsOf(value), 4)
    ensures DigitsOf(r) == Take(DigitsOf(value), 4)
  {
    var d := DigitsOf(value);
    ExpiryTake(d);
    ExpiryShape(d);
    ExpiryFilter(Take(d, 4), IsNotSlash);
    ExpiryFilter(Take(d, 4), IsDigit);
    Take(ExpiryLayout(d), 5)
  }

  /** The layout of the first four digits, case by case. */
  lemma ExpiryShape(d: string)
    ensures |ExpiryLayout(Take(d, 4))| <= 5
    ensures |d| < 2 ==> ExpiryLayout(Take(d, 4)) == d
    ensures |d| >= 2 ==> ExpiryLayout(Take(d, 4)) == d[..2] + "/" + Take(d[2..], 2)
  {
    var e := Take(d, 4);
    if |d| >= 2 {
      assert e[..2] == d[..2] && e[2..] == Take(d[2..], 2);
    }
  }

  /** Cutting at five characters is keeping the first four digits. */
  lemma ExpiryTake(d: string)
    ensures Take(ExpiryLayout(d), 5) == ExpiryLayout(Take(d, 4))
  {
    if |d| >= 2 {
      var e := Take(d, 4);
      assert e[..2] == d[..2];
    }
  }

  /** A filter that keeps every digit and drops the slash undoes the layout. */
  lemma ExpiryFilter(e: string, p: char -> bool)
    requires forall i :: 0 <= i < |e| ==> p(e[i])
    requires !p('/')
    ensures Collections.Filter(ExpiryLayout(e), p) == e
  {
    if |e| >= 2 {
      var head, tail := e[..2], e[2..];
      assert ExpiryLayout(e) == head + ['/'] + tail;
      Collections.FilterKeepsAll(head, p);
      Collections.FilterKeepsAll(tail, p);
      Collections.FilterSkip(head, '/', tail, p);
      assert e == head + tail;
    } else {
      Collections.FilterKeepsAll(e, p);
    }
  }

  /** Formatting the displayed expiry again changes nothing. */
  lemma ExpiryIdempotent(value: string)
    ensures FormatExpiry(FormatExpiry(value)) == FormatExpiry(value)
  {
    var d := DigitsOf(value);
    var e := Take(d, 4);
    ExpiryTake(d);
    ExpiryTake(e);
    assert Take(e, 4) == e;
  }

  // ------------------------------------------------------------------- cvv

  /** `value.replace(/\D/g, '').slice(0, 4)`. */
  function FormatCvv(value: string): (r: string)
    ensures |r| <= 4 && AllDigits(r)
    ensures |r| <= |DigitsOf(value)| && r == DigitsOf(value)[..|r|]
    ensures |DigitsOf(value)| >= 4 ==> |r| == 4
    ensures |DigitsOf(value)| < 4 ==> r == DigitsOf(value)
  {
    Take(DigitsOf(value), 4)
  }

  lemma CvvIdempotent(value: string)
    ensures FormatCvv(FormatCvv(value)) == FormatCvv(value)
  {
    DigitsOfAllDigits(FormatCvv(value));
  }

  // ------------------------------------------------------------------ form

  /** The value stored for a field: the three card fields are formatted, any
      other field (such as `cardName`) is kept as typed. */
  function FormatField(name: string, value: string): (r: string)
    ensures name != "cardNumber" && name != "expiry" && name != "cvv" ==> r == value
  {
    if name == "cardNumber" then FormatCardNumber(value)
    else if name == "expiry" then FormatExpiry(value)
    else if name == "cvv" then FormatCvv(value)
    else value
  }

  /** `handleChange`: `{ ...prev, [name]: formattedValue }`. */
  function HandleChange(form: map<string, string>, name: string, value: string): (r: map<string, string>)
    ensures r.Keys == form.Keys + {name}
    ensures r[name] == FormatField(name, value)
    ensures forall k :: k in form && k != name ==> r[k] == form[k]
  {
    var shown := FormatField(name, value);
    form[name := shown]
  }

  /** Re-submitting what the field shows leaves the form as it is. */
  lemma HandleChangeStable(form: map<string, string>, name: string, value: string)
    ensures var f := HandleChange(form, name, value);
            HandleChange(f, name, f[name]) == f
  {
    var shown := FormatField(name, value);
    assert FormatField(name, shown) == shown by {
      if name == "cardNumber" {
        CardNumberIdempotent(value);
      } else if name == "expiry" {
        ExpiryIdempotent(value);
      } else if name == "cvv" {
        CvvIdempotent(value);
      }
    }
  }
}

=== FILE: registration.dfy ===
/** Account creation in two steps (pages/Register.tsx): the form is checked
    and a one-time code is "sent"; the account is created only when the code
    typed back is the fixed simulation code. */
module Registration {
  import opened Wrappers
  import opened Types
  import Store
  import Collections
  import opened Text

  datatype Form = Form(name: string, email: string, phone: string, password: string, confirmPassword: string)

  const EmptyForm := Form("", "", "", "", "")

  datatype Field = Name | Email | Phone | Password | ConfirmPassword

  datatype Step = FormStep | OtpStep

  datatype RegError = PasswordMismatch | PasswordTooShort | InvalidPhone | WrongCode
  {
    function Message(): string {
      match this
      case PasswordMismatch => "Les mots de passe ne correspondent pas."
      case PasswordTooShort => "Le mot de passe doit contenir au moins 6 caractères."
      case InvalidPhone => "Numéro de téléphone invalide (Format: 06... ou 07...)."
      case WrongCode => "Code de vérification incorrect."
    }
  }

  /** What the page holds: the current step, the form, the code typed and the
      error shown (`""` for none). */
  datatype Page = Page(step: Step, form: Form, otpCode: string, error: string)

  const InitialPage := Page(FormStep, EmptyForm, "", "")

  const MinPasswordLength := 6

  /** The code every verification accepts. */
  const SimulatedCode := "1234"

  /** `handleChange`: `{ ...formData, [name]: value }`, and the error is
      cleared. */
  function SetField(p: Page, field: Field, value: string): (r: Page)
    ensures r.error == "" && r.step == p.step && r.otpCode == p.otpCode
    ensures field == Name ==> r.form == p.form.(name := value)
    ensures field == Email ==> r.form == p.form.(email := value)
    ensures field == Phone ==> r.form == p.form.(phone := value)
    ensures field == Password ==> r.form == p.form.(password := value)
    ensures field == ConfirmPassword ==> r.form == p.form.(confirmPassword := value)
  {
    var f := p.form;
    var g := match field
      case Name => f.(name := value)
      case Email => f.(email := value)
      case Phone => f.(phone := value)
      case Password => f.(password := value)
      case ConfirmPassword => f.(confirmPassword := value);
    p.(form := g, error := "")
  }

  /** `/^0[67]\d{8}$/`: ten digits starting with 06 or 07. */
  predicate MobileNumber(s: string) {
    |s| == 10 && s[0] == '0' && (s[1] == '6' || s[1] == '7') && AllDigits(s[2..])
  }

  /** The checks of `handleRequestOTP`, in their order; the first failure is
      the one reported. */
  function Validate(f: Form): (r: Option<RegError>)
    ensures r == None <==>
              f.password == f.confirmPassword && Utf16Length(f.password) >= MinPasswordLength
              && MobileNumber(WithoutWhitespace(f.phone))
    ensures f.password != f.confirmPassword ==> r == Some(PasswordMismatch)
    ensures r == Some(PasswordTooShort) <==>
              f.password == f.confirmPassword && Utf16Length(f.password) < MinPasswordLength
    ensures r == Some(InvalidPhone) <==>
              f.password == f.confirmPassword && Utf16Length(f.password) >= MinPasswordLength
              && !MobileNumber(WithoutWhitespace(f.phone))
    ensures r != Some(WrongCode)
  {
    if f.password != f.confirmPassword then Some(PasswordMismatch)
    else if Utf16Length(f.password) < MinPasswordLength then Some(PasswordTooShort)
    else if !MobileNumber(WithoutWhitespace(f.phone)) then Some(InvalidPhone)
    else None
  }

  /** The length rule counts UTF-16 code units: three emoji (each a
      surrogate pair) already make six, while three accented Latin letters
      stay three. */
  lemma PasswordLengthInCodeUnits(f: Form)
    requires f.password == f.confirmPassword
    ensures |f.password| >= 3 && (forall i :: 0 <= i < |f.password| ==> IsAstral(f.password[i])) ==>
              Validate(f) != Some(PasswordTooShort)
    ensures |f.password| < 6 && (forall i :: 0 <= i < |f.password| ==> !IsAstral(f.password[i])) ==>
              Validate(f) == Some(PasswordTooShort)
  {
    Utf16LengthExtremes(f.password);
  }

  /** `handleRequestOTP`: on a valid form the (always successful) code
      sending moves the page to the code step; otherwise the first error is
      shown and the page stays on the form. */
  function RequestCode(p: Page): (r: Page)
    ensures r.form == p.form && r.otpCode == p.otpCode
    ensures r.step == OtpStep <==> p.step == OtpStep || Validate(p.form).None?
    ensures Validate(p.form).Some? ==> r.error == Validate(p.form).value.Message() && r.step == p.step
    ensures Validate(p.form).None? ==> r.error == ""
  {
    match Validate(p.form)
    case Some(e) => p.(error := e.Message())
    case None => p.(step := OtpStep, error := "")
  }

  /** The account data `handleVerifyOTP` hands to `register`: the phone as
      typed, spaces included. */
  function AccountData(f: Form): (r: Store.Registration)
    ensures r.name == f.name && r.email == f.email && r.phone == f.phone
    ensures r.password == Some(f.password)
  {
    Store.Registration(f.name, f.email, f.phone, Some(f.password))
  }

  /** `handleVerifyOTP`: a wrong code is refused before anything is stored;
      the right one registers the account and logs it in. `id` stands for
      the generated user id. */
  function VerifyCode(s: Store.Store, f: Form, otpCode: string, id: string): (r: Result<(Store.Store, User), RegError>)
    ensures r.Err? <==> otpCode != SimulatedCode
    ensures r.Err? ==> r.error == WrongCode
    ensures r.Ok? ==> Store.GetCurrentUser(r.value.0) == Some(r.value.1)
    ensures r.Ok? ==> r.value.1.id == id && r.value.1.name == f.name && r.value.1.email == f.email
                      && r.value.1.phone == f.phone && r.value.1.password == Some(f.password)
    ensures r.Ok? ==> r.value.1.role == Free && r.value.0.groups == s.groups
  {
    if otpCode != SimulatedCode then Err(WrongCode)
    else Ok(Store.Register(s, AccountData(f), id))
  }

  /** Whitespace anywhere in the phone number does not change the verdict. */
  lemma PhoneSpacesIgnored(f: Form, a: string, b: string, gap: string)
    requires f.phone == a + gap + b
    requires IsBlank(gap)
    ensures Validate(f) == Validate(f.(phone := a + b))
  {
    WithoutWhitespaceSkipsBlank(a, gap, b);
  }

  /** Only the password fields and the phone decide the verdict. */
  lemma NameAndEmailIrrelevant(f: Form, name: string, email: string)
    ensures Validate(f.(name := name, email := email)) == Validate(f)
  {
  }

  /** The code step is reached only from a form that passes every check. */
  lemma OtpStepNeedsValidForm(p: Page)
    requires p.step == FormStep
    ensures RequestCode(p).step == OtpStep ==>
              p.form.password == p.form.confirmPassword
              && Utf16Length(p.form.password) >= MinPasswordLength
              && MobileNumber(WithoutWhitespace(p.form.phone))
  {
  }

  /** Editing a field after an error clears it, and the form is checked
      again from scratch on the next request. */
  lemma EditClearsError(p: Page, field: Field, value: string)
    requires p.error != ""
    ensures SetField(p, field, value).error == ""
    ensures SetField(p, field, value).step == p.step
  {
  }

  /** A mobile number typed with spaces inside is accepted, and the account
      stores it with its spaces, not in the form that was checked. */
  lemma SpacedNumberKept(s: Store.Store, f: Form, id: string, a: string, gap: string, b: string)
    requires f.phone == a + gap + b && MobileNumber(a + b)
    requires IsBlank(gap) && gap != []
    requires f.password == f.confirmPassword && Utf16Length(f.password) >= MinPasswordLength
    ensures Validate(f).None?
    ensures VerifyCode(s, f, SimulatedCode, id).Ok?
    ensures VerifyCode(s, f, SimulatedCode, id).value.1.phone == a + gap + b != a + b
  {
    var plain := a + b;
    assert forall i :: 0 <= i < |plain| ==> IsDigit(plain[i]) by {
      assert forall i :: 2 <= i < |plain| ==> plain[i] == plain[2..][i - 2];
    }
    Collections.FilterKeepsAll(plain, IsNotJsWhitespace);
    WithoutWhitespaceSkipsBlank(a, gap, b);
    assert |a + gap + b| > |plain|;
  }
}

=== FILE: scoring.dfy ===
/** The deterministic heuristics of frontend/services/geminiService.ts: the
    trust score and its badge, the turn-order optimiser, payment-risk
    prediction, fraud rules, the group-health clamp and status, and the
    conflict-mediation templates. Ratios the source compares as floating
    point numbers are compared here by cross-multiplication, which agrees
    with them on exact values. */
module Scoring {
  import opened Wrappers
  import opened Types
  import Collections
  import Sorting
  import Numeric

  // ------------------------------------------------------------ trust score

  /** `!!(u.email && u.phone)`: both contact fields are non-empty. */
  predicate ProfileComplete(u: User) {
    u.email != "" && u.phone != ""
  }

  /** The unclamped fallback formula. */
  function RawTrust(u: User): int {
    var h := HistoryOrZero(u.paymentHistory);
    50 + 10 * h.onTime - 5 * h.late + (if ProfileComplete(u) then 5 else 0)
  }

  /** `getTrustBadgeDetails(score).label`. */
  function TrustBadge(score: int): (l: TrustLevel)
    ensures l == Fiable <==> score >= 80
    ensures l == Moyen <==> 50 <= score < 80
    ensures l == Risque <==> score < 50
  {
    if score >= 80 then Fiable else if score >= 50 then Moyen else Risque
  }

  function TrustRank(l: TrustLevel): nat {
    match l
    case Risque => 0
    case Moyen => 1
    case Fiable => 2
  }

  /** A higher score never earns a lower badge. */
  lemma TrustBadgeMonotone(a: int, b: int)
    requires a <= b
    ensures TrustRank(TrustBadge(a)) <= TrustRank(TrustBadge(b))
  {
  }

  /** `calculateTrustScore`. Both code paths return the fallback. The
      `min(10000, ...)` on the suggested amount never applies, because the
      score is at most 100. */
  function CalculateTrustScore(u: User): (r: AiTrustScore)
    ensures 0 <= r.score <= 100
    ensures 0 <= RawTrust(u) <= 100 ==> r.score == RawTrust(u)
    ensures RawTrust(u) < 0 ==> r.score == 0
    ensures RawTrust(u) > 100 ==> r.score == 100
    ensures r.level == TrustBadge(r.score)
    ensures r.suggestedGroupAmount == 100 * r.score && r.suggestedGroupAmount <= 10000
  {
    var score := Numeric.Clamp(RawTrust(u), 0, 100);
    AiTrustScore(score, TrustBadge(score), "Calcul basé sur votre historique de paiement.",
                 Numeric.Min(10000, score * 100))
  }

  function TrustScore(u: User): int {
    CalculateTrustScore(u).score
  }

  /** History that is at least as good (no fewer on-time, no more late
      payments, same contact details) never scores lower. */
  lemma TrustScoreMonotone(u: User, v: User)
    requires ProfileComplete(u) == ProfileComplete(v)
    requires HistoryOrZero(u.paymentHistory).onTime <= HistoryOrZero(v.paymentHistory).onTime
    requires HistoryOrZero(u.paymentHistory).late >= HistoryOrZero(v.paymentHistory).late
    ensures TrustScore(u) <= TrustScore(v)
  {
    Numeric.ClampMonotone(RawTrust(u), RawTrust(v), 0, 100);
  }

  /** A newcomer with complete contact details starts at 55, Moyen. */
  lemma NewcomerScore(u: User)
    requires u.paymentHistory.None? && ProfileComplete(u)
    ensures TrustScore(u) == 55 && CalculateTrustScore(u).level == Moyen
  {
  }

  // ------------------------------------------------------------ turn order

  datatype Scored = Scored(id: string, score: int)

  function ScoreOf(u: User): Scored { Scored(u.id, TrustScore(u)) }
  function NegScore(x: Scored): int { -x.score }
  function ScoredId(x: Scored): string { x.id }

  /** The members' scores sorted by the stable `b.score - a.score`
      comparator: non-increasing score, ties in input order. */
  function RankByTrust(members: seq<User>): (r: seq<Scored>)
    ensures |r| == |members|
    ensures forall i, j :: 0 <= i < j < |r| ==> r[i].score >= r[j].score
    ensures Sorting.StablePermutation(r, Collections.Map(members, ScoreOf), NegScore)
  {
    var r := Sorting.SortBy(Collections.Map(members, ScoreOf), NegScore);
    assert forall i, j :: 0 <= i < j < |r| ==> NegScore(r[i]) <= NegScore(r[j]);
    r
  }

  /** `optimizeTurnOrder`: member ids by non-increasing trust score; the result
      is a rearrangement of the input ids. */
  function OptimizeTurnOrder(members: seq<User>): (r: seq<string>)
    ensures |r| == |members|
    ensures multiset(r) == multiset(Collections.Map(members, UserKey))
    ensures forall i, j :: 0 <= i < j < |r| ==> RankByTrust(members)[i].score >= RankByTrust(members)[j].score
    ensures forall i :: 0 <= i < |r| ==> r[i] == RankByTrust(members)[i].id
  {
    var ranked := RankByTrust(members);
    var scored := Collections.Map(members, ScoreOf);
    Collections.MapPreservesPermutation(ranked, scored, ScoredId);
    assert Collections.Map(scored, ScoredId) == Collections.Map(members, UserKey);
    Collections.Map(ranked, ScoredId)
  }

  /** Any ordering by non-increasing score that keeps ties in input order is
      the one `optimizeTurnOrder` produces. */
  lemma TurnOrderIsUnique(members: seq<User>, r: seq<Scored>)
    requires Sorting.SortedBy(r, NegScore)
    requires Sorting.StablePermutation(r, Collections.Map(members, ScoreOf), NegScore)
    ensures r == RankByTrust(members)
  {
    Sorting.SortByIsTheStableSort(Collections.Map(members, ScoreOf), r, NegScore);
  }

  // ------------------------------------------------------- payment risk

  /** The risk factors `predictPayments` lists, in the order it checks them.
      `HighLateRate` carries the rounded percentage it shows. */
  datatype RiskFactor = HighLateRate(percent: int) | NoPaymentHistory | AboveCapacity | IncompleteProfile {
    function Weight(): int {
      match this
      case HighLateRate(_) => 40
      case NoPaymentHistory => 30
      case AboveCapacity => 25
      case IncompleteProfile => 15
    }
  }

  datatype Prediction = Prediction(
    userId: string,
    userName: string,
    willPayOnTime: bool,
    confidence: int,
    predictedDelayDays: Option<int>,
    riskFactors: seq<RiskFactor>)

  function Weights(fs: seq<RiskFactor>): int {
    if |fs| == 0 then 0 else fs[0].Weight() + Weights(fs[1..])
  }

  /** More than 30% of the recorded payments were late. */
  predicate LateRateHigh(h: PaymentHistory) {
    h.onTime + h.late > 0 && 10 * h.late > 3 * (h.onTime + h.late)
  }

  /** The amount exceeds twice the average payment, when there is a positive
      average (`avgPaid > 0 && amount > avgPaid * 2`). */
  predicate AboveUsualCapacity(h: PaymentHistory, amount: int) {
    var total := h.onTime + h.late;
    total > 0 && h.totalAmount > 0 && amount * total > 2 * h.totalAmount
  }

  /** The risk factors of one member, in the source's order. */
  function RiskFactors(amount: int, u: User): (fs: seq<RiskFactor>)
    ensures NoPaymentHistory in fs <==> HistoryOrZero(u.paymentHistory).onTime + HistoryOrZero(u.paymentHistory).late == 0
    ensures (exists p :: HighLateRate(p) in fs) <==> LateRateHigh(HistoryOrZero(u.paymentHistory))
    ensures AboveCapacity in fs <==> AboveUsualCapacity(HistoryOrZero(u.paymentHistory), amount)
    ensures IncompleteProfile in fs <==> !ProfileComplete(u)
    ensures |fs| <= 3
  {
    var h := HistoryOrZero(u.paymentHistory);
    var total := h.onTime + h.late;
    var f1 := if total == 0 then [NoPaymentHistory]
              else if LateRateHigh(h) then [HighLateRate(Numeric.RoundRatio(100 * h.late, total))]
              else [];
    var f2 := if AboveUsualCapacity(h, amount) then [AboveCapacity] else [];
    var f3 := if u.phone == "" || u.email == "" then [IncompleteProfile] else [];
    assert LateRateHigh(h) ==> HighLateRate(Numeric.RoundRatio(100 * h.late, total)) in f1 + f2 + f3;
    f1 + f2 + f3
  }

  lemma WeightsAppend(a: seq<RiskFactor>, b: seq<RiskFactor>)
    ensures Weights(a + b) == Weights(a) + Weights(b)
  {
    if |a| == 0 {
      assert a + b == b;
    } else {
      assert (a + b)[1..] == a[1..] + b;
      WeightsAppend(a[1..], b);
    }
  }

  /** `riskScore` as the source accumulates it: 40 for a high late rate or 30
      without history, 25 above the usual capacity, 15 for an incomplete
      profile. */
  function RiskScore(amount: int, u: User): (r: int)
    ensures 0 <= r <= 80
    ensures r >= 50 ==> r in {55, 65, 80}
  {
    var h := HistoryOrZero(u.paymentHistory);
    (if h.onTime + h.late == 0 then 30 else if LateRateHigh(h) then 40 else 0)
    + (if AboveUsualCapacity(h, amount) then 25 else 0)
    + (if u.phone == "" || u.email == "" then 15 else 0)
  }

  /** The risk score is the total weight of the listed factors. */
  lemma RiskIsSumOfFactorWeights(amount: int, u: User)
    ensures RiskScore(amount, u) == Weights(RiskFactors(amount, u))
  {
    var h := HistoryOrZero(u.paymentHistory);
    var total := h.onTime + h.late;
    var f1 := if total == 0 then [NoPaymentHistory]
              else if LateRateHigh(h) then [HighLateRate(Numeric.RoundRatio(100 * h.late, total))]
              else [];
    var f2 := if AboveUsualCapacity(h, amount) then [AboveCapacity] else [];
    var f3 := if u.phone == "" || u.email == "" then [IncompleteProfile] else [];
    assert RiskFactors(amount, u) == f1 + f2 + f3;
    WeightsAppend(f1 + f2, f3);
    WeightsAppend(f1, f2);
  }

  /** One prediction: on time iff the risk stays under 50; confidence grows by
      5 per recorded payment up to 95; a delay of `floor(risk / 10)` days only
      when late. */
  function Predict(amount: int, u: User): (p: Prediction)
    ensures p.userId == u.id && p.userName == u.name
    ensures p.riskFactors == RiskFactors(amount, u)
    ensures p.willPayOnTime <==> RiskScore(amount, u) < 50
    ensures p.confidence == Numeric.Min(95, 50 + 5 * (HistoryOrZero(u.paymentHistory).onTime + HistoryOrZero(u.paymentHistory).late))
    ensures 50 <= p.confidence <= 95
    ensures p.confidence == 95 <==> HistoryOrZero(u.paymentHistory).onTime + HistoryOrZero(u.paymentHistory).late >= 9
    ensures p.predictedDelayDays.Some? <==> !p.willPayOnTime
    ensures p.predictedDelayDays.Some? ==> p.predictedDelayDays.value == RiskScore(amount, u) / 10
    ensures p.predictedDelayDays.Some? ==> 5 <= p.predictedDelayDays.value <= 8
  {
    var h := HistoryOrZero(u.paymentHistory);
    var risk := RiskScore(amount, u);
    var onTime := risk < 50;
    Prediction(u.id, u.name, onTime, Numeric.Min(95, 50 + 5 * (h.onTime + h.late)),
               if onTime then None else Some(risk / 10), RiskFactors(amount, u))
  }

  /** A member is predicted late exactly when the late rate is high and
      another factor (capacity or incomplete profile) adds to it. */
  lemma PredictedLateIff(amount: int, u: User)
    ensures !Predict(amount, u).willPayOnTime <==>
      LateRateHigh(HistoryOrZero(u.paymentHistory))
      && (AboveUsualCapacity(HistoryOrZero(u.paymentHistory), amount) || !ProfileComplete(u))
  {
  }

  /** In particular a member without any history is always predicted on time. */
  lemma NoHistoryPredictedOnTime(amount: int, u: User)
    requires HistoryOrZero(u.paymentHistory).onTime + HistoryOrZero(u.paymentHistory).late == 0
    ensures Predict(amount, u).willPayOnTime
  {
    PredictedLateIff(amount, u);
  }

  function Confidence(p: Prediction): int { p.confidence }

  /** `predictPayments`: one prediction per member, sorted by the stable
      `a.confidence - b.confidence` comparator. */
  function PredictPayments(group: DaretGroup, members: seq<User>): (r: seq<Prediction>)
    ensures |r| == |members|
    ensures forall i, j :: 0 <= i < j < |r| ==> r[i].confidence <= r[j].confidence
    ensures Sorting.StablePermutation(r, PredictEach(group.amountPerPerson, members), Confidence)
  {
    var r := Sorting.SortBy(PredictEach(group.amountPerPerson, members), Confidence);
    assert forall i, j :: 0 <= i < j < |r| ==> Confidence(r[i]) <= Confidence(r[j]);
    r
  }

  /** One prediction per member, in member order. */
  function PredictEach(amount: int, members: seq<User>): (r: seq<Prediction>)
    ensures |r| == |members|
    ensures forall i :: 0 <= i < |members| ==> r[i] == Predict(amount, members[i])
  {
    Collections.Map(members, (u: User) => Predict(amount, u))
  }

  // ------------------------------------------------------------------ fraud

  datatype Severity = Low | Medium | High | CriticalSeverity
  datatype AlertType = PaymentPattern | BehaviorAnomaly | IdentityMismatch | VelocityCheck

  datatype FraudAlert = FraudAlert(severity: Severity, kind: AlertType, confidence: int)

  /** `isNewUser`: no history or nothing paid yet. */
  predicate IsNewUser(u: User) {
    u.paymentHistory.None? || u.paymentHistory.value.totalAmount == 0
  }

  /** The velocity check compares a fixed count. */
  const RecentJoins := 3

  /** `latePayments / totalPayments > 0.5`. */
  predicate MostlyLate(h: PaymentHistory) {
    h.onTime + h.late > 0 && 2 * h.late > h.onTime + h.late
  }

  /** `avgHistorical > 0 && amount > avgHistorical * 3`. When the history has
      an amount but no payments the average is infinite and the test fails. */
  predicate UnusualAmount(h: PaymentHistory, amount: int) {
    var total := h.onTime + h.late;
    total > 0 && h.totalAmount > 0 && amount * total > 3 * h.totalAmount
  }

  /** The position of the check raising an alert in `detectFraud`: new-user
      KYC, payment pattern, velocity, unusual amount. */
  function CheckIndex(a: FraudAlert): nat {
    match a.kind
    case PaymentPattern => 1
    case VelocityCheck => 2
    case _ => if a.confidence == 75 then 0 else 3
  }

  /** `detectFraud`, in the order of its checks. The membership argument is
      not used by the source. */
  function DetectFraud(u: User, group: DaretGroup): (r: seq<FraudAlert>)
    ensures forall i :: 0 <= i < |r| ==> r[i].kind != VelocityCheck
    ensures FraudAlert(High, PaymentPattern, 90) in r <==> MostlyLate(HistoryOrZero(u.paymentHistory))
    ensures FraudAlert(Medium, BehaviorAnomaly, 75) in r <==> IsNewUser(u) && group.amountPerPerson > 5000
    ensures FraudAlert(Medium, BehaviorAnomaly, 70) in r <==> UnusualAmount(HistoryOrZero(u.paymentHistory), group.amountPerPerson)
    ensures |r| <= 3
    ensures forall i :: 0 <= i < |r| ==>
      r[i] in {FraudAlert(Medium, BehaviorAnomaly, 75), FraudAlert(High, PaymentPattern, 90), FraudAlert(Medium, BehaviorAnomaly, 70)}
    ensures forall i, j :: 0 <= i < j < |r| ==> CheckIndex(r[i]) < CheckIndex(r[j])
  {
    var h := HistoryOrZero(u.paymentHistory);
    var a1 := if IsNewUser(u) && group.amountPerPerson > 5000 then [FraudAlert(Medium, BehaviorAnomaly, 75)] else [];
    var a2 := if MostlyLate(h) then [FraudAlert(High, PaymentPattern, 90)] else [];
    var a3 := if RecentJoins > 5 then [FraudAlert(CriticalSeverity, VelocityCheck, 95)] else [];
    var a4 := if UnusualAmount(h, group.amountPerPerson) then [FraudAlert(Medium, BehaviorAnomaly, 70)] else [];
    a1 + a2 + a3 + a4
  }

  /** The two amount rules exclude each other: a new user has paid nothing,
      so it has no positive average. */
  lemma NewUserHasNoAverageAlert(u: User, group: DaretGroup)
    requires IsNewUser(u)
    ensures FraudAlert(Medium, BehaviorAnomaly, 70) !in DetectFraud(u, group)
  {
  }

  // ----------------------------------------------------------- group health

  datatype HealthStatus = Excellent | Good | Fair | Poor | CriticalHealth

  function HealthRank(s: HealthStatus): nat {
    match s
    case CriticalHealth => 0
    case Poor => 1
    case Fair => 2
    case Good => 3
    case Excellent => 4
  }

  /** The status thresholds 80 / 60 / 40 / 20 on the clamped score. */
  function HealthStatusFor(h: real): (s: HealthStatus)
    ensures s == Excellent <==> h >= 80.0
    ensures s == Good <==> 60.0 <= h < 80.0
    ensures s == Fair <==> 40.0 <= h < 60.0
    ensures s == Poor <==> 20.0 <= h < 40.0
    ensures s == CriticalHealth <==> h < 20.0
  {
    if h >= 80.0 then Excellent else if h >= 60.0 then Good
    else if h >= 40.0 then Fair else if h >= 20.0 then Poor else CriticalHealth
  }

  lemma HealthStatusMonotone(a: real, b: real)
    requires a <= b
    ensures HealthRank(HealthStatusFor(a)) <= HealthRank(HealthStatusFor(b))
  {
  }

  /** The average trust score, `sum / (n || 1)`. */
  function AverageScore(members: seq<User>): real {
    var scores := Collections.Map(members, TrustScore);
    (Collections.Sum(scores) as real) / (if |members| == 0 then 1 else |members|) as real
  }

  predicate LowScore(u: User) { TrustScore(u) < 50 }

  /** The adjusted health score before clamping: -20 when more than 30% of the
      members score under 50, -15 when more than half are new, -10 above
      10000 per person, +5 for groups of ten or more. */
  function RawHealth(avg: real, members: seq<User>, amount: int, groupSize: nat): real {
    var n := |members|;
    var low := Collections.Count(members, LowScore);
    var newcomers := Collections.Count(members, IsNewUser);
    avg
      - (if 10 * low > 3 * n then 20.0 else 0.0)
      - (if 2 * newcomers > n then 15.0 else 0.0)
      - (if amount > 10000 then 10.0 else 0.0)
      + (if groupSize >= 10 then 5.0 else 0.0)
  }

  datatype GroupHealth = GroupHealth(score: int, status: HealthStatus)

  /** `analyzeGroupHealth` (score and status): the adjusted score is clamped
      to [0, 100], the status is read from the clamped value and the reported
      score is that value rounded half up. */
  function AnalyzeGroupHealth(group: DaretGroup, members: seq<User>): (r: GroupHealth)
    ensures 0 <= r.score <= 100
    ensures var h := RawHealth(AverageScore(members), members, group.amountPerPerson, |group.members|);
      && (h <= 0.0 ==> r.score == 0 && r.status == CriticalHealth)
      && (h >= 100.0 ==> r.score == 100 && r.status == Excellent)
      && (0.0 <= h <= 100.0 ==> r.status == HealthStatusFor(h) && r.score as real - 0.5 <= h < r.score as real + 0.5)
  {
    var raw := RawHealth(AverageScore(members), members, group.amountPerPerson, |group.members|);
    var h := if raw < 0.0 then 0.0 else if raw > 100.0 then 100.0 else raw;
    GroupHealth((h + 0.5).Floor, HealthStatusFor(h))
  }

  /** The status is read before rounding, so a group shown with score 80 can
      still be rated GOOD (at 79.5). */
  lemma StatusReadBeforeRounding()
    ensures (79.5 + 0.5).Floor == 80 && HealthStatusFor(79.5) == Good
  {
  }

  // -------------------------------------------------------------- mediation

  datatype ConflictType = PaymentDispute | TurnOrder | MemberBehavior | OtherConflict

  /** The actions the mediation templates list, one constructor per step. */
  datatype MediationStep =
    | CollectProofs | CheckDatesAndAmounts | ConsultBankHistory | AdminDecision | DocumentResolution
    | ShowDrawCertificate | ExplainDrawMethod | ProposeRedrawVote | DocumentGroupDecision | ApplyNewConfiguration
    | HearPartiesSeparately | IdentifyDisagreements | ProposeFairSolutions | VoteIfNeeded | DocumentAgreement

  datatype Mediation = Mediation(analysis: string, suggestedResolution: string, steps: seq<MediationStep>)

  /** The line each step is shown as; the number is part of the text. */
  function StepWording(step: MediationStep): string {
    match step
    case CollectProofs => "1. Collecter toutes les preuves de paiement"
    case CheckDatesAndAmounts => "2. Vérifier les dates et montants"
    case ConsultBankHistory => "3. Consulter l'historique bancaire si nécessaire"
    case AdminDecision => "4. Décision finale par l'admin après vérification"
    case DocumentResolution => "5. Documenter la résolution dans le chat du groupe"
    case ShowDrawCertificate => "1. Montrer le certificat de tirage (seed + date)"
    case ExplainDrawMethod => "2. Expliquer la méthode utilisée (aléatoire/pondéré/manuel)"
    case ProposeRedrawVote => "3. Si contestation légitime, proposer un vote pour re-tirage"
    case DocumentGroupDecision => "4. Documenter la décision du groupe"
    case ApplyNewConfiguration => "5. Appliquer la nouvelle configuration si votée"
    case HearPartiesSeparately => "1. Écouter chaque partie séparément"
    case IdentifyDisagreements => "2. Identifier les points de désaccord"
    case ProposeFairSolutions => "3. Proposer des solutions équitables"
    case VoteIfNeeded => "4. Voter si nécessaire"
    case DocumentAgreement => "5. Documenter l'accord final"
  }

  /** The template each step belongs to (behaviour and other conflicts share
      the default one, reported here as `OtherConflict`). */
  function TemplateOf(step: MediationStep): ConflictType {
    match step
    case CollectProofs | CheckDatesAndAmounts | ConsultBankHistory | AdminDecision | DocumentResolution => PaymentDispute
    case ShowDrawCertificate | ExplainDrawMethod | ProposeRedrawVote | DocumentGroupDecision | ApplyNewConfiguration => TurnOrder
    case _ => OtherConflict
  }

  /** The template a conflict type is answered with. */
  function TemplateFor(kind: ConflictType): ConflictType {
    match kind
    case PaymentDispute => PaymentDispute
    case TurnOrder => TurnOrder
    case _ => OtherConflict
  }

  /** The five steps of each template, in order: distinct, all from the
      conflict's own template, a redraw vote only for turn-order disputes and
      proof collection only for payment disputes. */
  function StepsFor(kind: ConflictType): (r: seq<MediationStep>)
    ensures |r| == 5
    ensures forall i, j :: 0 <= i < j < |r| ==> r[i] != r[j]
    ensures forall i :: 0 <= i < |r| ==> TemplateOf(r[i]) == TemplateFor(kind)
    ensures kind == TurnOrder <==> ProposeRedrawVote in r
    ensures kind == PaymentDispute <==> CollectProofs in r
  {
    match kind
    case PaymentDispute =>
      [CollectProofs, CheckDatesAndAmounts, ConsultBankHistory, AdminDecision, DocumentResolution]
    case TurnOrder =>
      [ShowDrawCertificate, ExplainDrawMethod, ProposeRedrawVote, DocumentGroupDecision, ApplyNewConfiguration]
    case _ =>
      [HearPartiesSeparately, IdentifyDisagreements, ProposeFairSolutions, VoteIfNeeded, DocumentAgreement]
  }

  /** The analysis text of each template. */
  function Analysis(kind: ConflictType): string {
    match kind
    case PaymentDispute =>
      "Conflit de paiement détecté. Les preuves de paiement sont essentielles pour résoudre ce type de litige."
    case TurnOrder =>
      "Désaccord sur l'ordre des tours. La transparence du tirage est cruciale."
    case _ =>
      "Conflit nécessitant une médiation humaine."
  }

  /** The suggested resolution of each template. */
  function Resolution(kind: ConflictType): string {
    match kind
    case PaymentDispute =>
      "Demander à toutes les parties de fournir des preuves de paiement (reçus, captures d'écran de virement)."
    case TurnOrder =>
      "Rappeler que le tirage a été effectué de manière transparente avec un seed vérifiable. Proposer un re-tirage si fraude avérée."
    case _ =>
      "Organiser une réunion (virtuelle ou physique) avec toutes les parties."
  }

  /** `mediateConflict`: a fixed template per conflict type; behaviour
      conflicts and other conflicts share the default template. The
      description and the parties are not read. */
  function MediateConflict(kind: ConflictType): (m: Mediation)
    ensures |m.steps| == 5
    ensures forall i, j :: 0 <= i < j < |m.steps| ==> m.steps[i] != m.steps[j]
    ensures forall i :: 0 <= i < |m.steps| ==> TemplateOf(m.steps[i]) == TemplateFor(kind)
    ensures kind == TurnOrder <==> ProposeRedrawVote in m.steps
    ensures kind == PaymentDispute <==> CollectProofs in m.steps
    ensures m.analysis == Analysis(TemplateFor(kind)) && m.suggestedResolution == Resolution(TemplateFor(kind))
  {
    var template := TemplateFor(kind);
    var steps := StepsFor(template);
    TemplateSteps(kind, steps);
    Mediation(Analysis(template), Resolution(template), steps)
  }

  /** The steps of a conflict's template keep the per-template facts of
      `StepsFor`, read against the conflict itself. */
  lemma TemplateSteps(kind: ConflictType, r: seq<MediationStep>)
    requires r == StepsFor(TemplateFor(kind))
    ensures |r| == 5
    ensures forall i, j :: 0 <= i < j < |r| ==> r[i] != r[j]
    ensures forall i :: 0 <= i < |r| ==> TemplateOf(r[i]) == TemplateFor(kind)
    ensures kind == TurnOrder <==> ProposeRedrawVote in r
    ensures kind == PaymentDispute <==> CollectProofs in r
  {
    var template := TemplateFor(kind);
    assert TemplateFor(template) == template;
  }

  /** The lines the panel shows, in order. */
  function StepLines(m: Mediation): (r: seq<string>)
    ensures |r| == |m.steps|
  {
    Collections.Map(m.steps, StepWording)
  }

  /** Two conflict types get the same steps exactly when they share a
      template. */
  lemma {:induction false} SameStepsIffSameTemplate(a: ConflictType, b: ConflictType)
    ensures StepsFor(a) == StepsFor(b) <==> TemplateFor(a) == TemplateFor(b)
  {
    var sa, sb := StepsFor(a), StepsFor(b);
    if TemplateFor(a) != TemplateFor(b) {
      assert TemplateOf(sa[0]) != TemplateOf(sb[0]);
    }
  }

  lemma BehaviourSharesDefault()
    ensures MediateConflict(MemberBehavior) == MediateConflict(OtherConflict)
  {
  }
}

=== FILE: sorting.dfy ===
/** The stable sort `Array.prototype.sort` performs with a numeric comparator
    `(a, b) => key(a) - key(b)`: ascending by key, elements with equal keys
    keeping their input order. */
module Sorting {

  predicate SortedBy<T>(s: seq<T>, key: T -> int) {
    forall i, j :: 0 <= i < j < |s| ==> key(s[i]) <= key(s[j])
  }

  /** The elements whose key is `k`, in order: one tie class of the comparator. */
  function WithKey<T>(s: seq<T>, key: T -> int, k: int): seq<T> {
    if |s| == 0 then []
    else (if key(s[0]) == k then [s[0]] else []) + WithKey(s[1..], key, k)
  }

  /** `r` holds the elements of `s`, and every tie class in the same order. */
  ghost predicate StablePermutation<T>(r: seq<T>, s: seq<T>, key: T -> int) {
    && multiset(r) == multiset(s)
    && forall k :: WithKey(r, key, k) == WithKey(s, key, k)
  }

  lemma WithKeyCons<T>(x: T, s: seq<T>, key: T -> int, k: int)
    ensures WithKey([x] + s, key, k) == (if key(x) == k then [x] else []) + WithKey(s, key, k)
  {
    assert ([x] + s)[1..] == s;
  }

  /** The first element of a non-empty sequence is in its own tie class. */
  lemma WithKeyHead<T>(s: seq<T>, key: T -> int)
    requires |s| > 0
    ensures WithKey(s, key, key(s[0])) != []
  {
  }

  /** Insert `x` before the first element whose key is not smaller: `x` comes
      from an earlier input position than all of `s`, so ties keep input order. */
  function Insert<T>(x: T, s: seq<T>, key: T -> int): (r: seq<T>)
    requires SortedBy(s, key)
    ensures SortedBy(r, key)
    ensures multiset(r) == multiset{x} + multiset(s)
    ensures key(r[0]) == key(x) || (|s| > 0 && key(r[0]) == key(s[0]))
  {
    if |s| == 0 || key(x) <= key(s[0]) then
      [x] + s
    else
      var t := Insert(x, s[1..], key);
      assert s == [s[0]] + s[1..];
      assert key(s[0]) <= key(t[0]);
      ConsSorted(s[0], t, key);
      assert multiset([s[0]] + t) == multiset{s[0]} + multiset(t);
      [s[0]] + t
  }

  /** A sorted sequence stays sorted under a head whose key is not larger
      than its first key. */
  lemma ConsSorted<T>(y: T, t: seq<T>, key: T -> int)
    requires SortedBy(t, key)
    requires |t| > 0 ==> key(y) <= key(t[0])
    ensures SortedBy([y] + t, key)
  {
    var r := [y] + t;
    forall i, j | 0 <= i < j < |r|
      ensures key(r[i]) <= key(r[j])
    {
      assert r[j] == t[j - 1];
      if i > 0 {
        assert r[i] == t[i - 1];
      } else if j > 1 {
        assert key(t[0]) <= key(t[j - 1]);
      }
    }
  }

  /** Each tie class of `Insert(x, s)` is that of `s` with `x` in front. */
  lemma {:induction false} InsertStable<T>(x: T, s: seq<T>, key: T -> int, k: int)
    requires SortedBy(s, key)
    ensures WithKey(Insert(x, s, key), key, k) == (if key(x) == k then [x] else []) + WithKey(s, key, k)
    decreases |s|
  {
    if |s| == 0 || key(x) <= key(s[0]) {
      WithKeyCons(x, s, key, k);
    } else {
      var t := Insert(x, s[1..], key);
      InsertStable(x, s[1..], key, k);
      WithKeyCons(s[0], t, key, k);
      WithKeyCons(s[0], s[1..], key, k);
      assert s == [s[0]] + s[1..];
    }
  }

  /** Insertion sort, stable and ascending by `key`. */
  function SortBy<T>(s: seq<T>, key: T -> int): (r: seq<T>)
    ensures |r| == |s|
    ensures SortedBy(r, key)
    ensures StablePermutation(r, s, key)
  {
    if |s| == 0 then []
    else
      var t := SortBy(s[1..], key);
      var r := Insert(s[0], t, key);
      assert s == [s[0]] + s[1..];
      assert |r| == |multiset(r)| == |multiset(s)| == |s|;
      assert forall k :: WithKey(r, key, k) == WithKey(s, key, k) by {
        forall k
          ensures WithKey(r, key, k) == WithKey(s, key, k)
        {
          InsertStable(s[0], t, key, k);
          WithKeyCons(s[0], s[1..], key, k);
        }
      }
      r
  }

  /** A sorted sequence is determined by its tie classes: any two sorted
      sequences with the same tie classes are equal. Hence `SortBy` is the one
      and only stable sort of its input. */
  lemma {:induction false} StableSortUnique<T>(a: seq<T>, b: seq<T>, key: T -> int)
    requires SortedBy(a, key) && SortedBy(b, key)
    requires forall k :: WithKey(a, key, k) == WithKey(b, key, k)
    ensures a == b
    decreases |a| + |b|
  {
    if |a| == 0 {
      if |b| != 0 {
        WithKeyHead(b, key);
        assert false;
      }
    } else if |b| == 0 {
      WithKeyHead(a, key);
      assert false;
    } else {
      assert a == [a[0]] + a[1..];
      assert b == [b[0]] + b[1..];
      var m := key(a[0]);
      var n := key(b[0]);
      WithKeyCons(a[0], a[1..], key, m);
      WithKeyCons(b[0], b[1..], key, n);
      LeastKey(b, key, m);
      LeastKey(a, key, n);
      assert m == n;
      assert a[0] == WithKey(a, key, m)[0] == WithKey(b, key, m)[0] == b[0];
      forall k
        ensures WithKey(a[1..], key, k) == WithKey(b[1..], key, k)
      {
        WithKeyCons(a[0], a[1..], key, k);
        WithKeyCons(b[0], b[1..], key, k);
        var p := if m == k then [a[0]] else [];
        assert WithKey(a[1..], key, k) == WithKey(a, key, k)[|p|..];
        assert WithKey(b[1..], key, k) == WithKey(b, key, k)[|p|..];
      }
      SortedTail(a, key);
      SortedTail(b, key);
      StableSortUnique(a[1..], b[1..], key);
    }
  }

  lemma SortedTail<T>(s: seq<T>, key: T -> int)
    requires SortedBy(s, key) && |s| > 0
    ensures SortedBy(s[1..], key)
  {
  }

  /** In a sorted sequence, every key that occurs is at least the first key. */
  lemma {:induction false} LeastKey<T>(s: seq<T>, key: T -> int, k: int)
    requires SortedBy(s, key) && |s| > 0
    requires WithKey(s, key, k) != []
    ensures key(s[0]) <= k
    decreases |s|
  {
    if key(s[0]) != k {
      assert |s| > 1;
      SortedTail(s, key);
      LeastKey(s[1..], key, k);
    }
  }

  /** Hence any stable, sorted arrangement of `s` is `SortBy(s, key)`. */
  lemma SortByIsTheStableSort<T>(s: seq<T>, r: seq<T>, key: T -> int)
    requires SortedBy(r, key) && StablePermutation(r, s, key)
    ensures r == SortBy(s, key)
  {
    StableSortUnique(r, SortBy(s, key), key);
  }
}

=== FILE: store.dfy ===
/** The in-memory store behind services/db.ts: the current-user slot, the
    user and group collections, one chat per group and the vote list. Every
    operation reads a collection, changes it and writes it back; here that is
    a function from one `Store` value to the next. */
module Store {
  import opened Wrappers
  import opened Types
  import Collections

  /** `session` is the id of the logged-in user: `getCurrentUser` only ever
      reads the stored user's id and looks the record up again. */
  datatype Store = Store(
    session: Option<string>,
    users: seq<User>,
    groups: seq<DaretGroup>,
    chats: map<string, seq<GroupMessage>>,
    votes: seq<VoteSession>)

  const Empty := Store(None, [], [], map[], [])

  /** `getUser`: the first user with this id. */
  function GetUser(s: Store, id: string): (r: Option<User>)
    ensures r.Some? ==> r.value in s.users && r.value.id == id
    ensures r.None? <==> forall i :: 0 <= i < |s.users| ==> s.users[i].id != id
  {
    Collections.Lookup(s.users, UserKey, id)
  }

  /** `groups.find(g => g.id === id)`. */
  function GetGroup(s: Store, id: string): (r: Option<DaretGroup>)
    ensures r.Some? ==> r.value in s.groups && r.value.id == id
    ensures r.None? <==> forall i :: 0 <= i < |s.groups| ==> s.groups[i].id != id
  {
    Collections.Lookup(s.groups, GroupKey, id)
  }

  /** `getCurrentUser`: the stored session's id, looked up again. */
  function GetCurrentUser(s: Store): (r: Option<User>)
    ensures s.session.None? ==> r.None?
    ensures r.Some? ==> r.value in s.users && Some(r.value.id) == s.session
  {
    match s.session
    case None => None
    case Some(id) => GetUser(s, id)
  }

  /** `updateUser`: upsert by id; nothing but the users collection changes
      (the session slot keeps the same id). */
  function UpdateUser(s: Store, u: User): (r: Store)
    ensures GetUser(r, u.id) == Some(u)
    ensures forall k :: k != u.id ==> GetUser(r, k) == GetUser(s, k)
    ensures |r.users| == |s.users| || |r.users| == |s.users| + 1
    ensures forall i :: 0 <= i < |s.users| && s.users[i].id != u.id ==> r.users[i] == s.users[i]
    ensures r.session == s.session && r.groups == s.groups && r.chats == s.chats && r.votes == s.votes
  {
    var r := s.(users := Collections.Upsert(s.users, UserKey, u));
    assert forall k :: k != u.id ==> GetUser(r, k) == GetUser(s, k) by {
      forall k | k != u.id
        ensures GetUser(r, k) == GetUser(s, k)
      {
        Collections.LookupUpsertOther(s.users, UserKey, u, k);
      }
    }
    r
  }

  /** `saveGroup`: upsert by id; nothing but the groups collection changes. */
  function SaveGroup(s: Store, g: DaretGroup): (r: Store)
    ensures GetGroup(r, g.id) == Some(g)
    ensures forall k :: k != g.id ==> GetGroup(r, k) == GetGroup(s, k)
    ensures |r.groups| == |s.groups| || |r.groups| == |s.groups| + 1
    ensures forall i :: 0 <= i < |s.groups| && s.groups[i].id != g.id ==> r.groups[i] == s.groups[i]
    ensures forall i :: 0 <= i < |r.groups| ==> r.groups[i] == g || (i < |s.groups| && r.groups[i] == s.groups[i])
    ensures r.session == s.session && r.users == s.users && r.chats == s.chats && r.votes == s.votes
  {
    var r := s.(groups := Collections.Upsert(s.groups, GroupKey, g));
    assert forall k :: k != g.id ==> GetGroup(r, k) == GetGroup(s, k) by {
      forall k | k != g.id
        ensures GetGroup(r, k) == GetGroup(s, k)
      {
        Collections.LookupUpsertOther(s.groups, GroupKey, g, k);
      }
    }
    r
  }

  /** `login`: remember the user in the session slot, then `updateUser`. */
  function Login(s: Store, u: User): (r: Store)
    ensures GetCurrentUser(r) == Some(u)
    ensures forall k :: k != u.id ==> GetUser(r, k) == GetUser(s, k)
    ensures r.groups == s.groups && r.chats == s.chats && r.votes == s.votes
  {
    UpdateUser(s.(session := Some(u.id)), u)
  }

  function Logout(s: Store): (r: Store)
    ensures GetCurrentUser(r).None?
    ensures r.users == s.users && r.groups == s.groups
  {
    s.(session := None)
  }

  /** The fields the registration form hands to `register`. */
  datatype Registration = Registration(name: string, email: string, phone: string, password: Option<string>)

  /** `register`: a verified free account with an empty history, logged in at
      once. `id` stands for `crypto.randomUUID()`. */
  function Register(s: Store, data: Registration, id: string): (r: (Store, User))
    ensures r.1.id == id && r.1.name == data.name && r.1.email == data.email && r.1.phone == data.phone
    ensures r.1.password == data.password
    ensures r.1.role == Free && r.1.verificationStatus == Some(Verified)
    ensures r.1.paymentHistory == Some(NoHistory)
    ensures GetCurrentUser(r.0) == Some(r.1)
    ensures r.0.groups == s.groups
  {
    var u := User(id, data.email, data.name, data.phone, Free, data.password,
                  Some(NoHistory), None, None, None, Some(Verified));
    (Login(s, u), u)
  }

  /** Level reached with a given number of loyalty points. */
  function LevelFor(points: int): Level {
    if points >= 1000 then Diamant
    else if points >= 500 then Or
    else if points >= 200 then Argent
    else Bronze
  }

  function LevelRank(l: Level): nat {
    match l
    case Bronze => 0
    case Argent => 1
    case Or => 2
    case Diamant => 3
  }

  /** More points never mean a lower level. */
  lemma LevelForMonotone(p: int, q: int)
    requires p <= q
    ensures LevelRank(LevelFor(p)) <= LevelRank(LevelFor(q))
  {
  }

  /** A user after earning `amount` points: a missing count reads as 0 and
      the level follows the new total; nothing else changes. */
  function Earn(u: User, amount: int): (e: User)
    ensures e.points == Some(u.points.GetOr(0) + amount)
    ensures e.level == Some(LevelFor(u.points.GetOr(0) + amount))
    ensures e.(points := u.points, level := u.level) == u
  {
    var points := u.points.GetOr(0) + amount;
    u.(points := Some(points), level := Some(LevelFor(points)))
  }

  /** `addPoints`: a missing user is ignored; otherwise the user earns the
      points and the other users are untouched. */
  function AddPoints(s: Store, userId: string, amount: int): (r: Store)
    ensures GetUser(s, userId).None? ==> r == s
    ensures GetUser(s, userId).Some? ==> GetUser(r, userId) == Some(Earn(GetUser(s, userId).value, amount))
    ensures forall k :: k != userId ==> GetUser(r, k) == GetUser(s, k)
    ensures r.groups == s.groups && r.votes == s.votes
  {
    match GetUser(s, userId)
    case None => s
    case Some(u) => UpdateUser(s, Earn(u, amount))
  }

  /** Earning points never lowers the level reached by the points held. */
  lemma EarnNeverDemotes(u: User, amount: nat)
    ensures Earn(u, amount).level.Some?
    ensures LevelRank(LevelFor(u.points.GetOr(0))) <= LevelRank(Earn(u, amount).level.value)
  {
    LevelForMonotone(u.points.GetOr(0), u.points.GetOr(0) + amount);
  }

  /** `upgradeToPremium`. */
  function UpgradeToPremium(s: Store, userId: string): (r: Store)
    ensures GetUser(s, userId).None? ==> r == s
    ensures GetUser(s, userId).Some? ==> GetUser(r, userId) == Some(GetUser(s, userId).value.(role := Premium))
    ensures forall k :: k != userId ==> GetUser(r, k) == GetUser(s, k)
  {
    match GetUser(s, userId)
    case None => s
    case Some(u) => UpdateUser(s, u.(role := Premium))
  }

  /** `getGroupMessages`: a group without a chat yet has an empty one. */
  function GetGroupMessages(s: Store, groupId: string): (r: seq<GroupMessage>)
    ensures groupId !in s.chats ==> r == []
    ensures groupId in s.chats ==> r == s.chats[groupId]
  {
    if groupId in s.chats then s.chats[groupId] else []
  }

  /** `sendGroupMessage`: append one message to this group's chat; `id` and
      `now` stand for the generated id and timestamp. */
  function SendGroupMessage(s: Store, groupId: string, user: User, text: string,
                            kind: MessageType, mediaUrl: Option<string>,
                            id: string, now: string): (r: Store)
    ensures GetGroupMessages(r, groupId) ==
      GetGroupMessages(s, groupId) + [GroupMessage(id, groupId, user.id, user.name, text, now, None, Some(kind), mediaUrl)]
    ensures forall g :: g != groupId ==> GetGroupMessages(r, g) == GetGroupMessages(s, g)
    ensures r.users == s.users && r.groups == s.groups && r.votes == s.votes
  {
    var msg := GroupMessage(id, groupId, user.id, user.name, text, now, None, Some(kind), mediaUrl);
    s.(chats := s.chats[groupId := GetGroupMessages(s, groupId) + [msg]])
  }

  /** Sending messages one after another keeps them in sending order. */
  lemma ChatKeepsOrder(s: Store, groupId: string, user: User, t1: string, t2: string,
                       id1: string, id2: string, now: string)
    ensures var s1 := SendGroupMessage(s, groupId, user, t1, TextMessage, None, id1, now);
            var s2 := SendGroupMessage(s1, groupId, user, t2, TextMessage, None, id2, now);
            var m := GetGroupMessages(s2, groupId);
            |m| == |GetGroupMessages(s, groupId)| + 2 && m[|m| - 2].text == t1 && m[|m| - 1].text == t2
  {
  }

  /** `getNotifications`: two fixed unread notices for the user. */
  function GetNotifications(userId: string, now: string): (r: seq<Notification>)
    ensures |r| == 2
    ensures forall i :: 0 <= i < |r| ==> !r[i].read && r[i].userId == userId
    ensures r[0].id != r[1].id
  {
    [ Notification("1", userId, InfoNotice, "Bienvenue sur Daretna !", now, false),
      Notification("2", userId, AlertNotice, "Complétez votre profil pour augmenter votre score.", now, false) ]
  }

  /** `getFinancialSummary`: contributed total from the history (0 when
      missing); the received total and next amount are fixed at 0. */
  function GetFinancialSummary(u: User, nextPaymentDate: string): (r: FinancialSummary)
    ensures r.totalContributed == HistoryOrZero(u.paymentHistory).totalAmount
    ensures u.paymentHistory.None? ==> r.totalContributed == 0
    ensures r.totalReceived == 0 && r.nextPaymentAmount == 0
  {
    FinancialSummary(HistoryOrZero(u.paymentHistory).totalAmount, 0, nextPaymentDate, 0)
  }
}

=== FILE: text.dfy ===
/** Character classes and string operations the pages use: `\d`, `\s`,
    `toLowerCase`, `includes`, `split(c)[0]`. Strings are `seq<char>`. */
module Text {
  import Collections

  predicate IsDigit(c: char) {
    '0' <= c <= '9'
  }

  /** `s.replace(/\D/g, '')`: the digits of `s`, in order. */
  function DigitsOf(s: string): (r: string)
    ensures |r| <= |s|
    ensures forall i :: 0 <= i < |r| ==> IsDigit(r[i])
  {
    Collections.Filter(s, IsDigit)
  }

  predicate AllDigits(s: string) {
    forall i :: 0 <= i < |s| ==> IsDigit(s[i])
  }

  /** Dropping the non-digits of a string that has none changes nothing. */
  lemma {:induction false} DigitsOfAllDigits(s: string)
    requires AllDigits(s)
    ensures DigitsOf(s) == s
  {
    if |s| > 0 {
      DigitsOfAllDigits(s[1..]);
      assert s == [s[0]] + s[1..];
    }
  }

  /** A character outside the Basic Multilingual Plane, which UTF-16 stores
      as a surrogate pair. */
  predicate IsAstral(c: char) {
    c as int > 0xFFFF
  }

  /** `s.length`: the number of UTF-16 code units, two for each astral
      character. */
  function Utf16Length(s: string): (n: nat)
    ensures |s| <= n <= 2 * |s|
  {
    if |s| == 0 then 0 else (if IsAstral(s[0]) then 2 else 1) + Utf16Length(s[1..])
  }

  /** Without astral characters the code units are the characters; with only
      astral characters there are twice as many. */
  lemma {:induction false} Utf16LengthExtremes(s: string)
    ensures (forall i :: 0 <= i < |s| ==> !IsAstral(s[i])) ==> Utf16Length(s) == |s|
    ensures (forall i :: 0 <= i < |s| ==> IsAstral(s[i])) ==> Utf16Length(s) == 2 * |s|
    decreases |s|
  {
    if |s| > 0 {
      Utf16LengthExtremes(s[1..]);
      assert forall i :: 1 <= i < |s| ==> s[1..][i - 1] == s[i];
    }
  }

  /** The characters matched by `\s` in a JavaScript regular expression. */
  predicate IsJsWhitespace(c: char) {
    || c == ' ' || c == '\t' || c == '\n' || c == '\r' || c == '\U{B}' || c == '\U{C}'
    || c == '\U{A0}' || c == '\U{1680}' || ('\U{2000}' <= c <= '\U{200A}')
    || c == '\U{2028}' || c == '\U{2029}' || c == '\U{202F}' || c == '\U{205F}'
    || c == '\U{3000}' || c == '\U{FEFF}'
  }

  predicate IsNotJsWhitespace(c: char) {
    !IsJsWhitespace(c)
  }

  /** `s.replace(/\s/g, '')`. */
  function WithoutWhitespace(s: string): (r: string)
    ensures forall i :: 0 <= i < |r| ==> !IsJsWhitespace(r[i])
  {
    Collections.Filter(s, IsNotJsWhitespace)
  }

  /** `!s.trim()`: nothing but whitespace (`trim` strips the same set). */
  predicate IsBlank(s: string) {
    forall i :: 0 <= i < |s| ==> IsJsWhitespace(s[i])
  }

  /** A string is blank exactly when removing its whitespace leaves nothing. */
  lemma BlankIffNoContent(s: string)
    ensures IsBlank(s) <==> WithoutWhitespace(s) == []
  {
    var w := WithoutWhitespace(s);
    if !IsBlank(s) {
      var i :| 0 <= i < |s| && !IsJsWhitespace(s[i]);
      assert IsNotJsWhitespace(s[i]);
      assert s[i] in w;
    }
  }

  /** Whitespace removal skips a blank stretch wherever it sits. */
  lemma WithoutWhitespaceSkipsBlank(a: string, gap: string, b: string)
    requires IsBlank(gap)
    ensures WithoutWhitespace(a + gap + b) == WithoutWhitespace(a + b)
  {
    Collections.FilterAppend(a + gap, b, IsNotJsWhitespace);
    Collections.FilterAppend(a, gap, IsNotJsWhitespace);
    Collections.FilterAppend(a, b, IsNotJsWhitespace);
    BlankIffNoContent(gap);
    assert WithoutWhitespace(a + gap) == WithoutWhitespace(a);
  }

  /** `s.trimStart()`. */
  function TrimStart(s: string): (r: string)
    ensures |r| <= |s| && r == s[|s| - |r|..]
    ensures |r| > 0 ==> !IsJsWhitespace(r[0])
  {
    if |s| > 0 && IsJsWhitespace(s[0]) then TrimStart(s[1..]) else s
  }

  /** `s.trimEnd()`. */
  function TrimEnd(s: string): (r: string)
    ensures |r| <= |s| && r == s[..|r|]
    ensures |r| > 0 ==> !IsJsWhitespace(r[|r| - 1])
  {
    if |s| > 0 && IsJsWhitespace(s[|s| - 1]) then TrimEnd(s[..|s| - 1]) else s
  }

  /** `s.trim()`. */
  function Trim(s: string): string {
    TrimEnd(TrimStart(s))
  }

  /** Trailing whitespace after a non-blank suffix does not reach the prefix. */
  lemma {:induction false} TrimEndAppend(a: string, b: string)
    requires !IsBlank(b)
    ensures TrimEnd(a + b) == a + TrimEnd(b)
    decreases |b|
  {
    var last := b[|b| - 1];
    assert (a + b)[|a + b| - 1] == last;
    if IsJsWhitespace(last) {
      var shorter := b[..|b| - 1];
      assert (a + b)[..|a + b| - 1] == a + shorter;
      assert !IsBlank(shorter) by {
        var i :| 0 <= i < |b| && !IsJsWhitespace(b[i]);
        assert shorter[i] == b[i];
      }
      TrimEndAppend(a, shorter);
    }
  }

  /** `toLowerCase` on ASCII and Latin-1 letters. */
  function LowerChar(c: char): (r: char)
    ensures 'A' <= c <= 'Z' ==> r as int == c as int + 32
    ensures !('A' <= c <= 'Z') && !('À' <= c <= 'Þ') ==> r == c
  {
    if 'A' <= c <= 'Z' || ('À' <= c <= 'Þ' && c != '×') then (c as int + 32) as char
    else c
  }

  function Lower(s: string): (r: string)
    ensures |r| == |s|
    ensures forall i :: 0 <= i < |s| ==> r[i] == LowerChar(s[i])
  {
    Collections.Map(s, LowerChar)
  }

  /** `t.startsWith(q)`. */
  predicate StartsWith(t: string, q: string) {
    |q| <= |t| && t[..|q|] == q
  }

  /** `t.includes(q)`: `q` occurs in `t` at some offset. */
  predicate Contains(t: string, q: string)
    decreases |t|
  {
    StartsWith(t, q) || (|t| > 0 && Contains(t[1..], q))
  }

  /** `q` occurs in `t` at offset `k`. */
  predicate OccursAt(t: string, q: string, k: int) {
    0 <= k && k + |q| <= |t| && t[k..k + |q|] == q
  }

  /** `Contains` is the search for an offset where `q` occurs. */
  lemma {:induction false} ContainsIffOccurs(t: string, q: string)
    ensures Contains(t, q) <==> exists k :: OccursAt(t, q, k)
    decreases |t|
  {
    if StartsWith(t, q) {
      assert OccursAt(t, q, 0);
    }
    if |t| > 0 {
      ContainsIffOccurs(t[1..], q);
      if Contains(t[1..], q) {
        var k :| OccursAt(t[1..], q, k);
        assert t[k + 1..k + 1 + |q|] == t[1..][k..k + |q|];
        assert OccursAt(t, q, k + 1);
      }
      if k :| OccursAt(t, q, k) && k > 0 {
        assert t[1..][k - 1..k - 1 + |q|] == t[k..k + |q|];
        assert OccursAt(t[1..], q, k - 1);
      }
    } else {
      if k :| OccursAt(t, q, k) {
        assert StartsWith(t, q);
      }
    }
  }

  /** A text containing `q + x` contains `q`. */
  lemma {:induction false} ContainsPrefix(t: string, q: string, x: string)
    requires Contains(t, q + x)
    ensures Contains(t, q)
    decreases |t|
  {
    if StartsWith(t, q + x) {
      assert t[..|q|] == (q + x)[..|q|] == q;
    } else {
      ContainsPrefix(t[1..], q, x);
    }
  }

  lemma LowerAppend(a: string, b: string)
    ensures Lower(a + b) == Lower(a) + Lower(b)
  {
  }

  /** `s.includes(c)` for one character. */
  predicate HasChar(s: string, c: char) {
    exists i :: 0 <= i < |s| && s[i] == c
  }

  /** `s.split(c)[0]`: everything before the first `c`, or all of `s`. */
  function BeforeFirst(s: string, c: char): (r: string)
    ensures |r| <= |s| && r == s[..|r|]
    ensures forall i :: 0 <= i < |r| ==> r[i] != c
    ensures |r| < |s| ==> s[|r|] == c
  {
    if |s| == 0 || s[0] == c then ""
    else [s[0]] + BeforeFirst(s[1..], c)
  }
}

=== FILE: types.dfy ===
/** The records and enumerations the Daret engine manipulates
    (frontend/types.ts). Optional fields (`x?: T`, `T | null`) are `Option`s. */
module Types {
  import opened Wrappers

  datatype UserRole = Free | Premium

  /** Aggregate payment history; consumers read a missing one as all zeros. */
  datatype PaymentHistory = PaymentHistory(onTime: nat, late: nat, totalAmount: int)

  const NoHistory := PaymentHistory(0, 0, 0)

  function HistoryOrZero(h: Option<PaymentHistory>): (r: PaymentHistory)
    ensures h.None? ==> r.onTime == 0 && r.late == 0 && r.totalAmount == 0
    ensures h.Some? ==> r == h.value
  {
    h.GetOr(NoHistory)
  }

  /** Loyalty level. */
  datatype Level = Bronze | Argent | Or | Diamant

  datatype Verification = Unverified | VerificationPending | Verified

  datatype User = User(
    id: string,
    email: string,
    name: string,
    phone: string,
    role: UserRole,
    password: Option<string>,
    paymentHistory: Option<PaymentHistory>,
    badges: Option<seq<string>>,
    points: Option<int>,
    level: Option<Level>,
    verificationStatus: Option<Verification>)

  /** Group status; pages compare the display strings literally. */
  datatype GroupStatus = Pending | Active | Completed {
    function Label(): string {
      match this
      case Pending => "En attente"
      case Active => "Actif"
      case Completed => "Terminé"
    }
  }

  /** Reads a display string back; `None` for any other string. */
  function StatusOfLabel(s: string): Option<GroupStatus> {
    if s == "En attente" then Some(Pending)
    else if s == "Actif" then Some(Active)
    else if s == "Terminé" then Some(Completed)
    else None
  }

  /** The three display strings are distinct, so comparing labels is
      comparing statuses. */
  lemma StatusLabelRoundTrip(st: GroupStatus)
    ensures StatusOfLabel(st.Label()) == Some(st)
  {
  }

  lemma StatusLabelInjective(a: GroupStatus, b: GroupStatus)
    ensures a.Label() == b.Label() <==> a == b
  {
    StatusLabelRoundTrip(a);
    StatusLabelRoundTrip(b);
  }

  datatype Periodicity = Monthly | Weekly {
    function Label(): string {
      match this
      case Monthly => "Mois"
      case Weekly => "Semaine"
    }
  }

  datatype GroupRole = Admin | CoAdmin | Member {
    function Label(): string {
      match this
      case Admin => "Responsable"
      case CoAdmin => "Co-Responsable"
      case Member => "Membre"
    }
  }

  /** `'PENDING' | 'SUBMITTED' | 'CONFIRMED' | 'LATE'`. */
  datatype PaymentStatus = PaymentPending | Submitted | Confirmed | Late

  datatype Membership = Membership(
    userId: string,
    groupId: string,
    role: GroupRole,
    tourPosition: Option<int>,
    paymentStatus: PaymentStatus,
    paymentProofUrl: Option<string>,
    joinedAt: string,
    missedPayments: Option<int>,
    isBlocked: Option<bool>)

  datatype DrawMode = Random | Manual | Weighted

  datatype DaretGroup = DaretGroup(
    id: string,
    name: string,
    amountPerPerson: int,
    periodicity: Option<Periodicity>,
    startDate: string,
    status: GroupStatus,
    adminId: string,
    members: seq<Membership>,
    currentTurnIndex: int,
    drawMode: Option<DrawMode>,
    drawSeed: Option<string>,
    drawDate: Option<string>)

  datatype TrustLevel = Fiable | Moyen | Risque {
    function Label(): string {
      match this
      case Fiable => "Fiable"
      case Moyen => "Moyen"
      case Risque => "Risqué"
    }
  }

  datatype AiTrustScore = AiTrustScore(
    score: int,
    level: TrustLevel,
    explanation: string,
    suggestedGroupAmount: int)

  datatype NotificationType = PaymentNotice | AlertNotice | InfoNotice

  datatype Notification = Notification(
    id: string,
    userId: string,
    kind: NotificationType,
    message: string,
    date: string,
    read: bool)

  datatype FinancialSummary = FinancialSummary(
    totalContributed: int,
    totalReceived: int,
    nextPaymentDate: string,
    nextPaymentAmount: int)

  datatype MessageType = TextMessage | AudioMessage | ImageMessage

  datatype GroupMessage = GroupMessage(
    id: string,
    groupId: string,
    userId: string,
    userName: string,
    text: string,
    timestamp: string,
    isSystem: Option<bool>,
    kind: Option<MessageType>,
    mediaUrl: Option<string>)

  datatype VoteOption = VoteOption(id: string, caption: string, count: int)

  datatype VoteStatus = Open | Closed

  datatype VoteSession = VoteSession(
    id: string,
    groupId: string,
    creatorId: string,
    question: string,
    options: seq<VoteOption>,
    createdAt: string,
    expiresAt: string,
    status: VoteStatus,
    voters: seq<string>)

  /** Key functions for the store's collections. */
  function UserKey(u: User): string { u.id }
  function GroupKey(g: DaretGroup): string { g.id }
  function VoteKey(v: VoteSession): string { v.id }
  function MemberKey(m: Membership): string { m.userId }
}

=== FILE: voting.dfy ===
/** Group votes (services/db.ts) and how the group page presents them
    (pages/GroupDetail.tsx). A vote session collects one ballot per user;
    its tally always equals its number of voters. */
module Voting {
  import opened Wrappers
  import opened Types
  import opened Store
  import Collections
  import Numeric
  import Text

  /** The errors `castVote` throws, in the order it checks them. */
  datatype VoteError = VoteNotFound | AlreadyVoted | VoteClosed | InvalidOption {
    function Message(): string {
      match this
      case VoteNotFound => "Vote non trouvé"
      case AlreadyVoted => "Vous avez déjà voté"
      case VoteClosed => "Le vote est clos"
      case InvalidOption => "Option invalide"
    }
  }

  function OptionKey(o: VoteOption): string { o.id }
  function OptionCount(o: VoteOption): int { o.count }

  /** `totalVotes`: the sum of the option counts. With non-negative counts
      it bounds every option's count, so no bar exceeds 100%. */
  function TotalVotes(v: VoteSession): (t: int)
    ensures (forall j :: 0 <= j < |v.options| ==> v.options[j].count >= 0) ==>
              t >= 0 && forall j :: 0 <= j < |v.options| ==> v.options[j].count <= t
  {
    var c := Collections.Map(v.options, OptionCount);
    assert forall j :: 0 <= j < |v.options| ==> c[j] == v.options[j].count;
    if forall j :: 0 <= j < |v.options| ==> v.options[j].count >= 0 then
      Collections.AllAtMostSum(c);
      Collections.Sum(c)
    else Collections.Sum(c)
  }

  /** `hasVoted`: the user appears among the voters. */
  predicate HasVoted(v: VoteSession, userId: string) {
    userId in v.voters
  }

  /** The session invariant: counts are non-negative, nobody is listed twice
      and the counts add up to the number of voters. */
  predicate WellFormed(v: VoteSession) {
    && (forall j :: 0 <= j < |v.options| ==> v.options[j].count >= 0)
    && (forall a, b :: 0 <= a < b < |v.voters| ==> v.voters[a] != v.voters[b])
    && TotalVotes(v) == |v.voters|
  }

  predicate AllWellFormed(s: Store) {
    forall i :: 0 <= i < |s.votes| ==> WellFormed(s.votes[i])
  }

  function InGroup(groupId: string): VoteSession -> bool {
    (v: VoteSession) => v.groupId == groupId
  }

  /** `getGroupVotes`: the sessions of one group, in stored order. */
  function GetGroupVotes(s: Store, groupId: string): (r: seq<VoteSession>)
    ensures forall i :: 0 <= i < |r| ==> r[i] in s.votes && r[i].groupId == groupId
    ensures forall i :: 0 <= i < |s.votes| && s.votes[i].groupId == groupId ==> s.votes[i] in r
    ensures Collections.IsSubsequence(r, s.votes)
    ensures |r| == Collections.Count(s.votes, InGroup(groupId))
  {
    Collections.CountIsFilterLength(s.votes, InGroup(groupId));
    Collections.Filter(s.votes, InGroup(groupId))
  }

  /** Fresh options with zero count; `optionId` stands for the generated ids. */
  function NewOptions(labels: seq<string>, optionId: nat -> string): (r: seq<VoteOption>)
    ensures |r| == |labels|
    ensures forall i :: 0 <= i < |labels| ==> r[i] == VoteOption(optionId(i), labels[i], 0)
  {
    seq(|labels|, i requires 0 <= i < |labels| => VoteOption(optionId(i), labels[i], 0))
  }

  lemma {:induction false} SumOfZeros(s: seq<int>)
    requires forall j :: 0 <= j < |s| ==> s[j] == 0
    ensures Collections.Sum(s) == 0
    decreases |s|
  {
    if |s| > 0 {
      SumOfZeros(s[1..]);
    }
  }

  /** `createVote`: a new OPEN session with no voters and one zero-count
      option per label, appended to the stored sessions. `voteId`,
      `optionId`, `now` and `expires` (a day after `now`) stand for the
      generated ids and clock readings. */
  function CreateVote(s: Store, groupId: string, creatorId: string, question: string, labels: seq<string>,
                      voteId: string, optionId: nat -> string, now: string, expires: string): (r: (Store, VoteSession))
    ensures var v := r.1;
      && v.id == voteId && v.groupId == groupId && v.creatorId == creatorId && v.question == question
      && v.status == Open && v.voters == [] && v.createdAt == now && v.expiresAt == expires
      && |v.options| == |labels|
      && (forall i :: 0 <= i < |labels| ==> v.options[i].caption == labels[i] && v.options[i].count == 0)
    ensures WellFormed(r.1) && TotalVotes(r.1) == 0
    ensures r.0 == s.(votes := s.votes + [r.1])
  {
    var v := VoteSession(voteId, groupId, creatorId, question, NewOptions(labels, optionId), now, expires, Open, []);
    SumOfZeros(Collections.Map(v.options, OptionCount));
    (s.(votes := s.votes + [v]), v)
  }

  /** One ballot for option `j`: its count grows by one and the voter is
      appended. */
  function Ballot(v: VoteSession, j: nat, userId: string): (r: VoteSession)
    requires j < |v.options|
    ensures r.voters == v.voters + [userId]
    ensures |r.options| == |v.options|
    ensures r.options[j] == v.options[j].(count := v.options[j].count + 1)
    ensures forall k :: 0 <= k < |v.options| && k != j ==> r.options[k] == v.options[k]
    ensures r.id == v.id && r.groupId == v.groupId && r.status == v.status
    ensures TotalVotes(r) == TotalVotes(v) + 1
  {
    var r := v.(options := v.options[j := v.options[j].(count := v.options[j].count + 1)],
                voters := v.voters + [userId]);
    var c := Collections.Map(v.options, OptionCount);
    assert Collections.Map(r.options, OptionCount) == c[j := c[j] + 1];
    Collections.SumUpdate(c, j, 1);
    r
  }

  /** `castVote`. The checks come in the source's order: unknown session,
      repeated voter, closed session, unknown option. Otherwise the first
      option with that id gains a vote and the user joins the voters. */
  function CastVote(s: Store, voteId: string, userId: string, optionId: string): (r: Result<Store, VoteError>)
    ensures r == Err(VoteNotFound) <==> Collections.Lookup(s.votes, VoteKey, voteId).None?
    ensures r == Err(AlreadyVoted) <==>
      Collections.Lookup(s.votes, VoteKey, voteId).Some?
      && HasVoted(Collections.Lookup(s.votes, VoteKey, voteId).value, userId)
    ensures r == Err(VoteClosed) <==>
      Collections.Lookup(s.votes, VoteKey, voteId).Some?
      && var v := Collections.Lookup(s.votes, VoteKey, voteId).value;
      !HasVoted(v, userId) && v.status == Closed
    ensures r == Err(InvalidOption) <==>
      Collections.Lookup(s.votes, VoteKey, voteId).Some?
      && var v := Collections.Lookup(s.votes, VoteKey, voteId).value;
      !HasVoted(v, userId) && v.status == Open && Collections.Lookup(v.options, OptionKey, optionId).None?
    ensures r.Ok? ==>
      && Collections.IndexOfKey(s.votes, VoteKey, voteId).Some?
      && var i := Collections.IndexOfKey(s.votes, VoteKey, voteId).value;
      var v := s.votes[i];
      && Collections.IndexOfKey(v.options, OptionKey, optionId).Some?
      && var j := Collections.IndexOfKey(v.options, OptionKey, optionId).value;
      && r.value == s.(votes := s.votes[i := Ballot(v, j, userId)])
      && HasVoted(r.value.votes[i], userId)
  {
    match Collections.IndexOfKey(s.votes, VoteKey, voteId)
    case None => Err(VoteNotFound)
    case Some(i) =>
      var v := s.votes[i];
      if userId in v.voters then Err(AlreadyVoted)
      else if v.status == Closed then Err(VoteClosed)
      else match Collections.IndexOfKey(v.options, OptionKey, optionId)
        case None => Err(InvalidOption)
        case Some(j) => Ok(s.(votes := s.votes[i := Ballot(v, j, userId)]))
  }

  /** A created session is listed last among its group's sessions; the
      lists of the other groups do not change. */
  lemma CreatedVoteListedLast(s: Store, groupId: string, creatorId: string, question: string, labels: seq<string>,
                              voteId: string, optionId: nat -> string, now: string, expires: string, other: string)
    ensures var r := CreateVote(s, groupId, creatorId, question, labels, voteId, optionId, now, expires);
            GetGroupVotes(r.0, groupId) == GetGroupVotes(s, groupId) + [r.1]
    ensures var r := CreateVote(s, groupId, creatorId, question, labels, voteId, optionId, now, expires);
            other != groupId ==> GetGroupVotes(r.0, other) == GetGroupVotes(s, other)
  {
    var r := CreateVote(s, groupId, creatorId, question, labels, voteId, optionId, now, expires);
    var v := r.1;
    assert r.0.votes == s.votes + [v];
    Collections.FilterAppend(s.votes, [v], InGroup(groupId));
    Collections.FilterSingle(v, InGroup(groupId));
    Collections.FilterAppend(s.votes, [v], InGroup(other));
    Collections.FilterSingle(v, InGroup(other));
  }

  /** After a ballot the "Voté" badge shows for the voter, and the other
      users keep the badge they had. */
  lemma CastMarksVoter(s: Store, voteId: string, userId: string, optionId: string, other: string)
    requires CastVote(s, voteId, userId, optionId).Ok?
    ensures var i := Collections.IndexOfKey(s.votes, VoteKey, voteId).value;
            (HasVoted(CastVote(s, voteId, userId, optionId).value.votes[i], other)
             <==> HasVoted(s.votes[i], other) || other == userId)
  {
  }

  /** A ballot from a new voter keeps the session invariant. */
  lemma BallotKeepsWellFormed(v: VoteSession, j: nat, userId: string)
    requires WellFormed(v) && j < |v.options| && !HasVoted(v, userId)
    ensures WellFormed(Ballot(v, j, userId))
  {
    var r := Ballot(v, j, userId);
    forall a, b | 0 <= a < b < |r.voters|
      ensures r.voters[a] != r.voters[b]
    {
      if b == |v.voters| {
        assert r.voters[a] == v.voters[a];
      }
    }
  }

  /** Creating and casting keep every stored session well formed. */
  lemma CreateVoteKeepsWellFormed(s: Store, groupId: string, creatorId: string, question: string, labels: seq<string>,
                                  voteId: string, optionId: nat -> string, now: string, expires: string)
    requires AllWellFormed(s)
    ensures AllWellFormed(CreateVote(s, groupId, creatorId, question, labels, voteId, optionId, now, expires).0)
  {
  }

  lemma CastVoteKeepsWellFormed(s: Store, voteId: string, userId: string, optionId: string)
    requires AllWellFormed(s)
    requires CastVote(s, voteId, userId, optionId).Ok?
    ensures AllWellFormed(CastVote(s, voteId, userId, optionId).value)
  {
    var i := Collections.IndexOfKey(s.votes, VoteKey, voteId).value;
    var v := s.votes[i];
    var j := Collections.IndexOfKey(v.options, OptionKey, optionId).value;
    BallotKeepsWellFormed(v, j, userId);
  }

  /** A second ballot by the same user on the same session is refused. */
  lemma VoteTwiceRefused(s: Store, voteId: string, userId: string, o1: string, o2: string)
    requires CastVote(s, voteId, userId, o1).Ok?
    ensures CastVote(CastVote(s, voteId, userId, o1).value, voteId, userId, o2) == Err(AlreadyVoted)
  {
    var i := Collections.IndexOfKey(s.votes, VoteKey, voteId).value;
    var s1 := CastVote(s, voteId, userId, o1).value;
    Collections.IndexOfKeyUnique(s1.votes, VoteKey, voteId, i);
  }

  /** No operation ever closes a session: every session that `createVote`
      makes is OPEN and `castVote` keeps the status, so "Le vote est clos"
      cannot arise from these operations. */
  predicate AllOpen(s: Store) {
    forall i :: 0 <= i < |s.votes| ==> s.votes[i].status == Open
  }

  lemma NothingCloses(s: Store, voteId: string, userId: string, optionId: string,
                      groupId: string, creatorId: string, question: string, labels: seq<string>,
                      newId: string, optionIds: nat -> string, now: string, expires: string)
    requires AllOpen(s)
    ensures AllOpen(CreateVote(s, groupId, creatorId, question, labels, newId, optionIds, now, expires).0)
    ensures CastVote(s, voteId, userId, optionId) != Err(VoteClosed)
    ensures CastVote(s, voteId, userId, optionId).Ok? ==> AllOpen(CastVote(s, voteId, userId, optionId).value)
  {
  }

  // ------------------------------------------------------------ the page

  /** The percentage bar of one option: `Math.round(count / total * 100)`,
      or 0 while nobody has voted. */
  function OptionPercent(o: VoteOption, total: int): (r: int)
    ensures total <= 0 ==> r == 0
    ensures total > 0 ==> 2 * total * r <= 200 * o.count + total < 2 * total * (r + 1)
    ensures total > 0 && 0 <= o.count <= total ==> 0 <= r <= 100
    ensures total > 0 && o.count == total ==> r == 100
  {
    if total > 0 && 0 <= o.count <= total then
      Numeric.PercentBounds(o.count, total);
      Numeric.RoundRatio(100 * o.count, total)
    else if total > 0 then Numeric.RoundRatio(100 * o.count, total)
    else 0
  }

  /** In a well-formed session every bar lies between 0 and 100 percent. */
  lemma PercentInRange(v: VoteSession, j: nat)
    requires WellFormed(v) && j < |v.options|
    ensures 0 <= OptionPercent(v.options[j], TotalVotes(v)) <= 100
  {
    var c := Collections.Map(v.options, OptionCount);
    Collections.ElementAtMostSum(c, j);
  }

  /** Within one session, an option with fewer votes never shows a longer
      bar. */
  lemma PercentFollowsCount(a: VoteOption, b: VoteOption, total: int)
    requires a.count <= b.count
    ensures OptionPercent(a, total) <= OptionPercent(b, total)
  {
    if total > 0 {
      Numeric.RoundRatioMonotone(100 * a.count, 100 * b.count, total);
    }
  }

  /** `handleCreateVote`: a blank question does nothing; otherwise a session
      with the two option labels of the form is created. */
  function ProposeVote(s: Store, groupId: string, userId: string, question: string, option1: string, option2: string,
                       voteId: string, optionId: nat -> string, now: string, expires: string): (r: Option<Store>)
    ensures r.None? <==> Text.IsBlank(question)
    ensures r.Some? ==> (
      && |r.value.votes| == |s.votes| + 1
      && r.value.votes[..|s.votes|] == s.votes
      && var v := r.value.votes[|s.votes|];
      && v.question == question && v.creatorId == userId && v.groupId == groupId && |v.options| == 2
      && v.options[0].caption == option1 && v.options[1].caption == option2)
  {
    if Text.IsBlank(question) then None
    else Some(CreateVote(s, groupId, userId, question, [option1, option2], voteId, optionId, now, expires).0)
  }
}

=== FILE: wrappers.dfy ===
/** Option and Result: the model's stand-ins for JavaScript's `undefined`/`null`
    and for operations that either complete or throw an `Error`. */
module Wrappers {

  datatype Option<+T> = None | Some(value: T) {

    predicate IsFailure() {
      None?
    }

    function PropagateFailure<U>(): Option<U>
      requires None?
    {
      None
    }

    function Extract(): T
      requires Some?
    {
      value
    }

    /** `x ?? d` / `x || d` for a value that is either absent or present. */
    function GetOr(default: T): T {
      match this
      case Some(v) => v
      case None => default
    }
  }

  datatype Result<+R, +E> = Ok(value: R) | Err(error: E) {

    predicate IsFailure() {
      Err?
    }

    function PropagateFailure<U>(): Result<U, E>
      requires Err?
    {
      Err(error)
    }

    function Extract(): R
      requires Ok?
    {
      value
    }
  }
}
